=== FILE: README.md ===
# ospex-firebase core, modelled in Dafny

This project models the data path of the ospex Firestore/Supabase back end:

- **The monitor.** A refresh cycle reads the JsonOdds feed and, for each sport that is in season, joins every JsonOdds event with the Rundown and Sportspage schedules. The join matches on canonical team names and the UTC hour of kick-off. The cycle then moves every stored contest to `contests_archive` and writes the joined contests back under their JsonOdds id. A contest's locally owned `Created` flag is carried across refreshes.
- **Odds conversion.** Prices convert between American and decimal odds.
- **Odds history.** Each save writes one row per priced market from the current JsonOdds line. On a contest's first capture it also writes the Sportspage opening lines.
- **Slate sync.** The evaluation slate is synchronised. New games are inserted with `evaluate` left null. Existing games are refreshed in their sync columns only. Undecided games that started more than two hours ago are switched off.
- **Cloud functions.** Three scheduled functions act on the store:
  - one projects on-chain `ContestCreated` logs onto `contests`;
  - one projects `SpeculationCreated` logs onto `speculations`;
  - one archives past contests and speculations daily.

Everything is pure: the document store is a map of collections, the relational table is a map from `jsonodds_id` to records, and every answer of the outside world (feeds, clocks, store errors, number and date parsing) is a parameter. Times are integer epoch seconds.

| file | module | what it holds |
|---|---|---|
| wrappers.dfy | Wrappers | `Option`, `Result` |
| text.dfy | Text | `trim`, ASCII `toLowerCase`, decimal numerals |
| sequences.dfy | Sequences | first-match search, ordered collection with abort, filter, chunks, flatten |
| documents.dfy | Documents | values, documents, collections, batched moves and batched `set` |
| odds_utils.dfy | OddsUtils | src/odds-utils.ts |
| feeds.dfy | Feeds | feed records and the joined contest record |
| team_names.dfy | TeamNames | alias table, `standardizeTeamName`, `getTeamNameForSport` |
| seasons.dfy | Seasons | `sportsConfig`, season phase and activity |
| reconciler.dfy | Reconciler | `processEventData` |
| monitor.dfy | Monitor | `archiveOldData`, `saveDataToFirestore`, `monitor` |
| odds_history.dfy | OddsHistory | src/oddsHistory.ts |
| slate_sync.dfy | SlateSync | src/slateSync.ts |
| listeners.dfy | Listeners | functions/src/index.ts |

## Model

| member | source | states |
|---|---|---|
| OddsUtils.Round | src/odds-utils.ts:46-48 | `Math.round` lands within half a unit of its argument, halves going up |
| OddsUtils.Clean | src/odds-utils.ts:50-51 | the cleaned text keeps the digits and minus signs of the input: it holds only such characters, each of the input's is in it, and it is no longer |
| OddsUtils.CleanSingle | src/odds-utils.ts:50-51 | a single character is kept exactly when it is a digit or a minus sign |
| OddsUtils.CleanIsFilter | src/odds-utils.ts:50-51 | cleaning is the in-order filter of the input by "digit or minus" |
| OddsUtils.ParseIntPrefix | src/odds-utils.ts:52-54 | `parseInt` gives a number exactly when the text starts with a digit or with a minus followed by a digit; the number is the leading digit run read in decimal, negated after a minus |
| OddsUtils.ParseIntPrefixNumeral | src/odds-utils.ts:52-54 | a numeral, with or without a leading minus, followed by text that does not continue its digits reads back as its value or its negation |
| OddsUtils.ParseAmericanOdds | src/odds-utils.ts:45-55 | a number is rounded to within half a unit; a text with no parsable digits gives 0 |
| OddsUtils.ParseAmericanText | src/odds-utils.ts:50-54 | the string form: the cleaned text read by `parseInt`, 0 when that gives no number |
| OddsUtils.ParseNumeral | src/odds-utils.ts:45-55 | an unsigned, plus-signed or minus-signed numeral parses back to its value |
| OddsUtils.ParseIgnoresSuffix | src/odds-utils.ts:50-54 | after a separator that is neither a digit nor a minus, the rest of the text does not change the value unless its own cleaned form starts with a digit |
| OddsUtils.ParsePlusExample | src/odds-utils.ts:38-55 | "+150" parses to 150 |
| OddsUtils.ParseMinusExample | src/odds-utils.ts:38-55 | "-110" parses to -110 |
| OddsUtils.ParseFallbackExamples | src/odds-utils.ts:45-55 | a text without digits parses to 0; the number -109.5 rounds to -109 |
| OddsUtils.AmericanToDecimal | src/odds-utils.ts:19-36 | decimal odds are at least 1; above 1 exactly for prices at or beyond ±100; at least 2 exactly for underdog prices and -100 |
| OddsUtils.AmericanTextToDecimal | src/odds-utils.ts:19-24 | a text that is not a number gives the safe default 1.0; otherwise the numeric conversion applies |
| OddsUtils.DecimalExamples | src/odds-utils.ts:14-17 | +150 is 2.5, -200 is 1.5, and a price inside ±100 is 1.0 |
| OddsUtils.DecimalToAmerican | src/odds-utils.ts:63-73 | decimal 2 or more gives a price of at least +100; between 1 and 2 gives at most -100; 1 or less gives the invalid 0 |
| OddsUtils.RoundTrip | src/odds-utils.ts:19-73 | converting a real American price to decimal and back returns it unchanged, except -100, which comes back as +100 |
| OddsUtils.NoRoundTripInside | src/odds-utils.ts:34-35 | a price strictly inside ±100 does not survive the round trip and comes back as 0 |
| OddsUtils.DecimalRoundTripError | src/odds-utils.ts:63-66 | decimal odds of 2 or more come back from an American price within half a cent |
| Text.Trim | src/slateSync.ts:101-102 | the trimmed id is the infix left after white space is removed from both ends, and it neither starts nor ends with white space |
| Text.TrimIdempotent | src/slateSync.ts:101-102 | trimming a trimmed id changes nothing |
| Text.Lower | functions/src/index.ts:93-101 | lower-casing keeps the length, maps each character on its own, and leaves no upper-case ASCII letter |
| Text.LowerIdempotent | functions/src/index.ts:93-101 | lower-casing twice is lower-casing once |
| Text.NatToDecimal | functions/src/index.ts:38 | a contest id's text is a non-empty digit string without a leading zero |
| Text.DigitsOfNatToDecimal | functions/src/index.ts:38 | reading the numeral back gives the number |
| Text.NatToDecimalInjective | functions/src/index.ts:82-83 | distinct ids have distinct numerals |
| Documents.MoveDocs | src/monitor.ts:614-635 | a committed archive batch removes exactly the chosen documents from the source and puts stamped copies under the same ids in the archive; other archive documents are untouched |
| Documents.MoveDocsLosesNothing | src/monitor.ts:624-629 | every document either stays where it was or has a stamped copy in the archive |
| Documents.SetAll | src/monitor.ts:637-650 | a batch of writes covers the old ids plus the written ones; the last write to an id wins; unwritten documents keep their value |
| Feeds.HourBucket | src/monitor.ts:434-440 | two times share a bucket exactly when they fall in the same UTC hour |
| TeamNames.FindLeague | src/monitor.ts:386 | the list found is one for the requested league, and none is found only when no list has it |
| TeamNames.Standardize | src/monitor.ts:384-392 | the name of the first entry listing the name for the league, or the name itself when no entry does |
| TeamNames.StandardizeTeamName | src/monitor.ts:384-392 | `standardizeTeamName` is that resolution over the shipped alias table; StandardizeTeamNameIdempotent and the examples below state its behaviour |
| TeamNames.StandardizeIdempotent | src/monitor.ts:384-392 | on a table whose canonical names list themselves and only themselves, resolving a resolved name changes nothing |
| TeamNames.ShippedTableWellFormed | src/monitor.ts:247-253 | the shipped alias table meets that condition |
| TeamNames.StandardizeTeamNameIdempotent | src/monitor.ts:384-392 | with the shipped table, standardising twice is standardising once |
| TeamNames.LeagueLists | src/monitor.ts:247-253 | the two NBA entries have only an NBA list and the three college entries only a league-2 list |
| TeamNames.MiamiExample | src/monitor.ts:250-251 | "Miami (FL)" and "Miami Florida" meet in league 2, while "Miami (OH)" resolves to "Miami Ohio" |
| TeamNames.LeagueScopeExample | src/monitor.ts:384-392 | an NBA alias resolves in league 1 and is left alone in league 2 |
| TeamNames.TeamNameForSport | src/monitor.ts:413-423 | `getTeamNameForSport`: the canonical form of the Rundown name, with a non-empty mascot appended in MLB, NBA, NFL, NHL and WNBA; the four lemmas below state its behaviour |
| TeamNames.MascotIgnoredOutside | src/monitor.ts:413-423 | outside MLB, NBA, NFL, NHL and WNBA the mascot is irrelevant: any mascot, or none, gives the canonical bare name |
| TeamNames.EmptyMascotIsAbsent | src/monitor.ts:413-423 | an empty mascot gives the same name as no mascot |
| TeamNames.MascotMatchesFullName | src/monitor.ts:413-423 | in a mascot sport, a Rundown name and non-empty mascot resolve exactly as the JsonOdds full name "name mascot" does |
| TeamNames.TeamNameCanonical | src/monitor.ts:384-423 | the resolved name is canonical: standardising it again changes nothing |
| TeamNames.NbaMascotExample | src/monitor.ts:413-423 | the NBA team "LA" with mascot "Clippers" resolves to "Los Angeles Clippers" |
| TeamNames.CollegeMascotExample | src/monitor.ts:413-423 | in league 2 the mascot is ignored and "Miami (FL)" resolves to "Miami Florida" |
| Seasons.SeasonPhaseAndDaysAhead | src/monitor.ts:349-368 | the phase is the first interval (preseason, regular, postseason) containing now, else the offseason; the look-ahead is that phase's |
| Seasons.IsSeasonActive | src/monitor.ts:370-382 | a sport is active when now lies in its preseason, regular or postseason interval, both ends included; ActiveIffNotOffseason ties this to the phase |
| Seasons.ActiveIffNotOffseason | src/monitor.ts:349-382 | a sport is active exactly when its phase is not the offseason, and an inactive sport looks zero days ahead |
| Seasons.CalendarExample | src/monitor.ts:255-281 | on 1 May 2025 MLB is in its regular season with 5 days ahead and the NBA is out of season |
| Reconciler.RundownMatches | src/monitor.ts:445-475 | a Rundown event matches when it has two teams and two normalized teams, its second and first normalized teams (with the mascot rule) resolve to the JsonOdds home and away names, and it starts in the same UTC hour |
| Reconciler.SportspageMatches | src/monitor.ts:477-502 | a Sportspage result matches when its home and away names resolve to the JsonOdds home and away names and it starts in the same UTC hour |
| Reconciler.RundownCrashes | src/monitor.ts:448-453 | an event that passes the two-teams guard but has fewer than two normalized teams makes the read of `teams_normalized[1].name` throw a TypeError |
| Reconciler.FindRundown | src/monitor.ts:445-475 | the Rundown match is the first matching event with no crash before it; no match means none matches and none crashes; a crash is reported only for a crashing event reached before any match |
| Reconciler.FindRundownThrows | src/monitor.ts:445-475 | the Rundown search throws exactly when an event that crashes the comparison is reached before any match |
| Reconciler.FindSportspage | src/monitor.ts:477-502 | the Sportspage match is the first matching result, and no match means none matches |
| Reconciler.CreatedFlag | src/monitor.ts:506-507 | the carried flag is the `Created` of the first stored contest with the id, and false when there is none |
| Reconciler.CreatedFlagUniform | src/monitor.ts:506-507 | when some stored contest has the id and every one with the id is created, the carried flag is true |
| Reconciler.JoinOne | src/monitor.ts:431-533 | a record is emitted exactly when both feeds match and the event has a line; it is built from the first matches and carries the JsonOdds id, names, sport, first line, carried flag and status 'Ready' |
| Reconciler.JoinOneFails | src/monitor.ts:431-533 | an event throws exactly when the Rundown search throws, or when both feeds match and the event has no line; in the latter case the error names the event |
| Reconciler.Joins | src/monitor.ts:431-533 | one join per JsonOdds event, in input order |
| Reconciler.ProcessEventData | src/monitor.ts:425-535 | the join succeeds exactly when no event throws, emits at most one record per event, and a failure is the error of some event |
| Reconciler.EmittedRecordsAreJoined | src/monitor.ts:504-529 | every emitted record has status 'Ready', the carried flag, and the id, sport and home team of some input event |
| Reconciler.OutputIsSubsequence | src/monitor.ts:431-534 | the output is the records of an increasing selection of the input events, and every unselected event matched nothing |
| Reconciler.JoinedRecordEmitted | src/monitor.ts:425-535 | in a successful join, every record an event joins to is in the output |
| Monitor.Contributes | src/monitor.ts:666-680 | a sport is joined only when it is in season and both the Rundown and the Sportspage feed returned events |
| Monitor.SportEvents | src/monitor.ts:681 | exactly the feed's events of the sport: each kept one is of the sport and from the feed, and every event of the sport is kept |
| Monitor.SportJoin | src/monitor.ts:680-686 | a contributing sport contributes the join of its own JsonOdds events; any other sport contributes nothing |
| Monitor.CollectSports | src/monitor.ts:664-688 | every collected record has the carried flag and status 'Ready' and belongs to a sport that is in season and has both feeds non-empty; with no such sport nothing is collected |
| Monitor.CollectSportsOkIff | src/monitor.ts:664-688 | the collection succeeds exactly when every sport's join succeeds; a sport that does not contribute joins to nothing |
| Monitor.CollectSportsComplete | src/monitor.ts:664-688 | a successful collection holds every record of every sport's join |
| Monitor.ContestDoc | src/monitor.ts:508-529 | the stored document carries the JsonOdds id, the `Created` flag and the status |
| Monitor.ArchiveOldData | src/monitor.ts:614-635 | a committed archive empties `contests` and moves every contest, with `movedDate`, into the archive; a failed commit changes nothing |
| Monitor.ContestWritesFacts | src/monitor.ts:641-644 | the save writes exactly the ids of the records, and the last record with an id is the last write to it |
| Monitor.SaveDataToFirestore | src/monitor.ts:637-650 | a committed save applies the batched writes to `contests` only; a failed commit changes nothing; the archives and `speculations` are never touched |
| Monitor.MonitorCycle | src/monitor.ts:652-699 | a failed JsonOdds fetch, a failed read of the stored contests (`fetchExistingContestsFromFirestore`, src/monitor.ts:408-411, awaited at 661 with no catch of its own) or a throwing join ends the cycle before the archive, so the store is left as it was |
| Monitor.CycleEffect | src/monitor.ts:652-699 | after a complete cycle `contests` holds exactly the joined ids, each with its last joined record; every earlier contest is in the archive with `movedDate`; speculations are untouched |
| Monitor.CycleWritesJoinedEvent | src/monitor.ts:652-699 | a record that an event of a contributing sport joins to is collected, and its id is in `contests` after a complete cycle |
| Monitor.SetAllKeyed | src/monitor.ts:637-650 | a batch that writes each contest under its own JsonOdds id keeps the collection keyed that way |
| Monitor.SaveKeepsKeyed | src/monitor.ts:637-650 | a save, committed or not, keeps `contests` keyed by JsonOdds id |
| Monitor.CycleKeepsKeyed | src/monitor.ts:652-699 | a cycle, whatever the store and feeds answer, keeps `contests` keyed by JsonOdds id |
| Monitor.SavedContests | src/monitor.ts:637-650 | saving into an emptied `contests` leaves exactly the records' ids, the last record per id winning |
| Monitor.NoContributionEmptiesContests | src/monitor.ts:664-694 | when no sport is active with non-empty feeds, a complete cycle leaves `contests` empty |
| Monitor.CreatedSurvivesRefresh | src/monitor.ts:504-529 | when the snapshot read is the stored `contests`, keyed by JsonOdds id, a contest stored with `Created: true` whose id the cycle re-emits is still created after the cycle |
| OddsHistory.ThreeMarkets | src/oddsHistory.ts:108-177 | three optional rows pushed in market order give at most one row per market, in order, each present exactly when its option is |
| OddsHistory.CurrentMoneyline | src/oddsHistory.ts:111-130 | a current moneyline row is a moneyline row with the event's ids, the capture time, the JsonOdds source and decimals converted from its prices |
| OddsHistory.CurrentSpread | src/oddsHistory.ts:132-152 | the same for the spread row |
| OddsHistory.CurrentTotal | src/oddsHistory.ts:154-174 | the same for the totals row |
| OddsHistory.BuildCurrentOddsRows | src/oddsHistory.ts:108-177 | at most three rows, one per market in market order, each with the event's ids, the capture time, the JsonOdds source and converted decimals |
| OddsHistory.CurrentMoneylineRow | src/oddsHistory.ts:111-130 | the moneyline row is there exactly when both prices parse to non-zero; it comes first, has no line and holds the parsed prices |
| OddsHistory.CurrentSpreadRow | src/oddsHistory.ts:132-152 | the spread row is there exactly when the home spread is non-empty and numeric and both prices parse to non-zero; its line is the home spread |
| OddsHistory.CurrentTotalRow | src/oddsHistory.ts:154-174 | the totals row is there exactly when the total is non-empty and numeric and both prices parse to non-zero; Over sits in the away fields and Under in the home fields |
| OddsHistory.EmptyParsesToZero | src/odds-utils.ts:50-54 | an empty price parses to 0, so the emptiness guards add nothing to the non-zero test |
| OddsHistory.AwaySpreadUnused | src/oddsHistory.ts:132-152 | the away spread text never affects the current rows |
| OddsHistory.Truthy | src/oddsHistory.ts:194-232 | a price passes the opener tests exactly when it is present and non-zero, as JavaScript truthiness of a number |
| OddsHistory.OpenerMoneyline | src/oddsHistory.ts:191-208 | an opener moneyline row is a moneyline row with the given ids, the capture time, the Sportspage-open source and converted decimals; it has no line and its prices are the opening away and home prices |
| OddsHistory.OpenerSpread | src/oddsHistory.ts:210-227 | the same for the opener spread row, whose line is the opening home spread and whose prices are the opening away and home prices |
| OddsHistory.OpenerTotal | src/oddsHistory.ts:229-246 | the same for the opener totals row, whose line is the opening total, with Over in the away price and Under in the home price |
| OddsHistory.BuildOpenerRows | src/oddsHistory.ts:183-249 | at most three opener rows in market order, with non-zero prices, converted decimals, and a line exactly for spread and total |
| OddsHistory.OpenerRowsPresence | src/oddsHistory.ts:183-249 | an opener row of a market exists exactly when that opening line is there with both prices non-zero and, for spread and total, the line defined; the spread line is the home spread |
| OddsHistory.OpenerRowsPrices | src/oddsHistory.ts:183-249 | each opener row is exactly the row its market's opener builder makes from the opening line |
| OddsHistory.OpenerTotalPrices | src/oddsHistory.ts:229-246 | an opener totals row carries the opening total as its line, the Over price in the away field and the Under price in the home field |
| OddsHistory.IsFirstCapture | src/oddsHistory.ts:88-106 | a capture is the first exactly when the count query answered zero; a failed query answers "not first" |
| OddsHistory.OpenerEligible | src/oddsHistory.ts:284-289 | openers are added on a first capture of an event with a non-zero Sportspage id whose result is known and has a first line |
| OddsHistory.EventRows | src/oddsHistory.ts:279-299 | one event gives its current rows first, always, followed by its opener rows exactly on an eligible first capture and by nothing otherwise; at most six rows, all with its id and the capture time |
| OddsHistory.AllRows | src/oddsHistory.ts:273-300 | a save collects at most six rows per event |
| OddsHistory.RowOrigin | src/oddsHistory.ts:279-299 | every collected row belongs to one event of the batch and has its id, the capture time and converted decimals; an opener row comes only from an event whose count query answered zero and whose Sportspage result has a first line |
| OddsHistory.SnapshotSaved | src/oddsHistory.ts:273-300 | every current row of every event is collected, and so is every opener row of an event on an eligible first capture |
| OddsHistory.SaveOddsToSupabase | src/oddsHistory.ts:262-326 | no events insert nothing; with events, nothing is inserted exactly when no row was collected; a successful insert saves exactly the collected rows; a unique violation is tolerated, and since the statement is atomic it saved none of them; any other insert error is rethrown with its code |
| OddsHistory.SnapshotStored | src/oddsHistory.ts:252-318 | when the insert succeeds, every event's current JsonOdds rows are among the rows saved, and so are its opener rows on an eligible first capture |
| SlateSync.GameTime | src/slateSync.ts:111-124 | a time is missing (skip) exactly when the record has none; the conversion throws exactly on a time text that does not parse |
| SlateSync.DecimalOrNull | src/slateSync.ts:127-130 | a price is null exactly when it parsed to 0, and otherwise is its decimal conversion, at least 1 |
| SlateSync.SpreadLineOf | src/slateSync.ts:132-136 | the spread line is the away spread when numeric, else the negated home spread, and null only when neither is numeric |
| SlateSync.TotalLineOf | src/slateSync.ts:143-144 | the total is kept exactly when numeric and positive |
| SlateSync.ConferenceOf | src/slateSync.ts:154-160 | the conference is the home team's when Sportspage gives a non-empty one, else null |
| SlateSync.MakeSlateRow | src/slateSync.ts:126-181 | the row carries the contest's sport and teams, the time and sync stamp, each price's decimal-or-null, the spread and total lines, and the conference; `has_odds` holds exactly when some market is fully priced |
| SlateSync.BuildSlateRow | src/slateSync.ts:100-182 | a row is built exactly when the trimmed id is non-empty, the sport is known and a time is there; the loop throws exactly on an unparsable time text; the row uses the trimmed id and the sport's league |
| SlateSync.BuildSlateRows | src/slateSync.ts:98-182 | the rows are built exactly when no contest throws, at most one per contest |
| SlateSync.SlateRowsFollowContests | src/slateSync.ts:100-182 | the rows are the built rows of an increasing selection of the contests |
| SlateSync.KeptRowsUsable | src/slateSync.ts:101-109 | every kept row has a non-empty trimmed id and its sport's league |
| SlateSync.OwnedColumnsNotSynced | src/slateSync.ts:240-262 | `evaluate`, `source` and the id are not among the refreshed columns |
| SlateSync.UpdatePayload | src/slateSync.ts:240-262 | an update writes exactly the sixteen sync columns with the row's values, never `evaluate`, `source` or the id |
| SlateSync.RowValue | src/slateSync.ts:160-181 | each column of a slate row holds the row's value for it; `source` is always `'monitor_sync'`, an absent conference is null, and `evaluate` is left null |
| SlateSync.InsertRecord | src/slateSync.ts:220-226 | an inserted record sets the sync columns, the id, the source and `evaluate` at its default |
| SlateSync.InsertedUndecided | src/slateSync.ts:220 | a newly inserted record has `evaluate` null |
| SlateSync.ExistingIds | src/slateSync.ts:196-213 | the existing ids are table ids found by a successful chunk query, and every id in a successful chunk that is in the table is found |
| SlateSync.ExistingIdsExact | src/slateSync.ts:196-213 | when every query succeeds the existing ids are exactly the row ids present in the table |
| SlateSync.NewRows | src/slateSync.ts:215 | every row to insert is one of the rows and is not known to exist |
| SlateSync.UpdateRows | src/slateSync.ts:216 | every row to update is one of the rows and is known to exist |
| SlateSync.PartitionRows | src/slateSync.ts:215-216 | inserts and updates are disjoint and together are exactly the rows, as a multiset |
| SlateSync.InsertBatches | src/slateSync.ts:200-223 | every id chunk and insert batch has between 1 and 100 entries, and the chunks put together are the ids and the rows to insert |
| SlateSync.Conflicts | src/slateSync.ts:222-234 | an insert statement is rejected with unique violation '23505' when one of its ids is already stored or an id repeats inside the batch, so one duplicate rejects the whole batch |
| SlateSync.InsertBatch | src/slateSync.ts:222-238 | an insert never changes an existing record, a failed or conflicting insert adds nothing, and every record it adds comes from the batch |
| SlateSync.InsertBatchAdds | src/slateSync.ts:220-238 | a successful conflict-free insert adds every row of the batch with `evaluate` null |
| SlateSync.InsertAll | src/slateSync.ts:221-238 | the inserts never remove or change an existing record |
| SlateSync.InsertAllAdds | src/slateSync.ts:218-238 | when every insert succeeds, batches whose ids are distinct and absent from the table put every one of their rows into the table as its fresh record |
| SlateSync.FilteredRowsDistinct | src/slateSync.ts:215-216 | when the rows have distinct ids, so do the rows kept for insertion or for update |
| SlateSync.NewRowsInserted | src/slateSync.ts:196-238 | when every insert succeeds and the queries found exactly the ids present, every row kept for insertion is in the table afterwards as its fresh record |
| SlateSync.UpdateOne | src/slateSync.ts:240-269 | an update merges the sync columns into the matching record only; a failed update changes nothing |
| SlateSync.UpdateAll | src/slateSync.ts:240-269 | the updates neither add nor remove records |
| SlateSync.PayloadOverrides | src/slateSync.ts:240-262 | a second refresh of a record replaces the first one entirely, since both payloads cover the same columns |
| SlateSync.UpdateAllUntouched | src/slateSync.ts:240-269 | a record no update names, or whose update fails, is unchanged |
| SlateSync.UpdateAllRefreshes | src/slateSync.ts:240-269 | a record whose last update succeeds becomes its old columns overwritten by that row's payload |
| SlateSync.UpdatesKeepOwnedColumns | src/slateSync.ts:240-262 | no update writes outside the sync columns: `evaluate`, `source`, the id and the user's settings keep their values |
| SlateSync.StartedBefore | src/slateSync.ts:275-279 | `.lt('game_time', cutoff)`: the record's game time is a timestamp strictly before the cutoff; a missing or non-timestamp `game_time` never qualifies |
| SlateSync.Deactivate | src/slateSync.ts:273-282 | exactly the undecided games that started more than two hours ago get `evaluate = false`; nothing else changes |
| SlateSync.DeactivateIdempotent | src/slateSync.ts:273-282 | deactivating twice is deactivating once |
| SlateSync.DeactivateKeepsDecisions | src/slateSync.ts:276-280 | a decided game is never touched by the cleanup |
| SlateSync.DeactivateClosesPast | src/slateSync.ts:273-282 | after the cleanup no game that started before the cutoff is left undecided |
| SlateSync.SaveSlateToSupabase | src/slateSync.ts:87-290 | no contests or no usable rows change nothing; the sync throws exactly when some usable contest (non-empty trimmed id, known sport) has an unparsable time text; a sync never removes a record |
| SlateSync.WriteRows | src/slateSync.ts:196-289 | the writes of a sync with usable rows: the id queries, the batched inserts of the rows not found, the updates of the rows found, then the cleanup when it succeeds |
| SlateSync.SyncCoversRows | src/slateSync.ts:196-269 | when every id query and every insert succeeds and the rows have distinct ids, every usable contest's id is in the slate after the sync, whether it was inserted or already there |
| SlateSync.SyncRefreshesExisting | src/slateSync.ts:196-282 | when the id queries succeed and the rows have distinct ids, a row already in the table whose update succeeds leaves its record holding the row's values in every sync column; without the cleanup the record is exactly its old columns overwritten by the payload |
| SlateSync.WriteRowsRefreshes | src/slateSync.ts:196-282 | the same, stated for the writes that follow the building of the rows |
| SlateSync.SyncInsertsNew | src/slateSync.ts:196-282 | when every id query and insert succeeds and the rows have distinct ids, a row whose id was not in the table ends up as its fresh record with `evaluate` null, switched to false only when the cleanup ran and the game started more than two hours ago |
| SlateSync.WriteRowsInserts | src/slateSync.ts:196-282 | the same, stated for the writes that follow the building of the rows |
| SlateSync.SyncClosesPastGames | src/slateSync.ts:273-282 | after a sync with usable rows whose cleanup succeeded, no game that started more than two hours ago is left undecided |
| SlateSync.WriteRowsClosesPast | src/slateSync.ts:273-282 | the same, stated for the writes that follow the building of the rows |
| SlateSync.SyncKeepsEvaluate | src/slateSync.ts:1-10 | a record that already has a non-null `evaluate` keeps it through the whole sync, whatever the store answers |
| Listeners.MarkFields | functions/src/index.ts:46-50 | marking sets `Created` true, the contest id text and status 'Created' and keeps every other field |
| Listeners.MarkCreated | functions/src/index.ts:40-57 | every contest with the log's JsonOdds id is marked, the others are untouched, and no document is added or removed |
| Listeners.MarkCreatedIdempotent | functions/src/index.ts:40-57 | replaying a log changes nothing more |
| Listeners.MarkedContestReadsCreated | functions/src/index.ts:44-50 | a marked contest keeps its JsonOdds id and reads as created in the next monitor cycle |
| Listeners.ListenForContestCreation | functions/src/index.ts:26-63 | the listener adds and removes no contest |
| Listeners.FailedContestEventSkipped | functions/src/index.ts:34-62 | a log that throws neither stops nor changes the handling of the others |
| Listeners.MarkKeeps | functions/src/index.ts:46-50 | marking never changes a JsonOdds id and never clears `Created` |
| Listeners.ListenKeepsCreated | functions/src/index.ts:34-62 | later logs keep a marked contest marked |
| Listeners.ListenMarksMatching | functions/src/index.ts:26-63 | every contest named by a readable log is created at the end, whatever the other logs |
| Listeners.ListenLeavesOthers | functions/src/index.ts:34-62 | a contest that no readable log names keeps its document unchanged |
| Listeners.ListenKeepsKeyed | functions/src/index.ts:34-62 | the listener keeps every contest under its own JsonOdds id |
| Listeners.SpeculationKey | functions/src/index.ts:93-94 | the key is the contest id's numeral, a dash, and the lower-cased scorer |
| Listeners.SpeculationKeyInjective | functions/src/index.ts:93-96 | two logs share a speculation document exactly when they name the same contest and the same scorer up to case |
| Listeners.SpeculationFields | functions/src/index.ts:97-105 | the update writes the lower-cased scorer, status 'Created', the lock time and the contest id text |
| Listeners.ApplySpeculationCreated | functions/src/index.ts:74-111 | a lock time not after now, or a missing document, changes nothing; otherwise only the keyed document is updated, with the log's fields |
| Listeners.StoredScorerMatchesKey | functions/src/index.ts:93-105 | after the update the stored scorer is the suffix of the document's own key |
| Listeners.ApplySpeculationIdempotent | functions/src/index.ts:95-105 | replaying a log changes nothing more |
| Listeners.ListenForSpeculationCreation | functions/src/index.ts:65-112 | no document is added or removed, and logs that are all unreadable or past change nothing |
| Listeners.ListenSpeculationLeavesOthers | functions/src/index.ts:74-111 | a speculation document that no readable future log targets keeps its contents |
| Listeners.ApplyKeepsRecorded | functions/src/index.ts:93-105 | a document recorded as created for a contest and scorer stays so after any one log |
| Listeners.ListenKeepsRecorded | functions/src/index.ts:74-111 | the same across a whole run of logs |
| Listeners.ListenRecordsSpeculation | functions/src/index.ts:74-111 | a readable log whose lock time is ahead and whose document exists leaves that document created with the lower-cased scorer and the contest id, whatever the logs around it |
| Documents.TimeAtOrBefore | functions/src/index.ts:118-130 | `where(field, "<=", now)`: the field is present and holds a timestamp at or before now; a missing or non-timestamp field never matches |
| Listeners.DueIds | functions/src/index.ts:118-119 | the query returns exactly the documents whose field is a timestamp at or before now |
| Listeners.ScheduledCleanup | functions/src/index.ts:114-148 | due contests and then due speculations move to their archives with `archivedDate`; the documents that stay and the archive's earlier documents are unchanged; a failed contest commit changes nothing, and a failed speculation commit leaves the speculations and their archive as they were |
| Listeners.FutureContestStays | functions/src/index.ts:118-126 | a contest still to come, or without a timestamp, stays untouched |
| Listeners.CleanupLeavesNothingDue | functions/src/index.ts:114-148 | after a complete cleanup nothing due is left, so a second run at the same time moves nothing |

## Left out

- Network and I/O: the HTTP feeds, the Firestore and Supabase clients and the chain provider. Their answers are parameters: feed contents, a failed JsonOdds fetch and a failed read of the stored contests as `None`, commit, query and insert outcomes, count answers and chain logs.
- src/supabase.ts (client construction) and functions/.eslintrc.js are not part of this model.
- IEEE-754 arithmetic: prices, lines and decimal odds are exact reals. `NaN` is modelled as an absent value, and `parseFloat` and date-text parsing are uninterpreted parameters.
- Date handling:
  - `getDatesForNextNDays` and the time-zone shift it applies are not modelled;
  - the config dates are fixed to the epoch second of their UTC midnight;
  - ISO timestamp text is represented by epoch seconds;
  - the Sportspage and Rundown date text is given already converted.
- The hour bucket: the source builds a local-time `Date` from UTC fields. It is modelled as the UTC hour (`t / 3600`), which agrees whenever the local offset is constant.
- Clocks: each reading of the current time is one `now` parameter. The source reads the clock several times in one run (season phase versus activity, `synced_at` versus the deactivation cutoff).
- Concurrency: the contest listener's `forEach(async …)` updates are not awaited. They are modelled as applied in order with no failure.
- Logging, counters and console output.
- Reconciler.CreatedFlag: a stored contest whose `Created` is absent or not a boolean is read as false. In the source an absent field gives `undefined`; Firestore's `set` rejects `undefined` (the monitor does not enable `ignoreUndefinedProperties`), so `batch.set` throws inside `saveDataToFirestore`, which its own catch absorbs (src/monitor.ts:637-649), and nothing is written after the archive already emptied `contests`. A non-boolean value would be copied through unchanged. Neither case is modelled.
- Text.Lower: only ASCII letters are lower-cased. Addresses are hexadecimal, and full Unicode case mapping is not modelled.
- Listeners.SpeculationFields: `theNumber` is an unbounded integer. The BigInt-to-Number precision loss and `parseInt` on the block-number settings are not modelled.
- OddsUtils.ParseAmericanOdds: the digits are read exactly. `parseInt` precision beyond 2^53 is not modelled.
- Callers: the monitor cycle in src/monitor.ts does not call `saveOddsToSupabase` or `saveSlateToSupabase`, although the header comments at src/oddsHistory.ts:8 and src/slateSync.ts:5 say it does. Both are modelled as standalone operations over the joined records.
- OddsHistory.OpenerSpread: the Sportspage opening lines treat `null` like `undefined`, as absent. The source's `!== undefined` test would accept `null` as a line.
- SlateSync.InsertRecord: the table's other defaults (`max_eval_count`, `eval_interval_minutes`, `current_eval_count`, `last_eval_at`, `source_notes`) are folded into one `Other` column. They are never written by the sync.
- SlateSync.SyncCoversRows: stated only for rows with distinct ids and for store answers that all succeed. Two contests sharing an id make their batch hit the unique key, and the whole batch is then rejected.
- SlateSync.SaveSlateToSupabase: its own contract states the early exits, the throw and that no record is removed. What the records become is stated by SlateSync.SyncKeepsEvaluate, SyncRefreshesExisting, SyncInsertsNew and SyncClosesPastGames. The count of inserted and updated rows is not modelled.
- Transport errors: an insert, update or cleanup call that fails is a boolean parameter. A batch insert that hits a unique violation inserts nothing, since a Postgres statement is atomic.
- OddsHistory.AllRows: its own contract bounds the row count only. Where each row comes from is stated by OddsHistory.RowOrigin, and that every row of the snapshot is collected by OddsHistory.SnapshotSaved.
- SlateSync.UpdateAll: its own contract states only that no record is added or removed. What each record becomes is stated by SlateSync.UpdateAllRefreshes and SlateSync.UpdateAllUntouched.
- Monitor.CreatedSurvivesRefresh: stated for a snapshot that is the stored `contests` at the time of the archive. If a listener marks a contest between the read of the snapshot and the archive, the mark is lost; that interleaving is not modelled.
- Listeners.ListenForContestCreation: its own contract states only that no contest is added or removed. What happens to each contest is stated by Listeners.ListenMarksMatching and Listeners.ListenLeavesOthers.
- Listeners.ListenForSpeculationCreation: its own contract states that no document is added or removed and that unreadable or past logs change nothing. What happens to each document is stated by Listeners.ListenRecordsSpeculation and Listeners.ListenSpeculationLeavesOthers.

=== FILE: documents.dfy ===
/** An abstract document store: each collection maps a document id to a
    document, and a document maps field names to values. The same value
    type serves the rows of the relational tables. */
module Documents {

  /** A stored field value; `Time` is a timestamp in epoch seconds. */
  datatype Value = Null | Bool(b: bool) | Int(i: int) | Num(x: real) | Str(s: string) | Time(seconds: int)

  type Doc = map<string, Value>

  type Collection = map<string, Doc>

  /** The four collections the monitor and the cloud functions touch. */
  datatype Db = Db(
    contests: Collection,
    contestsArchive: Collection,
    speculations: Collection,
    speculationsArchive: Collection)

  /** The field is present and holds a timestamp at or before `now`
      (a `where(field, "<=", now)` query only returns such documents). */
  predicate TimeAtOrBefore(d: Doc, field: string, now: int) {
    field in d && d[field].Time? && d[field].seconds <= now
  }

  /** A batched copy-then-delete of the documents whose ids are in `ids`:
      each is written to `dst` under the same id with `stampField := now`
      added, and removed from `src`. Returns the new (src, dst). */
  function MoveDocs(src: Collection, dst: Collection, ids: set<string>, stampField: string, now: int)
    : (r: (Collection, Collection))
    requires ids <= src.Keys
    ensures r.0.Keys == src.Keys - ids
    ensures forall id :: id in r.0 ==> r.0[id] == src[id]
    ensures r.1.Keys == dst.Keys + ids
    ensures forall id :: id in ids ==> r.1[id] == src[id][stampField := Time(now)]
    ensures forall id :: id in dst && id !in ids ==> r.1[id] == dst[id]
  {
    var kept := map id | id in src && id !in ids :: src[id];
    var moved := map id | id in ids :: src[id][stampField := Time(now)];
    (kept, dst + moved)
  }

  /** Moving never loses a document: every document of `src` is still in
      `src` or has its copy, stamped, in `dst`. */
  lemma MoveDocsLosesNothing(src: Collection, dst: Collection, ids: set<string>, stampField: string, now: int)
    requires ids <= src.Keys
    ensures var (s, d) := MoveDocs(src, dst, ids, stampField, now);
            forall id :: id in src ==>
              (id in s && s[id] == src[id]) || (id in d && d[id] - {stampField} == src[id] - {stampField})
  {
    var (s, d) := MoveDocs(src, dst, ids, stampField, now);
    forall id | id in src
      ensures (id in s && s[id] == src[id]) || (id in d && d[id] - {stampField} == src[id] - {stampField})
    {
      if id in ids {
        assert d[id] == src[id][stampField := Time(now)];
        assert d[id] - {stampField} == src[id] - {stampField};
      }
    }
  }

  /** No later write in `ws` targets the key of `ws[k]`. */
  ghost predicate LastWrite<V>(ws: seq<(string, V)>, k: int)
    requires 0 <= k < |ws|
  {
    forall m :: k < m < |ws| ==> ws[m].0 != ws[k].0
  }

  function Keys<V>(ws: seq<(string, V)>): set<string> {
    set k | 0 <= k < |ws| :: ws[k].0
  }

  lemma KeysSnoc<V>(ws: seq<(string, V)>)
    requires |ws| > 0
    ensures Keys(ws) == Keys(ws[..|ws| - 1]) + {ws[|ws| - 1].0}
  {
    var init := ws[..|ws| - 1];
    assert forall k :: 0 <= k < |init| ==> init[k] == ws[k];
  }

  lemma LastWriteOfInit<V>(ws: seq<(string, V)>, k: nat)
    requires k < |ws| - 1 && LastWrite(ws, k)
    ensures LastWrite(ws[..|ws| - 1], k) && ws[..|ws| - 1][k] == ws[k] && ws[|ws| - 1].0 != ws[k].0
  {
  }

  /** A batch of `set` writes applied in order: the last write to a key wins
      and keys not written keep their value. */
  function SetAll<V(==)>(m: map<string, V>, ws: seq<(string, V)>): (r: map<string, V>)
    ensures r.Keys == m.Keys + Keys(ws)
    ensures forall id :: id in m && id !in Keys(ws) ==> r[id] == m[id]
    ensures forall k :: 0 <= k < |ws| && LastWrite(ws, k) ==> r[ws[k].0] == ws[k].1
    decreases |ws|
  {
    if |ws| == 0 then m
    else
      var n := |ws| - 1;
      var init := ws[..n];
      KeysSnoc(ws);
      var prev := SetAll(m, init);
      var r := prev[ws[n].0 := ws[n].1];
      assert r.Keys == prev.Keys + {ws[n].0};
      forall k | 0 <= k < |ws| && LastWrite(ws, k)
        ensures r[ws[k].0] == ws[k].1
      {
        if k < n {
          LastWriteOfInit(ws, k);
        }
      }
      r
  }
}

=== FILE: feeds.dfy ===
/** The records read from the three sports feeds and the reconciled contest
    record they are joined into (the interfaces at the top of src/monitor.ts).
    Only the fields the core reads are kept; times are epoch seconds. */
module Feeds {
  import opened Wrappers

  /** One bookmaker line of a JsonOdds event; every price is display text. */
  datatype JsonOddsOdds = JsonOddsOdds(
    oddType: string,
    moneyLineAway: string,
    moneyLineHome: string,
    overLine: string,
    totalNumber: string,
    underLine: string,
    pointSpreadAway: string,
    pointSpreadHome: string,
    pointSpreadAwayLine: string,
    pointSpreadHomeLine: string)

  /** A JsonOdds event: the authoritative feed, keyed by `id`. */
  datatype JsonOddsEvent = JsonOddsEvent(
    id: string,
    homeTeam: string,
    awayTeam: string,
    sport: int,
    matchTime: int,
    odds: seq<JsonOddsOdds>)

  datatype NormalizedTeam = NormalizedTeam(name: string, mascot: Option<string>)

  /** A Rundown event. `teamCount` is the length of its `teams` array (0 when
      absent); the names are taken from `teamsNormalized`, away first. */
  datatype RundownEvent = RundownEvent(
    eventId: string,
    teamCount: nat,
    teamsNormalized: seq<NormalizedTeam>,
    eventDate: int)

  datatype SportspageTeam = SportspageTeam(team: string, conference: Option<string>)

  /** Opening lines of a Sportspage result; every number may be undefined. */
  datatype MoneylineOpen = MoneylineOpen(awayOdds: Option<real>, homeOdds: Option<real>)
  datatype SpreadOpen = SpreadOpen(away: Option<real>, home: Option<real>, awayOdds: Option<real>, homeOdds: Option<real>)
  datatype TotalOpen = TotalOpen(total: Option<real>, overOdds: Option<real>, underOdds: Option<real>)
  datatype SportspageOdds = SportspageOdds(
    moneylineOpen: Option<MoneylineOpen>,
    spreadOpen: Option<SpreadOpen>,
    totalOpen: Option<TotalOpen>)

  /** A Sportspage result, keyed by the numeric `gameId`. */
  datatype SportspageResult = SportspageResult(
    gameId: int,
    home: SportspageTeam,
    away: SportspageTeam,
    date: int,
    odds: seq<SportspageOdds>)

  /** The shapes a contest's `MatchTime` can take once read back: an ISO
      text, a store timestamp, a bare `_seconds` object, or nothing usable. */
  datatype MatchTime = IsoText(text: string) | Timestamp(seconds: int) | SecondsField(seconds: int) | NoMatchTime

  /** The reconciled contest (`CombinedEvent`); `odds` is the first JsonOdds
      line, copied field by field. */
  datatype CombinedEvent = CombinedEvent(
    jsonoddsId: string,
    rundownId: string,
    sportspageId: int,
    sport: int,
    awayTeam: string,
    homeTeam: string,
    matchTime: MatchTime,
    odds: JsonOddsOdds,
    created: bool,
    status: string)

  /** The UTC hour a time falls in; two feeds agree on a kickoff when their
      buckets are equal. */
  function HourBucket(t: int): (h: int)
    ensures h * 3600 <= t < h * 3600 + 3600
  {
    t / 3600
  }
}

=== FILE: listeners.dfy ===
/** The scheduled cloud functions of functions/src/index.ts: projections of
    on-chain creation events onto the `contests` and `speculations`
    collections, and the daily archival of past contests and speculations.
    The chain query and the clock are parameters; events are handled one
    after another. */
module Listeners {
  import opened Wrappers
  import opened Text
  import opened Documents
  import opened Reconciler

  // ---------------------------------------------------------------------
  // Contest creation

  /** The arguments of a `ContestCreated` log; `None` stands for a log whose
      arguments cannot be read (the handler throws and the error is caught). */
  datatype ContestCreated = ContestCreated(contestId: nat, jsonoddsId: string)

  /** The fields `update` writes on every contest with the event's JsonOdds
      id. */
  function MarkFields(d: Doc, ev: ContestCreated): (r: Doc)
    ensures r.Keys == d.Keys + {"Created", "contestId", "status"}
    ensures CreatedField(r) && r["status"] == Str("Created") && r["contestId"] == Str(NatToDecimal(ev.contestId))
    ensures forall f :: f in d && f !in {"Created", "contestId", "status"} ==> r[f] == d[f]
  {
    d["Created" := Bool(true)]["contestId" := Str(NatToDecimal(ev.contestId))]["status" := Str("Created")]
  }

  /** One `ContestCreated` event: every contest whose `jsonoddsID` equals the
      event's is marked created; no match changes nothing. */
  function MarkCreated(contests: Collection, ev: ContestCreated): (r: Collection)
    ensures r.Keys == contests.Keys
    ensures forall id :: id in contests && HasJsonOddsId(contests[id], ev.jsonoddsId) ==> r[id] == MarkFields(contests[id], ev)
    ensures forall id :: id in contests && !HasJsonOddsId(contests[id], ev.jsonoddsId) ==> r[id] == contests[id]
  {
    map id | id in contests :: if HasJsonOddsId(contests[id], ev.jsonoddsId) then MarkFields(contests[id], ev) else contests[id]
  }

  /** Marking is idempotent: replaying a log changes nothing more. */
  lemma MarkCreatedIdempotent(contests: Collection, ev: ContestCreated)
    ensures MarkCreated(MarkCreated(contests, ev), ev) == MarkCreated(contests, ev)
  {
    var once := MarkCreated(contests, ev);
    forall id | id in once ensures MarkCreated(once, ev)[id] == once[id] {
      if HasJsonOddsId(contests[id], ev.jsonoddsId) {
        assert HasJsonOddsId(once[id], ev.jsonoddsId);
        assert MarkFields(once[id], ev) == once[id];
      }
    }
  }

  /** A marked contest reads back as created by the next monitor cycle. */
  lemma MarkedContestReadsCreated(contests: Collection, ev: ContestCreated, id: string)
    requires id in contests && HasJsonOddsId(contests[id], ev.jsonoddsId)
    ensures var r := MarkCreated(contests, ev);
            HasJsonOddsId(r[id], ev.jsonoddsId) && CreatedField(r[id])
  {
    assert "jsonoddsID" !in {"Created", "contestId", "status"};
  }

  /** `listenForContestCreation`: the logs in order; an unreadable log is
      skipped and the loop goes on. */
  function ListenForContestCreation(contests: Collection, events: seq<Option<ContestCreated>>): (r: Collection)
    ensures r.Keys == contests.Keys
    decreases |events|
  {
    if |events| == 0 then contests
    else
      var next := if events[0].Some? then MarkCreated(contests, events[0].value) else contests;
      ListenForContestCreation(next, events[1..])
  }

  /** A failing log neither stops nor changes the processing of the others. */
  lemma {:induction false} FailedContestEventSkipped(contests: Collection, before: seq<Option<ContestCreated>>,
                                                   after: seq<Option<ContestCreated>>)
    ensures ListenForContestCreation(contests, before + [None] + after) == ListenForContestCreation(contests, before + after)
    decreases |before|
  {
    if |before| == 0 {
      assert before + [None] + after == [None] + after;
      assert ([None] + after)[1..] == after;
      assert before + after == after;
    } else {
      var next := if before[0].Some? then MarkCreated(contests, before[0].value) else contests;
      assert (before + [None] + after)[1..] == before[1..] + [None] + after;
      assert (before + after)[1..] == before[1..] + after;
      FailedContestEventSkipped(next, before[1..], after);
    }
  }

  /** Marking never changes a contest's JsonOdds id and never clears its
      `Created` flag. */
  lemma MarkKeeps(contests: Collection, ev: ContestCreated, id: string, j: string)
    requires id in contests
    ensures var r := MarkCreated(contests, ev);
            && (HasJsonOddsId(contests[id], j) ==> HasJsonOddsId(r[id], j))
            && (CreatedField(contests[id]) ==> CreatedField(r[id]))
  {
    assert "jsonoddsID" !in {"Created", "contestId", "status"};
  }

  /** Later logs keep a contest marked. */
  lemma {:induction false} ListenKeepsCreated(contests: Collection, events: seq<Option<ContestCreated>>, id: string)
    requires id in contests && CreatedField(contests[id])
    ensures var r := ListenForContestCreation(contests, events);
            id in r && CreatedField(r[id])
    decreases |events|
  {
    if |events| > 0 {
      var next := if events[0].Some? then MarkCreated(contests, events[0].value) else contests;
      if events[0].Some? {
        MarkKeeps(contests, events[0].value, id, "");
      }
      ListenKeepsCreated(next, events[1..], id);
    }
  }

  /** Every contest named by a readable log ends up created, whatever the
      logs before and after it. */
  lemma {:induction false} ListenMarksMatching(contests: Collection, events: seq<Option<ContestCreated>>, k: nat, id: string)
    requires k < |events| && events[k].Some?
    requires id in contests && HasJsonOddsId(contests[id], events[k].value.jsonoddsId)
    ensures var r := ListenForContestCreation(contests, events);
            id in r && CreatedField(r[id])
    decreases |events|
  {
    var next := if events[0].Some? then MarkCreated(contests, events[0].value) else contests;
    if events[0].Some? {
      MarkKeeps(contests, events[0].value, id, events[k].value.jsonoddsId);
    }
    if k == 0 {
      ListenKeepsCreated(next, events[1..], id);
    } else {
      assert events[1..][k - 1] == events[k];
      ListenMarksMatching(next, events[1..], k - 1, id);
    }
  }

  /** A contest that no readable log names keeps its document unchanged. */
  lemma {:induction false} ListenLeavesOthers(contests: Collection, events: seq<Option<ContestCreated>>, id: string)
    requires id in contests
    requires forall k :: 0 <= k < |events| && events[k].Some? ==> !HasJsonOddsId(contests[id], events[k].value.jsonoddsId)
    ensures var r := ListenForContestCreation(contests, events);
            id in r && r[id] == contests[id]
    decreases |events|
  {
    if |events| > 0 {
      var next := if events[0].Some? then MarkCreated(contests, events[0].value) else contests;
      assert next[id] == contests[id];
      assert forall k :: 1 <= k < |events| ==> events[1..][k - 1] == events[k];
      ListenLeavesOthers(next, events[1..], id);
    }
  }

  /** The listener keeps every contest under its own JsonOdds id. */
  lemma {:induction false} ListenKeepsKeyed(contests: Collection, events: seq<Option<ContestCreated>>)
    requires KeyedByJsonOddsId(contests)
    ensures KeyedByJsonOddsId(ListenForContestCreation(contests, events))
    decreases |events|
  {
    if |events| > 0 {
      var next := if events[0].Some? then MarkCreated(contests, events[0].value) else contests;
      if events[0].Some? {
        forall id | id in next ensures HasJsonOddsId(next[id], id) {
          MarkKeeps(contests, events[0].value, id, id);
        }
      }
      ListenKeepsKeyed(next, events[1..]);
    }
  }

  // ---------------------------------------------------------------------
  // Speculation creation

  /** The arguments of a `SpeculationCreated` log; `lockTime` is in epoch
      seconds. */
  datatype SpeculationCreated = SpeculationCreated(
    speculationId: nat,
    contestId: nat,
    lockTime: int,
    scorer: string,
    creator: string,
    theNumber: int)

  /** The speculation document id: contest id, a dash, lower-cased scorer. */
  function SpeculationKey(contestId: nat, scorer: string): (k: string)
    ensures |k| > |NatToDecimal(contestId)| && k[|NatToDecimal(contestId)|] == '-'
    ensures k[..|NatToDecimal(contestId)|] == NatToDecimal(contestId)
    ensures k[|NatToDecimal(contestId)| + 1..] == Lower(scorer)
  {
    NatToDecimal(contestId) + "-" + Lower(scorer)
  }

  /** Keys are injective in (contest id, lower-cased scorer): two
      speculations share a document only when they name the same contest
      and the same scorer up to case. */
  lemma SpeculationKeyInjective(c1: nat, s1: string, c2: nat, s2: string)
    ensures SpeculationKey(c1, s1) == SpeculationKey(c2, s2) <==> c1 == c2 && Lower(s1) == Lower(s2)
  {
    var d1, d2 := NatToDecimal(c1), NatToDecimal(c2);
    var k1, k2 := SpeculationKey(c1, s1), SpeculationKey(c2, s2);
    if k1 == k2 {
      if |d1| < |d2| {
        assert false;
      } else if |d2| < |d1| {
        assert false;
      }
      assert d1 == k1[..|d1|] && d2 == k2[..|d2|];
      NatToDecimalInjective(c1, c2);
      assert Lower(s1) == k1[|d1| + 1..] && Lower(s2) == k2[|d2| + 1..];
    }
  }

  /** The fields `update` writes on the speculation document. */
  function SpeculationFields(ev: SpeculationCreated): (f: Doc)
    ensures "speculationScorer" in f && f["speculationScorer"] == Str(Lower(ev.scorer))
    ensures "status" in f && f["status"] == Str("Created")
    ensures "lockTime" in f && f["lockTime"] == Time(ev.lockTime)
    ensures "contestId" in f && f["contestId"] == Str(NatToDecimal(ev.contestId))
  {
    map[
      "speculationId" := Str(NatToDecimal(ev.speculationId)),
      "contestId" := Str(NatToDecimal(ev.contestId)),
      "lockTime" := Time(ev.lockTime),
      "speculationScorer" := Str(Lower(ev.scorer)),
      "theNumber" := Int(ev.theNumber),
      "speculationCreator" := Str(ev.creator),
      "status" := Str("Created")]
  }

  /** One `SpeculationCreated` event at time `now`: a lock time not after
      `now` is skipped; otherwise the document under the speculation key is
      updated, and a missing document makes `update` fail, which is caught,
      so nothing is written. */
  function ApplySpeculationCreated(specs: Collection, ev: SpeculationCreated, now: int): (r: Collection)
    ensures ev.lockTime <= now ==> r == specs
    ensures SpeculationKey(ev.contestId, ev.scorer) !in specs ==> r == specs
    ensures r.Keys == specs.Keys
    ensures forall id :: id in specs && id != SpeculationKey(ev.contestId, ev.scorer) ==> r[id] == specs[id]
    ensures ev.lockTime > now && SpeculationKey(ev.contestId, ev.scorer) in specs ==>
              var key := SpeculationKey(ev.contestId, ev.scorer);
              r[key] == specs[key] + SpeculationFields(ev)
  {
    if ev.lockTime <= now then specs
    else
      var key := SpeculationKey(ev.contestId, ev.scorer);
      if key in specs then specs[key := specs[key] + SpeculationFields(ev)] else specs
  }

  /** A stored speculation carries its own key's scorer: after the update,
      the document's scorer is the lower-cased suffix of its id. */
  lemma StoredScorerMatchesKey(specs: Collection, ev: SpeculationCreated, now: int)
    requires ev.lockTime > now && SpeculationKey(ev.contestId, ev.scorer) in specs
    ensures var key := SpeculationKey(ev.contestId, ev.scorer);
            var d := ApplySpeculationCreated(specs, ev, now)[key];
            "speculationScorer" in d && d["speculationScorer"] == Str(key[|NatToDecimal(ev.contestId)| + 1..])
            && d["status"] == Str("Created")
  {
    var key := SpeculationKey(ev.contestId, ev.scorer);
    assert key[|NatToDecimal(ev.contestId)| + 1..] == Lower(ev.scorer);
  }

  /** Replaying an event is harmless. */
  lemma ApplySpeculationIdempotent(specs: Collection, ev: SpeculationCreated, now: int)
    ensures ApplySpeculationCreated(ApplySpeculationCreated(specs, ev, now), ev, now) == ApplySpeculationCreated(specs, ev, now)
  {
    var key := SpeculationKey(ev.contestId, ev.scorer);
    if ev.lockTime > now && key in specs {
      var d := specs[key];
      assert d + SpeculationFields(ev) + SpeculationFields(ev) == d + SpeculationFields(ev);
    }
  }

  /** `listenForSpeculationCreation`: the logs in order; an unreadable log is
      skipped and the loop goes on. */
  function ListenForSpeculationCreation(specs: Collection, events: seq<Option<SpeculationCreated>>, now: int): (r: Collection)
    ensures r.Keys == specs.Keys
    ensures (forall k :: 0 <= k < |events| ==> events[k].None? || events[k].value.lockTime <= now) ==> r == specs
    decreases |events|
  {
    if |events| == 0 then specs
    else
      var next := if events[0].Some? then ApplySpeculationCreated(specs, events[0].value, now) else specs;
      ListenForSpeculationCreation(next, events[1..], now)
  }

  /** A speculation document that no readable future log targets keeps its
      contents. */
  lemma {:induction false} ListenSpeculationLeavesOthers(specs: Collection, events: seq<Option<SpeculationCreated>>, now: int, id: string)
    requires id in specs
    requires forall k :: 0 <= k < |events| && events[k].Some? && events[k].value.lockTime > now ==>
               SpeculationKey(events[k].value.contestId, events[k].value.scorer) != id
    ensures var r := ListenForSpeculationCreation(specs, events, now);
            id in r && r[id] == specs[id]
    decreases |events|
  {
    if |events| > 0 {
      var next := if events[0].Some? then ApplySpeculationCreated(specs, events[0].value, now) else specs;
      assert next[id] == specs[id];
      assert forall k :: 1 <= k < |events| ==> events[1..][k - 1] == events[k];
      ListenSpeculationLeavesOthers(next, events[1..], now, id);
    }
  }

  /** The document records a created speculation on this contest for this
      scorer. */
  predicate Recorded(d: Doc, contestId: nat, scorer: string) {
    && "status" in d && d["status"] == Str("Created")
    && "speculationScorer" in d && d["speculationScorer"] == Str(Lower(scorer))
    && "contestId" in d && d["contestId"] == Str(NatToDecimal(contestId))
  }

  /** Any later event keeps a recorded document recorded: an event that
      writes the same key names the same contest and scorer. */
  lemma ApplyKeepsRecorded(specs: Collection, ev: SpeculationCreated, now: int, c: nat, s: string)
    requires SpeculationKey(c, s) in specs && Recorded(specs[SpeculationKey(c, s)], c, s)
    ensures var key := SpeculationKey(c, s);
            var r := ApplySpeculationCreated(specs, ev, now);
            key in r && Recorded(r[key], c, s)
  {
    var key := SpeculationKey(c, s);
    if ev.lockTime > now && SpeculationKey(ev.contestId, ev.scorer) == key {
      SpeculationKeyInjective(ev.contestId, ev.scorer, c, s);
    }
  }

  lemma {:induction false} ListenKeepsRecorded(specs: Collection, events: seq<Option<SpeculationCreated>>, now: int, c: nat, s: string)
    requires SpeculationKey(c, s) in specs && Recorded(specs[SpeculationKey(c, s)], c, s)
    ensures var r := ListenForSpeculationCreation(specs, events, now);
            SpeculationKey(c, s) in r && Recorded(r[SpeculationKey(c, s)], c, s)
    decreases |events|
  {
    if |events| > 0 {
      var next := if events[0].Some? then ApplySpeculationCreated(specs, events[0].value, now) else specs;
      if events[0].Some? {
        ApplyKeepsRecorded(specs, events[0].value, now, c, s);
      }
      ListenKeepsRecorded(next, events[1..], now, c, s);
    }
  }

  /** A readable log whose lock time is still ahead and whose document
      exists leaves that document recorded as created, with the lower-cased
      scorer and the contest id, whatever the logs around it. */
  lemma {:induction false} ListenRecordsSpeculation(specs: Collection, events: seq<Option<SpeculationCreated>>, now: int, k: nat)
    requires k < |events| && events[k].Some? && events[k].value.lockTime > now
    requires SpeculationKey(events[k].value.contestId, events[k].value.scorer) in specs
    ensures var ev := events[k].value;
            var r := ListenForSpeculationCreation(specs, events, now);
            var key := SpeculationKey(ev.contestId, ev.scorer);
            key in r && Recorded(r[key], ev.contestId, ev.scorer)
    decreases |events|
  {
    var ev := events[k].value;
    var next := if events[0].Some? then ApplySpeculationCreated(specs, events[0].value, now) else specs;
    if k == 0 {
      var key := SpeculationKey(ev.contestId, ev.scorer);
      assert Recorded(next[key], ev.contestId, ev.scorer);
      ListenKeepsRecorded(next, events[1..], now, ev.contestId, ev.scorer);
    } else {
      assert events[1..][k - 1] == events[k];
      ListenRecordsSpeculation(next, events[1..], now, k - 1);
    }
  }

  // ---------------------------------------------------------------------
  // Daily cleanup

  /** The ids a `where(field, "<=", now)` query returns. */
  function DueIds(c: Collection, field: string, now: int): (ids: set<string>)
    ensures ids <= c.Keys
    ensures forall id :: id in c ==> (id in ids <==> TimeAtOrBefore(c[id], field, now))
  {
    set id | id in c && TimeAtOrBefore(c[id], field, now)
  }

  /** `scheduledFirestoreCleanup`: contests whose `MatchTime` and
      speculations whose `lockTime` are at or before `now` move to their
      archives with `archivedDate`. The contest batch commits first; when it
      fails the speculation batch is never committed. */
  function ScheduledCleanup(db: Db, now: int, contestsCommitOk: bool, specsCommitOk: bool): (r: Db)
    ensures !contestsCommitOk ==> r == db
    ensures contestsCommitOk ==>
              && r.contests.Keys == db.contests.Keys - DueIds(db.contests, "MatchTime", now)
              && (forall id :: id in r.contests ==> r.contests[id] == db.contests[id])
              && r.contestsArchive.Keys == db.contestsArchive.Keys + DueIds(db.contests, "MatchTime", now)
              && (forall id :: id in DueIds(db.contests, "MatchTime", now) ==>
                    r.contestsArchive[id] == db.contests[id]["archivedDate" := Time(now)])
              && (forall id :: id in db.contestsArchive && id !in DueIds(db.contests, "MatchTime", now) ==>
                    r.contestsArchive[id] == db.contestsArchive[id])
    ensures contestsCommitOk && !specsCommitOk ==> r.speculations == db.speculations && r.speculationsArchive == db.speculationsArchive
    ensures contestsCommitOk && specsCommitOk ==>
              && r.speculations.Keys == db.speculations.Keys - DueIds(db.speculations, "lockTime", now)
              && (forall id :: id in r.speculations ==> r.speculations[id] == db.speculations[id])
              && r.speculationsArchive.Keys == db.speculationsArchive.Keys + DueIds(db.speculations, "lockTime", now)
              && (forall id :: id in DueIds(db.speculations, "lockTime", now) ==>
                    r.speculationsArchive[id] == db.speculations[id]["archivedDate" := Time(now)])
              && (forall id :: id in db.speculationsArchive && id !in DueIds(db.speculations, "lockTime", now) ==>
                    r.speculationsArchive[id] == db.speculationsArchive[id])
  {
    if !contestsCommitOk then db
    else
      var (c, ca) := MoveDocs(db.contests, db.contestsArchive, DueIds(db.contests, "MatchTime", now), "archivedDate", now);
      var afterContests := db.(contests := c, contestsArchive := ca);
      if !specsCommitOk then afterContests
      else
        var (s, sa) := MoveDocs(db.speculations, db.speculationsArchive, DueIds(db.speculations, "lockTime", now), "archivedDate", now);
        afterContests.(speculations := s, speculationsArchive := sa)
  }

  /** A contest that is still to come, or whose `MatchTime` is not a
      timestamp, stays where it is. */
  lemma FutureContestStays(db: Db, now: int, contestsCommitOk: bool, specsCommitOk: bool, id: string)
    requires id in db.contests && !TimeAtOrBefore(db.contests[id], "MatchTime", now)
    ensures var r := ScheduledCleanup(db, now, contestsCommitOk, specsCommitOk);
            id in r.contests && r.contests[id] == db.contests[id]
  {
  }

  /** After a complete cleanup nothing due is left, so a second run at the
      same time moves nothing. */
  lemma CleanupLeavesNothingDue(db: Db, now: int)
    ensures var r := ScheduledCleanup(db, now, true, true);
            DueIds(r.contests, "MatchTime", now) == {} && DueIds(r.speculations, "lockTime", now) == {}
  {
  }
}

=== FILE: monitor.dfy ===
/** One refresh cycle of src/monitor.ts: join the feeds sport by sport, move
    every stored contest to `contests_archive`, then write the joined
    records into `contests` keyed by their JsonOdds id. */
module Monitor {
  import opened Wrappers
  import opened Documents
  import opened Feeds
  import opened Seasons
  import opened Sequences
  import opened Reconciler

  /** What the two schedule feeds returned for one sport over its date window
      (a failed fetch returns an empty list). */
  datatype SportFeed = SportFeed(rundown: seq<RundownEvent>, sportspage: seq<SportspageResult>)

  /** A sport is joined only when in season and both feeds returned events. */
  predicate Contributes(c: SportConfig, f: SportFeed, now: int) {
    IsSeasonActive(c, now) && |f.rundown| > 0 && |f.sportspage| > 0
  }

  /** The JsonOdds events of one sport: all of them and only them. */
  function SportEvents(js: seq<JsonOddsEvent>, sport: int): (r: seq<JsonOddsEvent>)
    ensures forall k :: 0 <= k < |r| ==> r[k].sport == sport && r[k] in js
    ensures forall i :: 0 <= i < |js| && js[i].sport == sport ==> js[i] in r
  {
    Filter(js, (e: JsonOddsEvent) => e.sport == sport)
  }

  /** The records one sport contributes: the join of its events when it
      contributes, nothing otherwise. */
  function SportJoin(js: seq<JsonOddsEvent>, c: SportConfig, f: SportFeed, existing: seq<Doc>, now: int)
    : Result<seq<CombinedEvent>, JoinError>
  {
    if Contributes(c, f, now) then ProcessEventData(SportEvents(js, c.jsonoddsId), f.rundown, f.sportspage, existing) else Ok([])
  }

  /** The joined records of all sports, in configuration order; the first
      join that throws aborts the cycle. */
  function CollectSports(js: seq<JsonOddsEvent>, configs: seq<SportConfig>, feeds: seq<SportFeed>, existing: seq<Doc>, now: int)
    : (r: Result<seq<CombinedEvent>, JoinError>)
    requires |feeds| == |configs|
    ensures r.Ok? ==> forall k :: 0 <= k < |r.value| ==>
              && r.value[k].created == CreatedFlag(existing, r.value[k].jsonoddsId)
              && r.value[k].status == "Ready"
              && exists i :: 0 <= i < |configs| && Contributes(configs[i], feeds[i], now) && r.value[k].sport == configs[i].jsonoddsId
    ensures (forall i :: 0 <= i < |configs| ==> !Contributes(configs[i], feeds[i], now)) ==> r == Ok([])
    decreases |configs|
  {
    if |configs| == 0 then Ok([])
    else
      match SportJoin(js, configs[0], feeds[0], existing, now)
      case Err(e) => Err(e)
      case Ok(mine) =>
        match CollectSports(js, configs[1..], feeds[1..], existing, now)
        case Err(e) => Err(e)
        case Ok(rest) =>
          var all := mine + rest;
          forall k | 0 <= k < |all|
            ensures && all[k].created == CreatedFlag(existing, all[k].jsonoddsId)
                    && all[k].status == "Ready"
                    && exists i :: 0 <= i < |configs| && Contributes(configs[i], feeds[i], now) && all[k].sport == configs[i].jsonoddsId
          {
            if k < |mine| {
              var evs := SportEvents(js, configs[0].jsonoddsId);
              EmittedRecordsAreJoined(evs, feeds[0].rundown, feeds[0].sportspage, existing, k);
              assert all[k].sport == configs[0].jsonoddsId;
            } else {
              assert all[k] == rest[k - |mine|];
              var i :| 0 <= i < |configs[1..]| && Contributes(configs[1..][i], feeds[1..][i], now)
                       && all[k].sport == configs[1..][i].jsonoddsId;
              assert configs[1..][i] == configs[i + 1] && feeds[1..][i] == feeds[i + 1];
            }
          }
          Ok(all)
  }

  /** One step of the collection: the first sport's records, then the rest. */
  lemma CollectSportsStep(js: seq<JsonOddsEvent>, configs: seq<SportConfig>, feeds: seq<SportFeed>, existing: seq<Doc>, now: int)
    requires |feeds| == |configs| > 0
    ensures var r := CollectSports(js, configs, feeds, existing, now);
            var here := SportJoin(js, configs[0], feeds[0], existing, now);
            var rest := CollectSports(js, configs[1..], feeds[1..], existing, now);
            && (r.Ok? <==> here.Ok? && rest.Ok?)
            && (r.Ok? ==> r.value == here.value + rest.value)
  {
  }

  /** The collection succeeds exactly when every sport's join does. */
  lemma {:induction false} CollectSportsOkIff(js: seq<JsonOddsEvent>, configs: seq<SportConfig>, feeds: seq<SportFeed>,
                                              existing: seq<Doc>, now: int)
    requires |feeds| == |configs|
    ensures CollectSports(js, configs, feeds, existing, now).Ok? <==>
              forall i :: 0 <= i < |configs| ==> SportJoin(js, configs[i], feeds[i], existing, now).Ok?
    decreases |configs|
  {
    if |configs| > 0 {
      var cs, fs := configs[1..], feeds[1..];
      CollectSportsStep(js, configs, feeds, existing, now);
      CollectSportsOkIff(js, cs, fs, existing, now);
      assert forall i :: 1 <= i < |configs| ==> cs[i - 1] == configs[i] && fs[i - 1] == feeds[i];
    }
  }

  /** A successful collection holds every record of every sport's join. */
  lemma {:induction false} CollectSportsComplete(js: seq<JsonOddsEvent>, configs: seq<SportConfig>, feeds: seq<SportFeed>,
                                                 existing: seq<Doc>, now: int, i: nat, k: nat)
    requires |feeds| == |configs|
    requires CollectSports(js, configs, feeds, existing, now).Ok?
    requires i < |configs| && SportJoin(js, configs[i], feeds[i], existing, now).Ok?
    requires k < |SportJoin(js, configs[i], feeds[i], existing, now).value|
    ensures SportJoin(js, configs[i], feeds[i], existing, now).value[k] in CollectSports(js, configs, feeds, existing, now).value
    decreases |configs|
  {
    var cs, fs := configs[1..], feeds[1..];
    CollectSportsStep(js, configs, feeds, existing, now);
    var here := SportJoin(js, configs[0], feeds[0], existing, now);
    var rest := CollectSports(js, cs, fs, existing, now);
    var x := SportJoin(js, configs[i], feeds[i], existing, now).value[k];
    if i == 0 {
      assert x in here.value;
    } else {
      assert cs[i - 1] == configs[i] && fs[i - 1] == feeds[i];
      CollectSportsComplete(js, cs, fs, existing, now, i - 1, k);
      assert x in rest.value;
    }
  }

  /** The stored form of a match time. */
  function MatchTimeValue(t: MatchTime): Value {
    match t
    case IsoText(s) => Str(s)
    case Timestamp(s) => Time(s)
    case SecondsField(s) => Time(s)
    case NoMatchTime => Null
  }

  /** The document written for a joined record. */
  function ContestDoc(c: CombinedEvent): (d: Doc)
    ensures "jsonoddsID" in d && d["jsonoddsID"] == Str(c.jsonoddsId)
    ensures "Created" in d && d["Created"] == Bool(c.created)
    ensures "status" in d && d["status"] == Str(c.status)
  {
    map[
      "jsonoddsID" := Str(c.jsonoddsId),
      "rundownID" := Str(c.rundownId),
      "sportspageID" := Int(c.sportspageId),
      "Sport" := Int(c.sport),
      "AwayTeam" := Str(c.awayTeam),
      "HomeTeam" := Str(c.homeTeam),
      "MatchTime" := MatchTimeValue(c.matchTime),
      "OddType" := Str(c.odds.oddType),
      "MoneyLineAway" := Str(c.odds.moneyLineAway),
      "MoneyLineHome" := Str(c.odds.moneyLineHome),
      "OverLine" := Str(c.odds.overLine),
      "TotalNumber" := Str(c.odds.totalNumber),
      "UnderLine" := Str(c.odds.underLine),
      "PointSpreadAway" := Str(c.odds.pointSpreadAway),
      "PointSpreadHome" := Str(c.odds.pointSpreadHome),
      "PointSpreadAwayLine" := Str(c.odds.pointSpreadAwayLine),
      "PointSpreadHomeLine" := Str(c.odds.pointSpreadHomeLine),
      "Created" := Bool(c.created),
      "status" := Str(c.status)
    ]
  }

  /** `archiveOldData`: one batch moving every contest to the archive with
      `movedDate`; a failed commit changes nothing. */
  function ArchiveOldData(db: Db, now: int, commitOk: bool): (r: Db)
    ensures !commitOk ==> r == db
    ensures commitOk ==> r.contests == map[]
    ensures commitOk ==> r.contestsArchive.Keys == db.contestsArchive.Keys + db.contests.Keys
    ensures commitOk ==> forall id :: id in db.contests ==> r.contestsArchive[id] == db.contests[id]["movedDate" := Time(now)]
    ensures forall id :: id in db.contestsArchive && id !in db.contests ==> r.contestsArchive[id] == db.contestsArchive[id]
    ensures r.speculations == db.speculations && r.speculationsArchive == db.speculationsArchive
  {
    if !commitOk then db
    else
      var moved := MoveDocs(db.contests, db.contestsArchive, db.contests.Keys, "movedDate", now);
      db.(contests := moved.0, contestsArchive := moved.1)
  }

  /** The writes of `saveDataToFirestore`: each record under its JsonOdds id. */
  function ContestWrites(data: seq<CombinedEvent>): (ws: seq<(string, Doc)>)
    ensures |ws| == |data|
    ensures forall k :: 0 <= k < |data| ==> ws[k].0 == data[k].jsonoddsId && ws[k].1 == ContestDoc(data[k])
  {
    seq(|data|, k requires 0 <= k < |data| => (data[k].jsonoddsId, ContestDoc(data[k])))
  }

  function Ids(data: seq<CombinedEvent>): set<string> {
    set c | c in data :: c.jsonoddsId
  }

  /** No later record in `data` has the same id as `data[k]`. */
  ghost predicate LastWithId(data: seq<CombinedEvent>, k: int)
    requires 0 <= k < |data|
  {
    forall m :: k < m < |data| ==> data[m].jsonoddsId != data[k].jsonoddsId
  }

  lemma ContestWritesFacts(data: seq<CombinedEvent>)
    ensures Keys(ContestWrites(data)) == Ids(data)
    ensures forall k :: 0 <= k < |data| && LastWithId(data, k) ==> LastWrite(ContestWrites(data), k)
  {
    var ws := ContestWrites(data);
    forall id | id in Keys(ws) ensures id in Ids(data) {
      var k :| 0 <= k < |ws| && ws[k].0 == id;
      assert data[k] in data;
    }
    forall id | id in Ids(data) ensures id in Keys(ws) {
      var c :| c in data && c.jsonoddsId == id;
      var k :| 0 <= k < |data| && data[k] == c;
      assert ws[k].0 == id;
    }
  }

  /** `saveDataToFirestore`: one batch; a failed commit changes nothing. */
  function SaveDataToFirestore(db: Db, data: seq<CombinedEvent>, commitOk: bool): (r: Db)
    ensures !commitOk ==> r == db
    ensures commitOk ==> r.contests == SetAll(db.contests, ContestWrites(data))
    ensures r.contestsArchive == db.contestsArchive && r.speculations == db.speculations
    ensures r.speculationsArchive == db.speculationsArchive
  {
    if commitOk then db.(contests := SetAll(db.contests, ContestWrites(data))) else db
  }

  /** `monitor`: a failed JsonOdds fetch, a failed read of the stored
      contests or a throwing join leaves the store as it was; otherwise
      archive, then save. `stored` is the snapshot of `contests` read at the
      start of the cycle, `None` when that read fails. */
  function MonitorCycle(db: Db, jsonodds: Option<seq<JsonOddsEvent>>, feeds: seq<SportFeed>, stored: Option<seq<Doc>>,
                        now: int, archiveOk: bool, saveOk: bool): (r: Db)
    requires |feeds| == |SportsConfig|
    ensures jsonodds.None? ==> r == db
    ensures stored.None? ==> r == db
    ensures jsonodds.Some? && stored.Some? && CollectSports(jsonodds.value, SportsConfig, feeds, stored.value, now).Err? ==> r == db
  {
    match jsonodds
    case None => db
    case Some(js) =>
      match stored
      case None => db
      case Some(existing) =>
        match CollectSports(js, SportsConfig, feeds, existing, now)
        case Err(_) => db
        case Ok(all) => SaveDataToFirestore(ArchiveOldData(db, now, archiveOk), all, saveOk)
  }

  /** After a complete cycle `contests` holds exactly the joined records,
      keyed by JsonOdds id, and every earlier contest sits in the archive
      with `movedDate`. */
  lemma CycleEffect(db: Db, js: seq<JsonOddsEvent>, feeds: seq<SportFeed>, existing: seq<Doc>, now: int,
                    all: seq<CombinedEvent>)
    requires |feeds| == |SportsConfig|
    requires CollectSports(js, SportsConfig, feeds, existing, now) == Ok(all)
    ensures var r := MonitorCycle(db, Some(js), feeds, Some(existing), now, true, true);
            && r.contests.Keys == Ids(all)
            && (forall k :: 0 <= k < |all| && LastWithId(all, k) ==> r.contests[all[k].jsonoddsId] == ContestDoc(all[k]))
            && (forall id :: id in db.contests ==> id in r.contestsArchive && r.contestsArchive[id] == db.contests[id]["movedDate" := Time(now)])
            && r.speculations == db.speculations
  {
    var r := SaveDataToFirestore(ArchiveOldData(db, now, true), all, true);
    assert MonitorCycle(db, Some(js), feeds, Some(existing), now, true, true) == r;
    SavedContests(ArchiveOldData(db, now, true), all);
  }

  /** A committed save onto an emptied `contests` leaves exactly the records
      of this cycle, the last record per id winning. */
  lemma SavedContests(db: Db, all: seq<CombinedEvent>)
    requires db.contests == map[]
    ensures var r := SaveDataToFirestore(db, all, true);
            && r.contests.Keys == Ids(all)
            && forall k :: 0 <= k < |all| && LastWithId(all, k) ==> r.contests[all[k].jsonoddsId] == ContestDoc(all[k])
  {
    ContestWritesFacts(all);
    var ws := ContestWrites(all);
    var r := SaveDataToFirestore(db, all, true);
    forall k | 0 <= k < |all| && LastWithId(all, k)
      ensures r.contests[all[k].jsonoddsId] == ContestDoc(all[k])
    {
      assert LastWrite(ws, k);
    }
  }

  /** A sport that is out of season or whose schedule feeds came back empty
      adds nothing; with no contributing sport the cycle empties `contests`. */
  lemma NoContributionEmptiesContests(db: Db, js: seq<JsonOddsEvent>, feeds: seq<SportFeed>, existing: seq<Doc>, now: int)
    requires |feeds| == |SportsConfig|
    requires forall i :: 0 <= i < |SportsConfig| ==> !Contributes(SportsConfig[i], feeds[i], now)
    ensures MonitorCycle(db, Some(js), feeds, Some(existing), now, true, true).contests == map[]
  {
    assert Keys(ContestWrites([])) == {};
  }

  /** Every record a contributing sport's join emits for one of its
      JsonOdds events is written to `contests` by a complete cycle. */
  lemma CycleWritesJoinedEvent(db: Db, js: seq<JsonOddsEvent>, feeds: seq<SportFeed>, existing: seq<Doc>, now: int,
                               all: seq<CombinedEvent>, i: nat, j: nat, c: CombinedEvent)
    requires |feeds| == |SportsConfig|
    requires CollectSports(js, SportsConfig, feeds, existing, now) == Ok(all)
    requires i < |SportsConfig| && Contributes(SportsConfig[i], feeds[i], now)
    requires j < |js| && js[j].sport == SportsConfig[i].jsonoddsId
    requires JoinOne(js[j], feeds[i].rundown, feeds[i].sportspage, existing) == Ok(Some(c))
    ensures c in all
    ensures c.jsonoddsId in MonitorCycle(db, Some(js), feeds, Some(existing), now, true, true).contests
  {
    CollectSportsOkIff(js, SportsConfig, feeds, existing, now);
    var evs := SportEvents(js, SportsConfig[i].jsonoddsId);
    assert js[j] in evs;
    var m :| 0 <= m < |evs| && evs[m] == js[j];
    var out := SportJoin(js, SportsConfig[i], feeds[i], existing, now);
    assert out.Ok?;
    JoinedRecordEmitted(evs, feeds[i].rundown, feeds[i].sportspage, existing, m, c);
    var k :| 0 <= k < |out.value| && out.value[k] == c;
    CollectSportsComplete(js, SportsConfig, feeds, existing, now, i, k);
    CycleEffect(db, js, feeds, existing, now, all);
  }

  /** A set batch whose every write stores a contest under its own JsonOdds
      id keeps the collection keyed by JsonOdds id. */
  lemma {:induction false} SetAllKeyed(m: Collection, ws: seq<(string, Doc)>)
    requires KeyedByJsonOddsId(m)
    requires forall k :: 0 <= k < |ws| ==> HasJsonOddsId(ws[k].1, ws[k].0)
    ensures KeyedByJsonOddsId(SetAll(m, ws))
    decreases |ws|
  {
    if |ws| > 0 {
      SetAllKeyed(m, ws[..|ws| - 1]);
    }
  }

  /** Every cycle, whatever the store answers, keeps each contest under its
      own JsonOdds id. */
  lemma CycleKeepsKeyed(db: Db, jsonodds: Option<seq<JsonOddsEvent>>, feeds: seq<SportFeed>, stored: Option<seq<Doc>>,
                        now: int, archiveOk: bool, saveOk: bool)
    requires |feeds| == |SportsConfig|
    requires KeyedByJsonOddsId(db.contests)
    ensures KeyedByJsonOddsId(MonitorCycle(db, jsonodds, feeds, stored, now, archiveOk, saveOk).contests)
  {
    if jsonodds.Some? && stored.Some? && CollectSports(jsonodds.value, SportsConfig, feeds, stored.value, now).Ok? {
      var all := CollectSports(jsonodds.value, SportsConfig, feeds, stored.value, now).value;
      var archived := ArchiveOldData(db, now, archiveOk);
      assert KeyedByJsonOddsId(archived.contests);
      SaveKeepsKeyed(archived, all, saveOk);
    }
  }

  /** The save writes every record under its own JsonOdds id. */
  lemma SaveKeepsKeyed(db: Db, data: seq<CombinedEvent>, commitOk: bool)
    requires KeyedByJsonOddsId(db.contests)
    ensures KeyedByJsonOddsId(SaveDataToFirestore(db, data, commitOk).contests)
  {
    var ws := ContestWrites(data);
    assert forall k :: 0 <= k < |ws| ==> HasJsonOddsId(ws[k].1, ws[k].0);
    SetAllKeyed(db.contests, ws);
  }

  /** `existing` is the list of documents of `contests`. */
  ghost predicate SnapshotOf(existing: seq<Doc>, contests: Collection) {
    forall d :: d in existing <==> d in contests.Values
  }

  /** The locally owned `Created` flag survives a refresh: a contest stored
      with `Created: true` is still marked created after the cycle re-emits
      it, when the cycle read its snapshot from that store. */
  lemma CreatedSurvivesRefresh(db: Db, js: seq<JsonOddsEvent>, feeds: seq<SportFeed>, existing: seq<Doc>, now: int,
                               all: seq<CombinedEvent>, k: nat)
    requires |feeds| == |SportsConfig|
    requires SnapshotOf(existing, db.contests) && KeyedByJsonOddsId(db.contests)
    requires CollectSports(js, SportsConfig, feeds, existing, now) == Ok(all)
    requires k < |all| && LastWithId(all, k)
    requires all[k].jsonoddsId in db.contests && CreatedField(db.contests[all[k].jsonoddsId])
    ensures var c := MonitorCycle(db, Some(js), feeds, Some(existing), now, true, true).contests;
            all[k].jsonoddsId in c && CreatedField(c[all[k].jsonoddsId])
  {
    var id := all[k].jsonoddsId;
    var r := MonitorCycle(db, Some(js), feeds, Some(existing), now, true, true);
    assert db.contests[id] in db.contests.Values;
    var e :| 0 <= e < |existing| && existing[e] == db.contests[id];
    forall e' | 0 <= e' < |existing| && HasJsonOddsId(existing[e'], id)
      ensures CreatedField(existing[e'])
    {
      assert existing[e'] in db.contests.Values;
      var id' :| id' in db.contests && db.contests[id'] == existing[e'];
      assert HasJsonOddsId(db.contests[id'], id');
    }
    CreatedFlagUniform(existing, id);
    CycleEffect(db, js, feeds, existing, now, all);
    assert r.contests[id] == ContestDoc(all[k]);
    assert all[k].created == CreatedFlag(existing, id);
  }
}

=== FILE: odds_history.dfy ===
/** The odds-history snapshots of src/oddsHistory.ts: one row per market from
    the current JsonOdds line, plus the Sportspage opening lines on the first
    capture of a contest. */
module OddsHistory {
  import opened Wrappers
  import opened Feeds
  import opened OddsUtils
  import opened Sequences

  datatype Market = Moneyline | Spread | Total
  datatype HistorySource = JsonOddsSource | SportspageOpen

  /** A row of `odds_history`; the totals market stores Over in the away
      fields and Under in the home fields. */
  datatype OddsHistoryRow = OddsHistoryRow(
    jsonoddsId: string,
    sportspageId: int,
    market: Market,
    line: Option<real>,
    awayAmerican: real,
    awayDecimal: real,
    homeAmerican: real,
    homeDecimal: real,
    source: HistorySource,
    capturedAt: string)

  function MarketIndex(m: Market): nat {
    match m
    case Moneyline => 0
    case Spread => 1
    case Total => 2
  }

  /** Each decimal price is the conversion of its American price. */
  predicate Priced(r: OddsHistoryRow) {
    r.awayDecimal == AmericanToDecimal(r.awayAmerican) && r.homeDecimal == AmericanToDecimal(r.homeAmerican)
  }

  /** Rows in strictly increasing market order: at most one per market,
      moneyline before spread before total. */
  predicate MarketOrdered(rows: seq<OddsHistoryRow>) {
    forall i, j :: 0 <= i < j < |rows| ==> MarketIndex(rows[i].market) < MarketIndex(rows[j].market)
  }

  /** The row every builder pushes, decimals filled in by conversion. */
  function MakeRow(id: string, spId: int, m: Market, line: Option<real>, away: real, home: real,
                   src: HistorySource, at: string): (r: OddsHistoryRow)
    ensures Priced(r) && r.market == m && r.source == src && r.line == line
    ensures r.awayAmerican == away && r.homeAmerican == home
  {
    OddsHistoryRow(id, spId, m, line, away, AmericanToDecimal(away), home, AmericanToDecimal(home), src, at)
  }

  function AsSeq(o: Option<OddsHistoryRow>): seq<OddsHistoryRow> {
    if o.Some? then [o.value] else []
  }

  /** The row fields every builder copies from its arguments. */
  predicate Stamped(r: OddsHistoryRow, id: string, spId: int, at: string, src: HistorySource) {
    r.jsonoddsId == id && r.sportspageId == spId && r.capturedAt == at && r.source == src && Priced(r)
  }

  predicate IsMarket(o: Option<OddsHistoryRow>, m: Market) {
    o.Some? ==> o.value.market == m
  }

  /** Three optional rows of the three markets, pushed in order, give at most
      one row per market, in market order, each present iff its option is. */
  lemma ThreeMarkets(a: Option<OddsHistoryRow>, b: Option<OddsHistoryRow>, c: Option<OddsHistoryRow>)
    requires IsMarket(a, Moneyline) && IsMarket(b, Spread) && IsMarket(c, Total)
    ensures var r := AsSeq(a) + AsSeq(b) + AsSeq(c);
            && |r| <= 3 && MarketOrdered(r)
            && (HasMarket(r, Moneyline) <==> a.Some?)
            && (HasMarket(r, Spread) <==> b.Some?)
            && (HasMarket(r, Total) <==> c.Some?)
            && forall k :: 0 <= k < |r| ==> Some(r[k]) == a || Some(r[k]) == b || Some(r[k]) == c
  {
    var r := AsSeq(a) + AsSeq(b) + AsSeq(c);
    assert forall k :: 0 <= k < |r| ==>
      (k < |AsSeq(a)| ==> r[k] == a.value) &&
      (|AsSeq(a)| <= k < |AsSeq(a)| + |AsSeq(b)| ==> r[k] == b.value) &&
      (|AsSeq(a)| + |AsSeq(b)| <= k ==> r[k] == c.value);
    if a.Some? { assert r[0] == a.value; }
    if b.Some? { assert r[|AsSeq(a)|] == b.value; }
    if c.Some? { assert r[|AsSeq(a)| + |AsSeq(b)|] == c.value; }
  }

  /** The row of a given market, if any. */
  predicate HasMarket(rows: seq<OddsHistoryRow>, m: Market) {
    exists k :: 0 <= k < |rows| && rows[k].market == m
  }

  // ---------------------------------------------------------------------
  // Current odds (JsonOdds)

  function CurrentMoneyline(e: CombinedEvent, at: string): (o: Option<OddsHistoryRow>)
    ensures IsMarket(o, Moneyline) && (o.Some? ==> Stamped(o.value, e.jsonoddsId, e.sportspageId, at, JsonOddsSource))
  {
    if e.odds.moneyLineAway != "" && e.odds.moneyLineHome != "" then
      var a := ParseAmericanText(e.odds.moneyLineAway);
      var h := ParseAmericanText(e.odds.moneyLineHome);
      if a != 0 && h != 0 then Some(MakeRow(e.jsonoddsId, e.sportspageId, Moneyline, None, a as real, h as real, JsonOddsSource, at))
      else None
    else None
  }

  function CurrentSpread(e: CombinedEvent, at: string, parseFloat: string -> Option<real>): (o: Option<OddsHistoryRow>)
    ensures IsMarket(o, Spread) && (o.Some? ==> Stamped(o.value, e.jsonoddsId, e.sportspageId, at, JsonOddsSource))
  {
    if e.odds.pointSpreadHome != "" && e.odds.pointSpreadAwayLine != "" && e.odds.pointSpreadHomeLine != "" then
      var line := parseFloat(e.odds.pointSpreadHome);
      var a := ParseAmericanText(e.odds.pointSpreadAwayLine);
      var h := ParseAmericanText(e.odds.pointSpreadHomeLine);
      if line.Some? && a != 0 && h != 0 then Some(MakeRow(e.jsonoddsId, e.sportspageId, Spread, line, a as real, h as real, JsonOddsSource, at))
      else None
    else None
  }

  function CurrentTotal(e: CombinedEvent, at: string, parseFloat: string -> Option<real>): (o: Option<OddsHistoryRow>)
    ensures IsMarket(o, Total) && (o.Some? ==> Stamped(o.value, e.jsonoddsId, e.sportspageId, at, JsonOddsSource))
  {
    if e.odds.totalNumber != "" && e.odds.overLine != "" && e.odds.underLine != "" then
      var line := parseFloat(e.odds.totalNumber);
      var over := ParseAmericanText(e.odds.overLine);
      var under := ParseAmericanText(e.odds.underLine);
      if line.Some? && over != 0 && under != 0 then Some(MakeRow(e.jsonoddsId, e.sportspageId, Total, line, over as real, under as real, JsonOddsSource, at))
      else None
    else None
  }

  /** `buildCurrentOddsRows`: moneyline, spread, total, each when its prices
      parse to non-zero American odds. `parseFloat` answers None for NaN. */
  function BuildCurrentOddsRows(e: CombinedEvent, at: string, parseFloat: string -> Option<real>): (r: seq<OddsHistoryRow>)
    ensures |r| <= 3 && MarketOrdered(r)
    ensures forall k :: 0 <= k < |r| ==>
              && r[k].jsonoddsId == e.jsonoddsId && r[k].sportspageId == e.sportspageId
              && r[k].capturedAt == at && r[k].source == JsonOddsSource && Priced(r[k])
  {
    var a, b, c := CurrentMoneyline(e, at), CurrentSpread(e, at, parseFloat), CurrentTotal(e, at, parseFloat);
    ThreeMarkets(a, b, c);
    AsSeq(a) + AsSeq(b) + AsSeq(c)
  }

  /** The moneyline row is there iff both moneyline prices parse to non-zero
      odds (an empty price parses to 0, so the emptiness guard adds nothing);
      it has no line and carries the parsed prices. */
  lemma CurrentMoneylineRow(e: CombinedEvent, at: string, parseFloat: string -> Option<real>)
    ensures var r := BuildCurrentOddsRows(e, at, parseFloat);
            var a := ParseAmericanText(e.odds.moneyLineAway);
            var h := ParseAmericanText(e.odds.moneyLineHome);
            && (HasMarket(r, Moneyline) <==> a != 0 && h != 0)
            && (a != 0 && h != 0 ==> r[0].market == Moneyline && r[0].line == None
                                     && r[0].awayAmerican == a as real && r[0].homeAmerican == h as real)
  {
    EmptyParsesToZero();
    ThreeMarkets(CurrentMoneyline(e, at), CurrentSpread(e, at, parseFloat), CurrentTotal(e, at, parseFloat));
  }

  /** The spread row is there iff the home spread is non-empty and numeric and
      both spread prices parse to non-zero; its line is the home spread. */
  lemma CurrentSpreadRow(e: CombinedEvent, at: string, parseFloat: string -> Option<real>)
    ensures var r := BuildCurrentOddsRows(e, at, parseFloat);
            var a := ParseAmericanText(e.odds.pointSpreadAwayLine);
            var h := ParseAmericanText(e.odds.pointSpreadHomeLine);
            var ok := e.odds.pointSpreadHome != "" && parseFloat(e.odds.pointSpreadHome).Some? && a != 0 && h != 0;
            && (HasMarket(r, Spread) <==> ok)
            && forall k :: 0 <= k < |r| && r[k].market == Spread ==>
                 r[k].line == parseFloat(e.odds.pointSpreadHome) && r[k].awayAmerican == a as real && r[k].homeAmerican == h as real
  {
    EmptyParsesToZero();
    ThreeMarkets(CurrentMoneyline(e, at), CurrentSpread(e, at, parseFloat), CurrentTotal(e, at, parseFloat));
  }

  /** The totals row is there iff the total is non-empty and numeric and both
      prices parse to non-zero; Over goes in the away fields, Under in the
      home fields, and the line is the total. */
  lemma CurrentTotalRow(e: CombinedEvent, at: string, parseFloat: string -> Option<real>)
    ensures var r := BuildCurrentOddsRows(e, at, parseFloat);
            var over := ParseAmericanText(e.odds.overLine);
            var under := ParseAmericanText(e.odds.underLine);
            var ok := e.odds.totalNumber != "" && parseFloat(e.odds.totalNumber).Some? && over != 0 && under != 0;
            && (HasMarket(r, Total) <==> ok)
            && forall k :: 0 <= k < |r| && r[k].market == Total ==>
                 r[k].line == parseFloat(e.odds.totalNumber) && r[k].awayAmerican == over as real && r[k].homeAmerican == under as real
  {
    EmptyParsesToZero();
    ThreeMarkets(CurrentMoneyline(e, at), CurrentSpread(e, at, parseFloat), CurrentTotal(e, at, parseFloat));
  }

  lemma EmptyParsesToZero()
    ensures ParseAmericanText("") == 0
  {
    assert Clean("") == "";
  }

  /** The away spread text is never read: changing it changes no row. */
  lemma AwaySpreadUnused(e: CombinedEvent, s: string, at: string, parseFloat: string -> Option<real>)
    ensures BuildCurrentOddsRows(e.(odds := e.odds.(pointSpreadAway := s)), at, parseFloat) == BuildCurrentOddsRows(e, at, parseFloat)
  {
  }

  // ---------------------------------------------------------------------
  // Opening lines (Sportspage)

  /** A JavaScript number is truthy when defined and non-zero. */
  predicate Truthy(x: Option<real>) {
    x.Some? && x.value != 0.0
  }

  /** The moneyline opener carries the opening away and home prices and no
      line. */
  function OpenerMoneyline(id: string, spId: int, o: SportspageOdds, at: string): (r: Option<OddsHistoryRow>)
    ensures IsMarket(r, Moneyline) && (r.Some? ==> Stamped(r.value, id, spId, at, SportspageOpen))
    ensures r.Some? ==> && o.moneylineOpen.Some? && o.moneylineOpen.value.awayOdds.Some? && o.moneylineOpen.value.homeOdds.Some?
                        && r.value.line == None
                        && r.value.awayAmerican == o.moneylineOpen.value.awayOdds.value
                        && r.value.homeAmerican == o.moneylineOpen.value.homeOdds.value
  {
    match o.moneylineOpen
    case None => None
    case Some(ml) =>
      if Truthy(ml.awayOdds) && Truthy(ml.homeOdds)
      then Some(MakeRow(id, spId, Moneyline, None, ml.awayOdds.value, ml.homeOdds.value, SportspageOpen, at))
      else None
  }

  /** The spread opener's line is the home spread; the prices are the
      opening away and home prices. */
  function OpenerSpread(id: string, spId: int, o: SportspageOdds, at: string): (r: Option<OddsHistoryRow>)
    ensures IsMarket(r, Spread) && (r.Some? ==> Stamped(r.value, id, spId, at, SportspageOpen))
    ensures r.Some? ==> && o.spreadOpen.Some? && o.spreadOpen.value.awayOdds.Some? && o.spreadOpen.value.homeOdds.Some?
                        && r.value.line == o.spreadOpen.value.home
                        && r.value.awayAmerican == o.spreadOpen.value.awayOdds.value
                        && r.value.homeAmerican == o.spreadOpen.value.homeOdds.value
  {
    match o.spreadOpen
    case None => None
    case Some(sp) =>
      if sp.home.Some? && Truthy(sp.awayOdds) && Truthy(sp.homeOdds)
      then Some(MakeRow(id, spId, Spread, sp.home, sp.awayOdds.value, sp.homeOdds.value, SportspageOpen, at))
      else None
  }

  /** The totals opener's line is the total; Over sits in the away fields
      and Under in the home fields. */
  function OpenerTotal(id: string, spId: int, o: SportspageOdds, at: string): (r: Option<OddsHistoryRow>)
    ensures IsMarket(r, Total) && (r.Some? ==> Stamped(r.value, id, spId, at, SportspageOpen))
    ensures r.Some? ==> && o.totalOpen.Some? && o.totalOpen.value.overOdds.Some? && o.totalOpen.value.underOdds.Some?
                        && r.value.line == o.totalOpen.value.total
                        && r.value.awayAmerican == o.totalOpen.value.overOdds.value
                        && r.value.homeAmerican == o.totalOpen.value.underOdds.value
  {
    match o.totalOpen
    case None => None
    case Some(t) =>
      if t.total.Some? && Truthy(t.overOdds) && Truthy(t.underOdds)
      then Some(MakeRow(id, spId, Total, t.total, t.overOdds.value, t.underOdds.value, SportspageOpen, at))
      else None
  }

  /** `buildOpenerRows`: the same three markets from the opening lines. */
  function BuildOpenerRows(id: string, spId: int, o: SportspageOdds, at: string): (r: seq<OddsHistoryRow>)
    ensures |r| <= 3 && MarketOrdered(r)
    ensures forall k :: 0 <= k < |r| ==>
              && r[k].jsonoddsId == id && r[k].sportspageId == spId
              && r[k].capturedAt == at && r[k].source == SportspageOpen && Priced(r[k])
              && r[k].awayAmerican != 0.0 && r[k].homeAmerican != 0.0
              && (r[k].market == Moneyline <==> r[k].line.None?)
  {
    var a, b, c := OpenerMoneyline(id, spId, o, at), OpenerSpread(id, spId, o, at), OpenerTotal(id, spId, o, at);
    ThreeMarkets(a, b, c);
    AsSeq(a) + AsSeq(b) + AsSeq(c)
  }

  /** Each opener row carries its market's opening prices: moneyline away
      and home, spread away and home with the home spread as line, and for
      the total Over as away and Under as home with the total as line. */
  lemma OpenerRowsPrices(id: string, spId: int, o: SportspageOdds, at: string)
    ensures var r := BuildOpenerRows(id, spId, o, at);
            forall k :: 0 <= k < |r| ==>
              && (r[k].market == Moneyline ==> OpenerMoneyline(id, spId, o, at) == Some(r[k]))
              && (r[k].market == Spread ==> OpenerSpread(id, spId, o, at) == Some(r[k]))
              && (r[k].market == Total ==> OpenerTotal(id, spId, o, at) == Some(r[k]))
  {
    ThreeMarkets(OpenerMoneyline(id, spId, o, at), OpenerSpread(id, spId, o, at), OpenerTotal(id, spId, o, at));
  }

  /** The totals opener, when written, puts Over in the away fields, Under
      in the home fields and the total as line. */
  lemma OpenerTotalPrices(id: string, spId: int, o: SportspageOdds, at: string, k: nat)
    requires k < |BuildOpenerRows(id, spId, o, at)| && BuildOpenerRows(id, spId, o, at)[k].market == Total
    ensures var row := BuildOpenerRows(id, spId, o, at)[k];
            && o.totalOpen.Some? && o.totalOpen.value.overOdds.Some? && o.totalOpen.value.underOdds.Some?
            && row.line == o.totalOpen.value.total
            && row.awayAmerican == o.totalOpen.value.overOdds.value
            && row.homeAmerican == o.totalOpen.value.underOdds.value
  {
    OpenerRowsPrices(id, spId, o, at);
  }

  /** An opener row of a market exists exactly when that market's opening
      line is there with both prices non-zero (and, for spread and total,
      the line defined); the spread line is the home spread. */
  lemma OpenerRowsPresence(id: string, spId: int, o: SportspageOdds, at: string)
    ensures var r := BuildOpenerRows(id, spId, o, at);
            && (HasMarket(r, Moneyline) <==>
                  o.moneylineOpen.Some? && Truthy(o.moneylineOpen.value.awayOdds) && Truthy(o.moneylineOpen.value.homeOdds))
            && (HasMarket(r, Spread) <==>
                  o.spreadOpen.Some? && o.spreadOpen.value.home.Some?
                  && Truthy(o.spreadOpen.value.awayOdds) && Truthy(o.spreadOpen.value.homeOdds))
            && (HasMarket(r, Total) <==>
                  o.totalOpen.Some? && o.totalOpen.value.total.Some?
                  && Truthy(o.totalOpen.value.overOdds) && Truthy(o.totalOpen.value.underOdds))
            && forall k :: 0 <= k < |r| && r[k].market == Spread ==> r[k].line == o.spreadOpen.value.home
  {
    ThreeMarkets(OpenerMoneyline(id, spId, o, at), OpenerSpread(id, spId, o, at), OpenerTotal(id, spId, o, at));
  }

  // ---------------------------------------------------------------------
  // Saving

  /** The answer of the `count` query of `isFirstCapture`. */
  datatype CountAnswer = Counted(count: nat) | QueryFailed

  /** `isFirstCapture`: no earlier row; a failed query answers "not first" so
      openers are never duplicated. */
  predicate IsFirstCapture(a: CountAnswer) {
    a == Counted(0)
  }

  /** Openers are added for an event on its first capture, when it has a
      Sportspage id (non-zero) whose result is known and has a first line. */
  predicate OpenerEligible(e: CombinedEvent, results: map<int, SportspageResult>, a: CountAnswer) {
    IsFirstCapture(a) && e.sportspageId != 0 && e.sportspageId in results && |results[e.sportspageId].odds| > 0
  }

  /** The rows one event contributes: its current rows, then its openers. */
  function EventRows(e: CombinedEvent, results: map<int, SportspageResult>, a: CountAnswer,
                     at: string, parseFloat: string -> Option<real>): (r: seq<OddsHistoryRow>)
    ensures |r| <= 6
    ensures forall k :: 0 <= k < |r| ==> r[k].jsonoddsId == e.jsonoddsId && r[k].capturedAt == at && Priced(r[k])
    ensures forall k :: 0 <= k < |r| && r[k].source == SportspageOpen ==> OpenerEligible(e, results, a)
    ensures var cur := BuildCurrentOddsRows(e, at, parseFloat);
            |cur| <= |r| && r[..|cur|] == cur
    ensures var cur := BuildCurrentOddsRows(e, at, parseFloat);
            OpenerEligible(e, results, a) ==>
              r[|cur|..] == BuildOpenerRows(e.jsonoddsId, e.sportspageId, results[e.sportspageId].odds[0], at)
    ensures !OpenerEligible(e, results, a) ==> r == BuildCurrentOddsRows(e, at, parseFloat)
  {
    var current := BuildCurrentOddsRows(e, at, parseFloat);
    if OpenerEligible(e, results, a)
    then current + BuildOpenerRows(e.jsonoddsId, e.sportspageId, results[e.sportspageId].odds[0], at)
    else current
  }

  /** Row `row` was produced for event `e` under count answer `a`. */
  predicate RowOf(row: OddsHistoryRow, e: CombinedEvent, results: map<int, SportspageResult>, a: CountAnswer, at: string) {
    row.jsonoddsId == e.jsonoddsId && row.capturedAt == at && Priced(row)
    && (row.source == SportspageOpen ==> OpenerEligible(e, results, a))
  }

  /** The rows of each event, in event order; `answers[k]` is the count
      answer for `events[k]`. */
  function PerEventRows(events: seq<CombinedEvent>, results: map<int, SportspageResult>, answers: seq<CountAnswer>,
                        at: string, parseFloat: string -> Option<real>): (xss: seq<seq<OddsHistoryRow>>)
    requires |answers| == |events|
    ensures |xss| == |events|
    ensures forall k :: 0 <= k < |events| ==> xss[k] == EventRows(events[k], results, answers[k], at, parseFloat)
  {
    seq(|events|, k requires 0 <= k < |events| => EventRows(events[k], results, answers[k], at, parseFloat))
  }

  /** All rows of a save, event by event: at most six per event. */
  function AllRows(events: seq<CombinedEvent>, results: map<int, SportspageResult>, answers: seq<CountAnswer>,
                   at: string, parseFloat: string -> Option<real>): (r: seq<OddsHistoryRow>)
    requires |answers| == |events|
    ensures |r| <= 6 * |events|
  {
    var xss := PerEventRows(events, results, answers, at, parseFloat);
    FlattenBound(xss, 6);
    Flatten(xss)
  }

  /** Every row of a save belongs to one event `k` of the batch: it carries
      that event's id and the capture time, it has a price, and an opener
      row only comes from an event eligible for openers. So when every count
      query fails, no opener is written. */
  lemma RowOrigin(events: seq<CombinedEvent>, results: map<int, SportspageResult>, answers: seq<CountAnswer>,
                  at: string, parseFloat: string -> Option<real>, i: nat) returns (k: nat)
    requires |answers| == |events|
    requires i < |AllRows(events, results, answers, at, parseFloat)|
    ensures k < |events| && RowOf(AllRows(events, results, answers, at, parseFloat)[i], events[k], results, answers[k], at)
  {
    var xss := PerEventRows(events, results, answers, at, parseFloat);
    var j;
    k, j := FlattenIndex(xss, i);
  }

  /** Every event's current JsonOdds rows are in the save, and so are its
      opener rows when it is eligible for openers. */
  lemma SnapshotSaved(events: seq<CombinedEvent>, results: map<int, SportspageResult>, answers: seq<CountAnswer>,
                      at: string, parseFloat: string -> Option<real>, k: nat)
    requires |answers| == |events| && k < |events|
    ensures var all := AllRows(events, results, answers, at, parseFloat);
            var e := events[k];
            && (forall row :: row in BuildCurrentOddsRows(e, at, parseFloat) ==> row in all)
            && (OpenerEligible(e, results, answers[k]) ==>
                  forall row :: row in BuildOpenerRows(e.jsonoddsId, e.sportspageId, results[e.sportspageId].odds[0], at) ==> row in all)
  {
    var xss := PerEventRows(events, results, answers, at, parseFloat);
    var e := events[k];
    var rows := xss[k];
    assert rows == EventRows(e, results, answers[k], at, parseFloat);
    forall row | row in rows ensures row in Flatten(xss) {
      FlattenHas(xss, k, row);
    }
    EventRowsHold(e, results, answers[k], at, parseFloat);
  }

  /** The current rows, and on an eligible first capture the opener rows,
      are among the event's rows. */
  lemma EventRowsHold(e: CombinedEvent, results: map<int, SportspageResult>, a: CountAnswer,
                      at: string, parseFloat: string -> Option<real>)
    ensures var rows := EventRows(e, results, a, at, parseFloat);
            && (forall row :: row in BuildCurrentOddsRows(e, at, parseFloat) ==> row in rows)
            && (OpenerEligible(e, results, a) ==>
                  forall row :: row in BuildOpenerRows(e.jsonoddsId, e.sportspageId, results[e.sportspageId].odds[0], at) ==> row in rows)
  {
    var rows := EventRows(e, results, a, at, parseFloat);
    var cur := BuildCurrentOddsRows(e, at, parseFloat);
    forall row | row in cur ensures row in rows {
      var j :| 0 <= j < |cur| && cur[j] == row;
      assert rows[j] == row;
    }
    if OpenerEligible(e, results, a) {
      var op := BuildOpenerRows(e.jsonoddsId, e.sportspageId, results[e.sportspageId].odds[0], at);
      forall row | row in op ensures row in rows {
        var j :| 0 <= j < |op| && op[j] == row;
        assert rows[|cur| + j] == row;
      }
    }
  }

  /** What the insert into `odds_history` answered. */
  datatype InsertAnswer = InsertOk | InsertFailed(code: string)

  /** The completed outcomes of `saveOddsToSupabase`; a thrown error is `Err`.
      `Saved` carries the rows stored. `DuplicatesTolerated` carries the rows
      of the rejected statement: the insert is one atomic statement, so on a
      unique violation none of them, duplicate or not, was stored. */
  datatype SaveOutcome = NoEvents | NoRows | Saved(rows: seq<OddsHistoryRow>) | DuplicatesTolerated(rows: seq<OddsHistoryRow>)

  /** Postgres' unique-violation code, the one insert error that is tolerated. */
  const UniqueViolation: string := "23505"

  /** `saveOddsToSupabase`: nothing is inserted for no events or no rows; a
      unique-violation on insert is tolerated and any other error rethrown. */
  function SaveOddsToSupabase(events: seq<CombinedEvent>, results: map<int, SportspageResult>, answers: seq<CountAnswer>,
                              at: string, parseFloat: string -> Option<real>, insert: InsertAnswer): (r: Result<SaveOutcome, string>)
    requires |answers| == |events|
    ensures |events| == 0 <==> r == Ok(NoEvents)
    ensures r.Err? <==> |events| > 0 && |AllRows(events, results, answers, at, parseFloat)| > 0
                        && insert.InsertFailed? && insert.code != UniqueViolation
    ensures r.Err? ==> r.error == insert.code
    ensures r.Ok? && (r.value.Saved? || r.value.DuplicatesTolerated?) ==>
              r.value.rows == AllRows(events, results, answers, at, parseFloat) && |r.value.rows| > 0
    ensures insert.InsertFailed? && insert.code == UniqueViolation ==> r.Ok?
    ensures |events| > 0 ==> (r == Ok(NoRows) <==> |AllRows(events, results, answers, at, parseFloat)| == 0)
    ensures |events| > 0 && |AllRows(events, results, answers, at, parseFloat)| > 0 && insert == InsertOk ==>
              r == Ok(Saved(AllRows(events, results, answers, at, parseFloat)))
    ensures |events| > 0 && |AllRows(events, results, answers, at, parseFloat)| > 0 && insert == InsertFailed(UniqueViolation) ==>
              r == Ok(DuplicatesTolerated(AllRows(events, results, answers, at, parseFloat)))
  {
    if |events| == 0 then Ok(NoEvents)
    else
      var rows := AllRows(events, results, answers, at, parseFloat);
      if |rows| == 0 then Ok(NoRows)
      else
        match insert
        case InsertOk => Ok(Saved(rows))
        case InsertFailed(code) =>
          if code == UniqueViolation then Ok(DuplicatesTolerated(rows)) else Err(code)
  }

  /** The promise at the head of src/oddsHistory.ts: every save stores the
      current JsonOdds snapshot. When the insert succeeds, each event's
      current rows, and on an eligible first capture its opener rows, are
      among the rows stored. */
  lemma SnapshotStored(events: seq<CombinedEvent>, results: map<int, SportspageResult>, answers: seq<CountAnswer>,
                       at: string, parseFloat: string -> Option<real>, k: nat)
    requires |answers| == |events| && k < |events|
    ensures var r := SaveOddsToSupabase(events, results, answers, at, parseFloat, InsertOk);
            var e := events[k];
            && (forall row :: row in BuildCurrentOddsRows(e, at, parseFloat) ==> r.Ok? && r.value.Saved? && row in r.value.rows)
            && (OpenerEligible(e, results, answers[k]) ==>
                  forall row :: row in BuildOpenerRows(e.jsonoddsId, e.sportspageId, results[e.sportspageId].odds[0], at) ==>
                    r.Ok? && r.value.Saved? && row in r.value.rows)
  {
    SnapshotSaved(events, results, answers, at, parseFloat, k);
  }
}

=== FILE: odds_utils.dfy ===
/** American/decimal odds conversion (src/odds-utils.ts), over exact reals. */
module OddsUtils {
  import opened Wrappers
  import opened Text
  import opened Sequences

  /** The argument of `parseAmericanOdds`: a JavaScript number or a string. */
  datatype OddsInput = Number(x: real) | Text(s: string)

  /** `Math.round`: the nearest integer, halves rounded up. */
  function Round(x: real): (r: int)
    ensures x - 0.5 < r as real <= x + 0.5
  {
    (x + 0.5).Floor
  }

  /** The characters `replace(/[^0-9-]/g, '')` keeps. */
  predicate IsOddsChar(c: char) {
    IsDigit(c) || c == '-'
  }

  /** `replace(/[^0-9-]/g, '')`: keeps only digits and minus signs. */
  function Clean(s: string): (r: string)
    ensures forall i :: 0 <= i < |r| ==> IsOddsChar(r[i])
    ensures forall i :: 0 <= i < |s| && IsOddsChar(s[i]) ==> s[i] in r
    ensures |r| <= |s|
  {
    if |s| == 0 then ""
    else if IsDigit(s[0]) || s[0] == '-' then [s[0]] + Clean(s[1..])
    else Clean(s[1..])
  }

  /** One character is kept exactly when it is a digit or a minus sign. */
  lemma CleanSingle(c: char)
    ensures Clean([c]) == if IsOddsChar(c) then [c] else []
  {
    assert [c][1..] == [];
  }

  /** Cleaning is filtering by `IsOddsChar`: the kept characters, in their
      original order. */
  lemma {:induction false} CleanIsFilter(s: string)
    ensures Clean(s) == Filter(s, IsOddsChar)
  {
    if |s| > 0 {
      CleanIsFilter(s[1..]);
    }
  }

  lemma {:induction false} CleanAppend(a: string, b: string)
    ensures Clean(a + b) == Clean(a) + Clean(b)
  {
    if |a| > 0 {
      assert (a + b)[1..] == a[1..] + b;
      CleanAppend(a[1..], b);
    } else {
      assert a + b == b;
    }
  }

  lemma {:induction false} CleanKeepsDigits(s: string)
    requires forall i :: 0 <= i < |s| ==> IsDigit(s[i]) || s[i] == '-'
    ensures Clean(s) == s
  {
    if |s| > 0 {
      CleanKeepsDigits(s[1..]);
    }
  }

  /** The longest prefix of decimal digits. */
  function LeadingDigits(s: string): (r: string)
    ensures |r| <= |s| && r == s[..|r|] && AllDigits(r)
    ensures |r| < |s| ==> !IsDigit(s[|r|])
  {
    if |s| > 0 && IsDigit(s[0]) then [s[0]] + LeadingDigits(s[1..]) else ""
  }

  /** `parseInt(s, 10)` on a cleaned string: an optional leading minus, then
      the leading digits; `None` (NaN) when there is no digit. */
  function ParseIntPrefix(s: string): (r: Option<int>)
    ensures r.Some? <==> (|s| > 0 && IsDigit(s[0])) || (|s| > 1 && s[0] == '-' && IsDigit(s[1]))
    ensures r.Some? && s[0] == '-' ==> r.value == -(DigitsValue(LeadingDigits(s[1..])) as int) && r.value <= 0
    ensures r.Some? && s[0] != '-' ==> r.value == DigitsValue(LeadingDigits(s)) as int && r.value >= 0
  {
    if |s| > 0 && s[0] == '-' then
      var d := LeadingDigits(s[1..]);
      if |d| == 0 then None else Some(-(DigitsValue(d) as int))
    else
      var d := LeadingDigits(s);
      if |d| == 0 then None else Some(DigitsValue(d))
  }

  /** `parseAmericanOdds`: a number is rounded; a string is cleaned and
      parsed, and 0 stands for "nothing parsed". */
  function ParseAmericanOdds(v: OddsInput): (r: int)
    ensures v.Number? ==> v.x - 0.5 < r as real <= v.x + 0.5
    ensures v.Text? && ParseIntPrefix(Clean(v.s)).None? ==> r == 0
  {
    match v
    case Number(x) => Round(x)
    case Text(s) =>
      match ParseIntPrefix(Clean(s))
      case None => 0
      case Some(n) => n
  }

  /** Shorthand for the string form, used by the row builders. */
  function ParseAmericanText(s: string): int {
    ParseAmericanOdds(Text(s))
  }

  lemma {:induction false} LeadingDigitsOfNumeral(n: nat, rest: string)
    requires |rest| == 0 || !IsDigit(rest[0])
    ensures LeadingDigits(NatToDecimal(n) + rest) == NatToDecimal(n)
  {
    var ds := NatToDecimal(n);
    var s := ds + rest;
    var r := LeadingDigits(s);
    assert forall i :: 0 <= i < |ds| ==> s[i] == ds[i];
    assert |ds| < |s| ==> s[|ds|] == rest[0];
    assert |r| == |ds|;
    assert r == s[..|r|];
  }

  /** `parseInt` reads a numeral, optionally preceded by '-', back to its
      value and ignores whatever follows the digits. */
  lemma ParseIntPrefixNumeral(n: nat, rest: string)
    requires |rest| == 0 || !IsDigit(rest[0])
    ensures ParseIntPrefix(NatToDecimal(n) + rest) == Some(n)
    ensures ParseIntPrefix("-" + NatToDecimal(n) + rest) == Some(-(n as int))
  {
    var ds := NatToDecimal(n);
    LeadingDigitsOfNumeral(n, rest);
    DigitsOfNatToDecimal(n);
    assert ("-" + ds + rest)[1..] == ds + rest;
    assert (ds + rest)[0] == ds[0];
    assert IsDigit(ds[0]);
  }

  /** A numeral, optionally signed with '+' or '-', parses back to its value. */
  lemma ParseNumeral(n: nat)
    ensures ParseAmericanText(NatToDecimal(n)) == n
    ensures ParseAmericanText("+" + NatToDecimal(n)) == n
    ensures ParseAmericanText("-" + NatToDecimal(n)) == -(n as int)
  {
    var ds := NatToDecimal(n);
    CleanKeepsDigits(ds);
    CleanAppend("+", ds);
    CleanAppend("-", ds);
    DigitsOfNatToDecimal(n);
    LeadingDigitsOfNumeral(n, "");
    assert ds + "" == ds;
    assert ("-" + ds)[1..] == ds;
  }

  /** Any text after the number is ignored once a non-digit, non-minus character
      (such as a '.' or a space) separates it. */
  lemma ParseIgnoresSuffix(n: nat, sep: char, rest: string)
    requires !IsDigit(sep) && sep != '-'
    ensures ParseAmericanText(NatToDecimal(n) + [sep] + rest) == n
      || (|Clean(rest)| > 0 && IsDigit(Clean(rest)[0]))
  {
    var ds := NatToDecimal(n);
    CleanKeepsDigits(ds);
    CleanAppend(ds + [sep], rest);
    CleanAppend(ds, [sep]);
    assert Clean([sep]) == [];
    assert ds + [] == ds;
    var c := Clean(rest);
    if |c| == 0 || !IsDigit(c[0]) {
      LeadingDigitsOfNumeral(n, c);
      DigitsOfNatToDecimal(n);
      assert ds + c == Clean(ds + [sep] + rest);
    }
  }

  lemma ExampleNumerals()
    ensures NatToDecimal(150) == "150" && NatToDecimal(110) == "110"
  {
    assert NatToDecimal(15) == "1" + "5";
    assert NatToDecimal(11) == "1" + "1";
  }

  /** A price with a plus sign: "+150" parses to 150. */
  lemma ParsePlusExample()
    ensures ParseAmericanText("+150") == 150
  {
    ExampleNumerals();
    ParseNumeral(150);
    assert "+" + "150" == "+150";
  }

  /** A negative price: "-110" parses to -110. */
  lemma ParseMinusExample()
    ensures ParseAmericanText("-110") == -110
  {
    ExampleNumerals();
    ParseNumeral(110);
    assert "-" + "110" == "-110";
  }

  /** Text without digits parses to 0; a number is rounded half up. */
  lemma ParseFallbackExamples()
    ensures ParseAmericanText("abc") == 0
    ensures ParseAmericanOdds(Number(-109.5)) == -109
  {
    assert Clean("abc") == "";
  }

  /** `americanToDecimal` on a number: o/100 + 1 for o >= 100,
      100/|o| + 1 for o <= -100, and 1.0 for 0 and everything in between. */
  function AmericanToDecimal(odds: real): (d: real)
    ensures d >= 1.0
    ensures d > 1.0 <==> (odds >= 100.0 || odds <= -100.0)
    ensures d >= 2.0 <==> (odds >= 100.0 || odds == -100.0)
  {
    if odds == 0.0 then 1.0
    else if odds >= 100.0 then odds / 100.0 + 1.0
    else if odds <= -100.0 then
      var q := 100.0 / -odds;
      assert q > 0.0 && (q >= 1.0 <==> -odds <= 100.0) by { assert q * -odds == 100.0; }
      q + 1.0
    else 1.0
  }

  /** `americanToDecimal` on a string: `parseFloat` is a parameter, and `None`
      (NaN) gives the safe default 1.0. */
  function AmericanTextToDecimal(s: string, parseFloat: string -> Option<real>): (d: real)
    ensures parseFloat(s).None? ==> d == 1.0
    ensures parseFloat(s).Some? ==> d == AmericanToDecimal(parseFloat(s).value)
  {
    match parseFloat(s)
    case None => 1.0
    case Some(x) => AmericanToDecimal(x)
  }

  lemma DecimalExamples()
    ensures AmericanToDecimal(150.0) == 2.5
    ensures AmericanToDecimal(-200.0) == 1.5
    ensures AmericanToDecimal(50.0) == 1.0
  {
  }

  /** `decimalToAmerican`: round((d-1)*100) for d >= 2, round(-100/(d-1))
      for 1 < d < 2, and 0 ("invalid") for d <= 1. */
  function DecimalToAmerican(d: real): (o: int)
    ensures d >= 2.0 ==> o >= 100
    ensures 1.0 < d < 2.0 ==> o <= -100
    ensures d <= 1.0 ==> o == 0
  {
    if d >= 2.0 then Round((d - 1.0) * 100.0)
    else if d > 1.0 then
      var y := -100.0 / (d - 1.0);
      QuotientBelow(y, d - 1.0);
      Round(y)
    else 0
  }

  lemma QuotientBelow(y: real, e: real)
    requires 0.0 < e < 1.0 && y == -100.0 / e
    ensures y < -100.0
  {
    assert y * e == -100.0;
  }

  /** Exact round trip for every real American price: o >= 100 and o < -100
      come back unchanged; -100 comes back as +100. */
  lemma RoundTrip(o: int)
    requires o >= 100 || o <= -100
    ensures DecimalToAmerican(AmericanToDecimal(o as real)) == (if o == -100 then 100 else o)
  {
    var x := o as real;
    var d := AmericanToDecimal(x);
    if o >= 100 {
      assert (d - 1.0) * 100.0 == x;
    } else if o == -100 {
      assert d == 2.0;
    } else {
      var q := 100.0 / -x;
      assert d == q + 1.0;
      assert q * -x == 100.0;
      assert -100.0 / (d - 1.0) == x by {
        assert d - 1.0 == q;
        assert q != 0.0;
        assert x * q == -100.0;
      }
    }
  }

  /** Prices strictly between -100 and +100 collapse to decimal 1.0, which
      converts back to the "invalid" 0. */
  lemma NoRoundTripInside(o: int)
    requires -100 < o < 100
    ensures DecimalToAmerican(AmericanToDecimal(o as real)) == 0
  {
  }

  /** Going the other way loses at most half a cent of decimal odds. */
  lemma DecimalRoundTripError(d: real)
    requires d >= 2.0
    ensures -0.005 <= AmericanToDecimal(DecimalToAmerican(d) as real) - d <= 0.005
  {
    var o := DecimalToAmerican(d);
    assert (d - 1.0) * 100.0 - 0.5 < o as real <= (d - 1.0) * 100.0 + 0.5;
  }
}

=== FILE: reconciler.dfy ===
/** The three-feed join (`processEventData` in src/monitor.ts): each JsonOdds
    event is matched against the Rundown and Sportspage feeds on canonical
    home name, canonical away name and UTC hour. */
module Reconciler {
  import opened Wrappers
  import opened Documents
  import opened Feeds
  import opened TeamNames
  import opened Sequences

  /** The two ways the join throws: a Rundown event with two `teams` but fewer
      than two normalized teams, and a matched JsonOdds event with no line. */
  datatype JoinError = NormalizedTeamsMissing(eventId: string) | NoOdds(jsonoddsId: string)

  /** Reading this Rundown event's names throws. */
  predicate RundownCrashes(e: RundownEvent) {
    e.teamCount >= 2 && |e.teamsNormalized| < 2
  }

  /** The Rundown event (home = second normalized team, with the mascot rule)
      agrees with the JsonOdds event on both canonical names and the hour. */
  predicate RundownMatches(j: JsonOddsEvent, e: RundownEvent) {
    && e.teamCount >= 2
    && |e.teamsNormalized| >= 2
    && TeamNameForSport(j.sport, e.teamsNormalized[1].name, e.teamsNormalized[1].mascot) == StandardizeTeamName(j.homeTeam, j.sport)
    && TeamNameForSport(j.sport, e.teamsNormalized[0].name, e.teamsNormalized[0].mascot) == StandardizeTeamName(j.awayTeam, j.sport)
    && HourBucket(e.eventDate) == HourBucket(j.matchTime)
  }

  predicate SportspageMatches(j: JsonOddsEvent, s: SportspageResult) {
    && StandardizeTeamName(s.home.team, j.sport) == StandardizeTeamName(j.homeTeam, j.sport)
    && StandardizeTeamName(s.away.team, j.sport) == StandardizeTeamName(j.awayTeam, j.sport)
    && HourBucket(s.date) == HourBucket(j.matchTime)
  }

  /** `k` is where the Rundown `find` stops with a match: every earlier event
      neither matched nor threw. */
  ghost predicate IsFirstRundown(j: JsonOddsEvent, evs: seq<RundownEvent>, k: int) {
    && 0 <= k < |evs|
    && RundownMatches(j, evs[k])
    && forall m :: 0 <= m < k ==> !RundownMatches(j, evs[m]) && !RundownCrashes(evs[m])
  }

  ghost predicate IsFirstSportspage(j: JsonOddsEvent, rs: seq<SportspageResult>, k: int) {
    && 0 <= k < |rs|
    && SportspageMatches(j, rs[k])
    && forall m :: 0 <= m < k ==> !SportspageMatches(j, rs[m])
  }

  /** No Rundown event in [from, to) matches or throws. */
  ghost predicate RundownPassed(j: JsonOddsEvent, evs: seq<RundownEvent>, from: int, to: int)
    requires 0 <= from <= to <= |evs|
  {
    forall m :: from <= m < to ==> !RundownMatches(j, evs[m]) && !RundownCrashes(evs[m])
  }

  /** `rundownData.events.find(...)` from position `from`: the index of the
      first match, `None` when there is none, or the error when an event's
      names are read and missing before a match is reached. */
  function FindRundown(j: JsonOddsEvent, evs: seq<RundownEvent>, from: nat): (r: Result<Option<nat>, JoinError>)
    requires from <= |evs|
    ensures r.Ok? && r.value.Some? ==>
              from <= r.value.value < |evs| && RundownMatches(j, evs[r.value.value]) && RundownPassed(j, evs, from, r.value.value)
    ensures r == Ok(None) ==> RundownPassed(j, evs, from, |evs|)
    ensures r.Err? ==> exists m :: from <= m < |evs| && RundownCrashes(evs[m]) && RundownPassed(j, evs, from, m)
  {
    var p := (e: RundownEvent) => RundownMatches(j, e);
    match FindOrThrow(evs, RundownCrashes, p, from)
    case Err(m) =>
      assert RundownCrashes(evs[m]) && RundownPassed(j, evs, from, m);
      Err(NormalizedTeamsMissing(evs[m].eventId))
    case Ok(o) => Ok(o)
  }

  /** The Rundown `find` reaches an event whose names are missing before it
      reaches a match, so the callback throws. */
  ghost predicate RundownThrows(j: JsonOddsEvent, evs: seq<RundownEvent>) {
    exists m :: 0 <= m < |evs| && RundownCrashes(evs[m]) && RundownPassed(j, evs, 0, m)
  }

  /** The search from the start throws exactly when a crashing event comes
      before every match. */
  lemma FindRundownThrows(j: JsonOddsEvent, evs: seq<RundownEvent>)
    ensures FindRundown(j, evs, 0).Err? <==> RundownThrows(j, evs)
  {
  }

  /** `sportspageData.results.find(...)` from position `from`. */
  function FindSportspage(j: JsonOddsEvent, rs: seq<SportspageResult>, from: nat): (r: Option<nat>)
    requires from <= |rs|
    ensures r.Some? ==> from <= r.value < |rs| && SportspageMatches(j, rs[r.value])
                        && forall m :: from <= m < r.value ==> !SportspageMatches(j, rs[m])
    ensures r.None? ==> forall m :: from <= m < |rs| ==> !SportspageMatches(j, rs[m])
  {
    FindFrom(rs, (s: SportspageResult) => SportspageMatches(j, s), from)
  }

  predicate HasJsonOddsId(d: Doc, id: string) {
    "jsonoddsID" in d && d["jsonoddsID"] == Str(id)
  }

  /** Every contest is stored under its own JsonOdds id, so no two stored
      contests share one. */
  ghost predicate KeyedByJsonOddsId(contests: Collection) {
    forall id :: id in contests ==> HasJsonOddsId(contests[id], id)
  }

  /** The stored `Created` flag; a flag that is not `true` reads as false. */
  predicate CreatedField(d: Doc) {
    "Created" in d && d["Created"] == Bool(true)
  }

  /** `Created` of the first existing contest with this JsonOdds id, false
      when there is none. */
  function CreatedFlag(existing: seq<Doc>, id: string): (b: bool)
    ensures (forall k :: 0 <= k < |existing| ==> !HasJsonOddsId(existing[k], id)) ==> !b
    ensures forall k :: 0 <= k < |existing| && HasJsonOddsId(existing[k], id)
                        && (forall m :: 0 <= m < k ==> !HasJsonOddsId(existing[m], id))
                        ==> b == CreatedField(existing[k])
  {
    if |existing| == 0 then false
    else if HasJsonOddsId(existing[0], id) then CreatedField(existing[0])
    else
      var b := CreatedFlag(existing[1..], id);
      assert forall k :: 1 <= k < |existing| ==> existing[k] == existing[1..][k - 1];
      b
  }

  /** When some contest carries the id and every contest that carries it is
      created, the flag read is true. */
  lemma {:induction false} CreatedFlagUniform(existing: seq<Doc>, id: string)
    requires exists e :: 0 <= e < |existing| && HasJsonOddsId(existing[e], id)
    requires forall e :: 0 <= e < |existing| && HasJsonOddsId(existing[e], id) ==> CreatedField(existing[e])
    ensures CreatedFlag(existing, id)
    decreases |existing|
  {
    if !HasJsonOddsId(existing[0], id) {
      var tail := existing[1..];
      var e :| 0 <= e < |existing| && HasJsonOddsId(existing[e], id);
      assert tail[e - 1] == existing[e];
      assert forall m :: 0 <= m < |tail| ==> tail[m] == existing[m + 1];
      CreatedFlagUniform(tail, id);
    }
  }

  /** The joined record: ids from the three feeds, the raw JsonOdds names,
      the first JsonOdds line, the carried `Created` flag and status 'Ready'. */
  ghost predicate JoinedFrom(c: CombinedEvent, j: JsonOddsEvent, rd: RundownEvent, sp: SportspageResult, existing: seq<Doc>) {
    && |j.odds| > 0
    && c.jsonoddsId == j.id
    && c.rundownId == rd.eventId
    && c.sportspageId == sp.gameId
    && c.sport == j.sport
    && c.homeTeam == j.homeTeam
    && c.awayTeam == j.awayTeam
    && c.matchTime == Timestamp(j.matchTime)
    && c.odds == j.odds[0]
    && c.created == CreatedFlag(existing, j.id)
    && c.status == "Ready"
  }

  /** The join of one JsonOdds event: `Ok(Some(_))` when both secondary feeds
      have a match, `Ok(None)` when either lacks one. */
  function JoinOne(j: JsonOddsEvent, rundown: seq<RundownEvent>, sportspage: seq<SportspageResult>, existing: seq<Doc>)
    : (r: Result<Option<CombinedEvent>, JoinError>)
    ensures r.Ok? && r.value.Some? ==>
              exists kr, ks :: IsFirstRundown(j, rundown, kr) && IsFirstSportspage(j, sportspage, ks)
                               && JoinedFrom(r.value.value, j, rundown[kr], sportspage[ks], existing)
    ensures r.Ok? && r.value.Some? <==>
              (exists kr :: IsFirstRundown(j, rundown, kr)) && (exists ks :: 0 <= ks < |sportspage| && SportspageMatches(j, sportspage[ks]))
              && |j.odds| > 0
  {
    match FindRundown(j, rundown, 0)
    case Err(e) =>
      assert forall kr :: !IsFirstRundown(j, rundown, kr);
      Err(e)
    case Ok(ro) =>
      var so := FindSportspage(j, sportspage, 0);
      if ro.Some? && so.Some? then
        if |j.odds| == 0 then Err(NoOdds(j.id))
        else
          var c := CombinedEvent(j.id, rundown[ro.value].eventId, sportspage[so.value].gameId, j.sport,
                                 j.awayTeam, j.homeTeam, Timestamp(j.matchTime), j.odds[0],
                                 CreatedFlag(existing, j.id), "Ready");
          assert IsFirstRundown(j, rundown, ro.value) && IsFirstSportspage(j, sportspage, so.value);
          assert JoinedFrom(c, j, rundown[ro.value], sportspage[so.value], existing);
          Ok(Some(c))
      else
        assert ro.None? ==> forall kr :: !IsFirstRundown(j, rundown, kr);
        Ok(None)
  }

  /** The join of one event throws exactly when the Rundown search throws,
      or when both feeds match and the event has no line; the latter error
      names the event. */
  lemma JoinOneFails(j: JsonOddsEvent, rundown: seq<RundownEvent>, sportspage: seq<SportspageResult>, existing: seq<Doc>)
    ensures var r := JoinOne(j, rundown, sportspage, existing);
            r.Err? <==>
              || RundownThrows(j, rundown)
              || ((exists kr :: IsFirstRundown(j, rundown, kr)) && (exists ks :: 0 <= ks < |sportspage| && SportspageMatches(j, sportspage[ks]))
                  && |j.odds| == 0)
    ensures var r := JoinOne(j, rundown, sportspage, existing);
            r.Err? && !RundownThrows(j, rundown) ==> r.error == NoOdds(j.id)
  {
    FindRundownThrows(j, rundown);
    var fr := FindRundown(j, rundown, 0);
    if fr.Ok? && fr.value.Some? {
      assert IsFirstRundown(j, rundown, fr.value.value);
    }
    if fr.Ok? && fr.value.None? {
      assert forall kr :: !IsFirstRundown(j, rundown, kr);
    }
  }

  /** The per-event joins, one per JsonOdds event. */
  function Joins(js: seq<JsonOddsEvent>, rundown: seq<RundownEvent>, sportspage: seq<SportspageResult>, existing: seq<Doc>)
    : (rs: seq<Result<Option<CombinedEvent>, JoinError>>)
    ensures |rs| == |js| && forall i :: 0 <= i < |js| ==> rs[i] == JoinOne(js[i], rundown, sportspage, existing)
  {
    seq(|js|, i requires 0 <= i < |js| => JoinOne(js[i], rundown, sportspage, existing))
  }

  /** `processEventData`: the joins of all JsonOdds events, in input order,
      keeping only the matched ones; the first throwing event aborts it. */
  function ProcessEventData(js: seq<JsonOddsEvent>, rundown: seq<RundownEvent>, sportspage: seq<SportspageResult>, existing: seq<Doc>)
    : (r: Result<seq<CombinedEvent>, JoinError>)
    ensures r.Ok? <==> forall i :: 0 <= i < |js| ==> JoinOne(js[i], rundown, sportspage, existing).Ok?
    ensures r.Ok? ==> |r.value| <= |js|
    ensures r.Err? ==> exists i :: 0 <= i < |js| && JoinOne(js[i], rundown, sportspage, existing) == Err(r.error)
  {
    Collect(Joins(js, rundown, sportspage, existing))
  }

  /** Every emitted record was joined from one JsonOdds event and carries
      its id, its sport, the stored `Created` flag and status 'Ready'. */
  lemma EmittedRecordsAreJoined(js: seq<JsonOddsEvent>, rundown: seq<RundownEvent>, sportspage: seq<SportspageResult>, existing: seq<Doc>, k: nat)
    requires ProcessEventData(js, rundown, sportspage, existing).Ok?
    requires k < |ProcessEventData(js, rundown, sportspage, existing).value|
    ensures var c := ProcessEventData(js, rundown, sportspage, existing).value[k];
            && c.created == CreatedFlag(existing, c.jsonoddsId) && c.status == "Ready"
            && exists i :: 0 <= i < |js| && c.jsonoddsId == js[i].id && c.sport == js[i].sport && c.homeTeam == js[i].homeTeam
  {
    var rs := Joins(js, rundown, sportspage, existing);
    var c := ProcessEventData(js, rundown, sportspage, existing).value[k];
    var i :| 0 <= i < |rs| && rs[i] == Ok(Some(c));
    var kr, ks :| IsFirstRundown(js[i], rundown, kr) && IsFirstSportspage(js[i], sportspage, ks)
                  && JoinedFrom(c, js[i], rundown[kr], sportspage[ks], existing);
  }

  /** The output is the order-preserving subsequence of the input picked out
      by the strictly increasing indices `idx`: exactly the events whose join
      emitted a record, each contributing that record. */
  lemma OutputIsSubsequence(js: seq<JsonOddsEvent>, rundown: seq<RundownEvent>, sportspage: seq<SportspageResult>, existing: seq<Doc>)
    returns (idx: seq<nat>)
    requires ProcessEventData(js, rundown, sportspage, existing).Ok?
    ensures var out := ProcessEventData(js, rundown, sportspage, existing).value;
            && |idx| == |out|
            && (forall k :: 0 <= k < |idx| ==> idx[k] < |js| && JoinOne(js[idx[k]], rundown, sportspage, existing) == Ok(Some(out[k])))
            && (forall k, l :: 0 <= k < l < |idx| ==> idx[k] < idx[l])
            && (forall i :: 0 <= i < |js| && i !in idx ==> JoinOne(js[i], rundown, sportspage, existing) == Ok(None))
  {
    idx := CollectIsSubsequence(Joins(js, rundown, sportspage, existing));
  }

  /** Every record a join emits is in the output. */
  lemma JoinedRecordEmitted(js: seq<JsonOddsEvent>, rundown: seq<RundownEvent>, sportspage: seq<SportspageResult>, existing: seq<Doc>,
                            i: nat, c: CombinedEvent)
    requires ProcessEventData(js, rundown, sportspage, existing).Ok?
    requires i < |js| && JoinOne(js[i], rundown, sportspage, existing) == Ok(Some(c))
    ensures c in ProcessEventData(js, rundown, sportspage, existing).value
  {
    var out := ProcessEventData(js, rundown, sportspage, existing).value;
    var idx := OutputIsSubsequence(js, rundown, sportspage, existing);
    assert i in idx;
    var k :| 0 <= k < |idx| && idx[k] == i;
    assert out[k] == c;
  }
}

=== FILE: seasons.dfy ===
/** Per-sport season calendar (`sportsConfig`, `getSeasonPhaseAndDaysAhead`,
    `isSeasonActive` in src/monitor.ts). Each 'YYYY-MM-DD' date is the epoch
    second of that day's UTC midnight, which is how JavaScript parses it. */
module Seasons {

  datatype Phase = Preseason | Regular | Postseason | Offseason

  datatype SportConfig = SportConfig(
    league: string,
    preseasonStart: int, preseasonEnd: int,
    seasonStart: int, seasonEnd: int,
    postseasonStart: int, postseasonEnd: int,
    daysAheadPreseason: nat, daysAheadRegular: nat, daysAheadPostseason: nat,
    jsonoddsId: int, rundownId: int)

  /** The shipped calendar, in iteration order. */
  const SportsConfig: seq<SportConfig> := [
    SportConfig("MLB",   1735603200, 1735603200, 1743465600, 1761868800, 1730419200, 1734220800, 14, 5, 14, 0, 3),
    SportConfig("NBA",   1727913600, 1729468800, 1735084800, 1745193600, 1735689600, 1735689600, 10, 3, 7, 1, 4),
    SportConfig("NCAAB", 1735603200, 1735603200, 1739145600, 1739664000, 1710720000, 1712534400, 10, 2, 7, 2, 5),
    SportConfig("NCAAF", 1735603200, 1735603200, 1735603200, 1735603200, 1735603200, 1735603200, 21, 8, 3, 3, 1),
    SportConfig("NFL",   1735603200, 1735603200, 1735603200, 1735603200, 1735603200, 1739145600, 21, 8, 3, 4, 2),
    SportConfig("NHL",   1735603200, 1735603200, 1696896000, 1713398400, 1713484800, 1719705600, 10, 3, 7, 5, 6),
    SportConfig("WNBA",  1735603200, 1735603200, 1735603200, 1735603200, 1735603200, 1735603200, 10, 3, 7, 8, 8)
  ]

  /** The inclusive interval [lo, hi] contains `t`. */
  predicate Within(t: int, lo: int, hi: int) {
    lo <= t <= hi
  }

  function DaysAhead(c: SportConfig, p: Phase): nat {
    match p
    case Preseason => c.daysAheadPreseason
    case Regular => c.daysAheadRegular
    case Postseason => c.daysAheadPostseason
    case Offseason => 0
  }

  /** The first of preseason, regular season and postseason whose interval
      holds `now`, with that phase's look-ahead; otherwise the offseason. */
  function SeasonPhaseAndDaysAhead(c: SportConfig, now: int): (r: (Phase, nat))
    ensures r.1 == DaysAhead(c, r.0)
    ensures r.0 == Preseason <==> Within(now, c.preseasonStart, c.preseasonEnd)
    ensures r.0 == Regular <==> !Within(now, c.preseasonStart, c.preseasonEnd) && Within(now, c.seasonStart, c.seasonEnd)
    ensures r.0 == Postseason <==>
              (!Within(now, c.preseasonStart, c.preseasonEnd) && !Within(now, c.seasonStart, c.seasonEnd)
               && Within(now, c.postseasonStart, c.postseasonEnd))
  {
    if Within(now, c.preseasonStart, c.preseasonEnd) then (Preseason, c.daysAheadPreseason)
    else if Within(now, c.seasonStart, c.seasonEnd) then (Regular, c.daysAheadRegular)
    else if Within(now, c.postseasonStart, c.postseasonEnd) then (Postseason, c.daysAheadPostseason)
    else (Offseason, 0)
  }

  /** `isSeasonActive`: some interval holds `now`. */
  predicate IsSeasonActive(c: SportConfig, now: int) {
    || Within(now, c.preseasonStart, c.preseasonEnd)
    || Within(now, c.seasonStart, c.seasonEnd)
    || Within(now, c.postseasonStart, c.postseasonEnd)
  }

  /** The two functions agree: a sport is active exactly when its phase is
      not the offseason, and only the offseason looks zero days ahead. */
  lemma ActiveIffNotOffseason(c: SportConfig, now: int)
    ensures IsSeasonActive(c, now) <==> SeasonPhaseAndDaysAhead(c, now).0 != Offseason
    ensures !IsSeasonActive(c, now) ==> SeasonPhaseAndDaysAhead(c, now).1 == 0
  {
  }

  /** On 2025-05-01 (UTC midnight) MLB is in its regular season and NBA is
      not yet in its (placeholder) postseason. */
  lemma CalendarExample()
    ensures SeasonPhaseAndDaysAhead(SportsConfig[0], 1746057600) == (Regular, 5)
    ensures SeasonPhaseAndDaysAhead(SportsConfig[1], 1746057600) == (Offseason, 0)
  {
  }
}

=== FILE: sequences.dfy ===
/** Generic sequence operations the monitor, odds-history and slate-sync
    code is built from: a map whose step may skip or throw, splitting into
    bounded chunks, and filtering. */
module Sequences {
  import opened Wrappers

  /** Runs the per-element results in order: skipped elements (`Ok(None)`)
      leave no trace, kept ones are emitted in order, and the first `Err`
      aborts the whole run. */
  function Collect<T(==), E(==)>(rs: seq<Result<Option<T>, E>>): (r: Result<seq<T>, E>)
    ensures r.Ok? <==> forall i :: 0 <= i < |rs| ==> rs[i].Ok?
    ensures r.Err? ==> exists i :: 0 <= i < |rs| && rs[i] == Err(r.error) && forall p :: 0 <= p < i ==> rs[p].Ok?
    ensures r.Ok? ==> |r.value| <= |rs|
    ensures r.Ok? ==> forall k :: 0 <= k < |r.value| ==> exists i :: 0 <= i < |rs| && rs[i] == Ok(Some(r.value[k]))
  {
    if |rs| == 0 then Ok([])
    else
      assert forall i :: 1 <= i < |rs| ==> rs[i] == rs[1..][i - 1];
      match rs[0]
      case Err(e) => Err(e)
      case Ok(o) =>
        match Collect(rs[1..])
        case Err(e) =>
          var i :| 0 <= i < |rs[1..]| && rs[1..][i] == Err(e) && forall p :: 0 <= p < i ==> rs[1..][p].Ok?;
          assert rs[i + 1] == Err(e);
          Err(e)
        case Ok(rest) => Ok((if o.Some? then [o.value] else []) + rest)
  }

  /** `idx` picks the kept elements out of `rs`, in increasing order, and
      every other element was skipped. */
  ghost predicate PicksKept<T, E>(rs: seq<Result<Option<T>, E>>, out: seq<T>, idx: seq<nat>) {
    && |idx| == |out|
    && (forall k :: 0 <= k < |idx| ==> idx[k] < |rs| && rs[idx[k]] == Ok(Some(out[k])))
    && (forall k, l :: 0 <= k < l < |idx| ==> idx[k] < idx[l])
    && (forall i :: 0 <= i < |rs| && i !in idx ==> rs[i] == Ok(None))
  }

  /** A successful run emits an order-preserving subsequence: one element per
      kept position, and nothing for the skipped ones. */
  function Shift(s: seq<nat>): (r: seq<nat>)
    ensures |r| == |s| && forall k :: 0 <= k < |s| ==> r[k] == s[k] + 1
  {
    if |s| == 0 then [] else [s[0] + 1] + Shift(s[1..])
  }

  lemma CollectStep<T, E>(rs: seq<Result<Option<T>, E>>)
    requires |rs| > 0 && Collect(rs).Ok?
    ensures rs[0].Ok? && Collect(rs[1..]).Ok?
    ensures Collect(rs).value == (if rs[0].value.Some? then [rs[0].value.value] else []) + Collect(rs[1..]).value
  {
  }

  lemma {:induction false} CollectIsSubsequence<T, E>(rs: seq<Result<Option<T>, E>>) returns (idx: seq<nat>)
    requires Collect(rs).Ok?
    ensures PicksKept(rs, Collect(rs).value, idx)
  {
    if |rs| == 0 {
      return [];
    }
    var out := Collect(rs).value;
    var tail := rs[1..];
    CollectStep(rs);
    var rest := Collect(tail).value;
    var tailIdx := CollectIsSubsequence(tail);
    var shifted := Shift(tailIdx);
    ShiftPicks(rs, rest, tailIdx, shifted);
    if rs[0].value.Some? {
      idx := [0] + shifted;
      PrependPick(rs, rest, shifted);
    } else {
      idx := shifted;
      assert out == rest;
    }
  }

  /** Indices into the tail, shifted by one, pick the same elements of `rs`. */
  lemma ShiftPicks<T, E>(rs: seq<Result<Option<T>, E>>, rest: seq<T>, tailIdx: seq<nat>, shifted: seq<nat>)
    requires |rs| > 0 && PicksKept(rs[1..], rest, tailIdx)
    requires |shifted| == |tailIdx| && forall k :: 0 <= k < |tailIdx| ==> shifted[k] == tailIdx[k] + 1
    ensures |shifted| == |rest|
    ensures forall k :: 0 <= k < |shifted| ==> 1 <= shifted[k] < |rs| && rs[shifted[k]] == Ok(Some(rest[k]))
    ensures forall k, l :: 0 <= k < l < |shifted| ==> shifted[k] < shifted[l]
    ensures forall i :: 1 <= i < |rs| && i !in shifted ==> rs[i] == Ok(None)
  {
    forall i | 1 <= i < |rs| && i !in shifted
      ensures rs[i] == Ok(None)
    {
      assert rs[i] == rs[1..][i - 1];
    }
  }

  lemma PrependPick<T, E>(rs: seq<Result<Option<T>, E>>, rest: seq<T>, shifted: seq<nat>)
    requires |rs| > 0 && rs[0].Ok? && rs[0].value.Some?
    requires |shifted| == |rest|
    requires forall k :: 0 <= k < |shifted| ==> 1 <= shifted[k] < |rs| && rs[shifted[k]] == Ok(Some(rest[k]))
    requires forall k, l :: 0 <= k < l < |shifted| ==> shifted[k] < shifted[l]
    requires forall i :: 1 <= i < |rs| && i !in shifted ==> rs[i] == Ok(None)
    ensures PicksKept(rs, [rs[0].value.value] + rest, [0] + shifted)
  {
    var idx := [0] + shifted;
    var out := [rs[0].value.value] + rest;
    forall k | 0 <= k < |idx|
      ensures idx[k] < |rs| && rs[idx[k]] == Ok(Some(out[k]))
    {
      if k > 0 {
        assert idx[k] == shifted[k - 1] && out[k] == rest[k - 1];
      }
    }
    forall k, l | 0 <= k < l < |idx|
      ensures idx[k] < idx[l]
    {
      if k > 0 {
        assert idx[k] == shifted[k - 1] && idx[l] == shifted[l - 1];
      } else {
        assert idx[l] == shifted[l - 1];
      }
    }
  }

  /** Array `find`, as an index: the first element at or after `from` that
      satisfies `p`. */
  function FindFrom<T>(xs: seq<T>, p: T -> bool, from: nat): (r: Option<nat>)
    requires from <= |xs|
    ensures r.Some? ==> from <= r.value < |xs| && p(xs[r.value]) && forall m :: from <= m < r.value ==> !p(xs[m])
    ensures r.None? ==> forall m :: from <= m < |xs| ==> !p(xs[m])
    decreases |xs| - from
  {
    if from == |xs| then None
    else if p(xs[from]) then Some(from)
    else FindFrom(xs, p, from + 1)
  }

  /** Array `find` whose callback throws on the elements satisfying `throws`:
      the first element that throws or matches decides, and a throw is
      reported with its index. */
  function FindOrThrow<T>(xs: seq<T>, throws: T -> bool, p: T -> bool, from: nat): (r: Result<Option<nat>, nat>)
    requires from <= |xs|
    ensures r.Ok? && r.value.Some? ==>
              && from <= r.value.value < |xs| && p(xs[r.value.value]) && !throws(xs[r.value.value])
              && forall m :: from <= m < r.value.value ==> !p(xs[m]) && !throws(xs[m])
    ensures r == Ok(None) ==> forall m :: from <= m < |xs| ==> !p(xs[m]) && !throws(xs[m])
    ensures r.Err? ==> from <= r.error < |xs| && throws(xs[r.error]) && forall m :: from <= m < r.error ==> !p(xs[m]) && !throws(xs[m])
    decreases |xs| - from
  {
    if from == |xs| then Ok(None)
    else if throws(xs[from]) then Err(from)
    else if p(xs[from]) then Ok(Some(from))
    else FindOrThrow(xs, throws, p, from + 1)
  }

  function Filter<T(==)>(xs: seq<T>, p: T -> bool): (r: seq<T>)
    ensures |r| <= |xs|
    ensures forall k :: 0 <= k < |r| ==> r[k] in xs && p(r[k])
    ensures forall i :: 0 <= i < |xs| && p(xs[i]) ==> xs[i] in r
  {
    if |xs| == 0 then []
    else (if p(xs[0]) then [xs[0]] else []) + Filter(xs[1..], p)
  }

  /** Filtering distributes over concatenation, so it keeps relative order. */
  lemma {:induction false} FilterAppend<T>(a: seq<T>, b: seq<T>, p: T -> bool)
    ensures Filter(a + b, p) == Filter(a, p) + Filter(b, p)
  {
    if |a| > 0 {
      assert (a + b)[1..] == a[1..] + b;
      FilterAppend(a[1..], b, p);
    } else {
      assert a + b == b;
    }
  }

  /** Splitting by a predicate and its complement loses and duplicates
      nothing. */
  lemma {:induction false} FilterPartition<T>(xs: seq<T>, p: T -> bool, q: T -> bool)
    requires forall x :: q(x) == !p(x)
    ensures multiset(Filter(xs, p)) + multiset(Filter(xs, q)) == multiset(xs)
    ensures |Filter(xs, p)| + |Filter(xs, q)| == |xs|
    decreases |xs|
  {
    if |xs| > 0 {
      FilterPartition(xs[1..], p, q);
      assert xs == [xs[0]] + xs[1..];
    }
  }

  function Flatten<T>(xss: seq<seq<T>>): seq<T> {
    if |xss| == 0 then [] else xss[0] + Flatten(xss[1..])
  }

  /** `for (i = 0; i < xs.length; i += n) xs.slice(i, i + n)`. */
  function Chunks<T>(xs: seq<T>, n: nat): (r: seq<seq<T>>)
    requires n > 0
    ensures forall k :: 0 <= k < |r| ==> 0 < |r[k]| <= n
    ensures Flatten(r) == xs
    decreases |xs|
  {
    if |xs| == 0 then []
    else if |xs| <= n then
      assert Flatten([xs]) == xs + [];
      [xs]
    else
      var rest := Chunks(xs[n..], n);
      assert Flatten([xs[..n]] + rest) == xs[..n] + Flatten(rest);
      assert xs[..n] + xs[n..] == xs;
      [xs[..n]] + rest
  }

  /** Each element of a flattening sits in one of the pieces. */
  lemma {:induction false} InFlatten<T>(xss: seq<seq<T>>, x: T)
    requires x in Flatten(xss)
    ensures exists k :: 0 <= k < |xss| && x in xss[k]
    decreases |xss|
  {
    if x in xss[0] {
    } else {
      InFlatten(xss[1..], x);
      var k :| 0 <= k < |xss[1..]| && x in xss[1..][k];
      assert xss[k + 1] == xss[1..][k];
    }
  }

  lemma {:induction false} FlattenHas<T>(xss: seq<seq<T>>, k: nat, x: T)
    requires k < |xss| && x in xss[k]
    ensures x in Flatten(xss)
    decreases |xss|
  {
    if k > 0 {
      FlattenHas(xss[1..], k - 1, x);
    }
  }

  lemma {:induction false} FlattenIndex<T>(xss: seq<seq<T>>, i: nat) returns (k: nat, j: nat)
    requires i < |Flatten(xss)|
    ensures k < |xss| && j < |xss[k]| && Flatten(xss)[i] == xss[k][j]
    decreases |xss|
  {
    if i < |xss[0]| {
      k, j := 0, i;
    } else {
      var k', j' := FlattenIndex(xss[1..], i - |xss[0]|);
      k, j := k' + 1, j';
    }
  }

  /** Pieces of at most `n` elements flatten to at most `n` per piece. */
  lemma {:induction false} FlattenBound<T>(xss: seq<seq<T>>, n: nat)
    requires forall k :: 0 <= k < |xss| ==> |xss[k]| <= n
    ensures |Flatten(xss)| <= n * |xss|
    decreases |xss|
  {
    if |xss| > 0 {
      FlattenBound(xss[1..], n);
      assert n * |xss| == n + n * |xss[1..]|;
    }
  }
}

=== FILE: slate_sync.dfy ===
/** The evaluation slate of src/slateSync.ts: one row per usable contest,
    inserted when new, refreshed in its sync columns when already there, and
    past undecided games switched off. The user-owned `evaluate` column is
    never written by the refresh. */
module SlateSync {
  import opened Wrappers
  import opened Text
  import opened Documents
  import opened Feeds
  import opened OddsUtils
  import opened Sequences

  /** `SPORT_ID_TO_LEAGUE`: the JsonOdds sport ids the slate knows. */
  const SportIdToLeague: map<int, string> :=
    map[0 := "MLB", 1 := "NBA", 2 := "NCAAB", 3 := "NCAAF", 4 := "NFL", 5 := "NHL", 8 := "WNBA", 11 := "MMA", 24 := "CFL"]

  /** Value of the `source` column of every row the sync inserts. */
  const SyncSource: string := "monitor_sync"

  /** Games this long past their start (seconds) are deactivated. */
  const DeactivateAfter: int := 2 * 60 * 60

  /** Rows per id query and per insert statement. */
  const BatchSize: nat := 100

  /** A row of `evaluation_slate` as built from a contest; decimal prices are
      null (None) when the American price is missing. */
  datatype SlateRow = SlateRow(
    jsonoddsId: string,
    league: string,
    sportId: int,
    homeTeam: string,
    awayTeam: string,
    gameTime: int,
    syncedAt: int,
    moneylineHome: Option<real>,
    moneylineAway: Option<real>,
    spreadLine: Option<real>,
    spreadHomeOdds: Option<real>,
    spreadAwayOdds: Option<real>,
    totalLine: Option<real>,
    overOdds: Option<real>,
    underOdds: Option<real>,
    hasOdds: bool,
    conference: Option<string>)

  datatype SlateError = InvalidGameTime(jsonoddsId: string)

  // ---------------------------------------------------------------------
  // Row construction

  /** The game time of a contest in seconds. `None` means "no usable time,
      skip"; an ISO text that does not parse makes the conversion throw. */
  function GameTime(t: MatchTime, parseDate: string -> Option<int>, id: string): (r: Result<Option<int>, SlateError>)
    ensures r.Err? <==> t.IsoText? && parseDate(t.text).None?
    ensures r == Ok(None) <==> t.NoMatchTime?
  {
    match t
    case IsoText(s) => if parseDate(s).Some? then Ok(Some(parseDate(s).value)) else Err(InvalidGameTime(id))
    case Timestamp(sec) => Ok(Some(sec))
    case SecondsField(sec) => Ok(Some(sec))
    case NoMatchTime => Ok(None)
  }

  /** An American price as a decimal, with 0 (missing) read as null. */
  function DecimalOrNull(american: int): (r: Option<real>)
    ensures r.None? <==> american == 0
    ensures r.Some? ==> r.value >= 1.0 && r.value == AmericanToDecimal(american as real)
  {
    if american != 0 then Some(AmericanToDecimal(american as real)) else None
  }

  /** The spread from the away side: the away spread when numeric, else the
      negated home spread when numeric, else null. */
  function SpreadLineOf(o: JsonOddsOdds, parseFloat: string -> Option<real>): (r: Option<real>)
    ensures parseFloat(o.pointSpreadAway).Some? ==> r == parseFloat(o.pointSpreadAway)
    ensures parseFloat(o.pointSpreadAway).None? && parseFloat(o.pointSpreadHome).Some? ==> r == Some(-parseFloat(o.pointSpreadHome).value)
    ensures r.None? <==> parseFloat(o.pointSpreadAway).None? && parseFloat(o.pointSpreadHome).None?
  {
    match parseFloat(o.pointSpreadAway)
    case Some(a) => Some(a)
    case None =>
      match parseFloat(o.pointSpreadHome)
      case Some(h) => Some(-h)
      case None => None
  }

  /** The total, kept only when numeric and positive. */
  function TotalLineOf(o: JsonOddsOdds, parseFloat: string -> Option<real>): (r: Option<real>)
    ensures r.Some? <==> parseFloat(o.totalNumber).Some? && parseFloat(o.totalNumber).value > 0.0
    ensures r.Some? ==> r == parseFloat(o.totalNumber)
  {
    var t := parseFloat(o.totalNumber);
    if t.Some? && t.value > 0.0 then t else None
  }

  /** The home team's conference when Sportspage gave a non-empty one. */
  function ConferenceOf(results: map<int, SportspageResult>, spId: int): (r: Option<string>)
    ensures r.Some? <==> spId in results && results[spId].home.conference.Some? && results[spId].home.conference.value != ""
    ensures r.Some? ==> r == results[spId].home.conference
  {
    if spId in results && results[spId].home.conference.Some? && results[spId].home.conference.value != ""
    then results[spId].home.conference else None
  }

  /** A market is fully priced when its line (if it has one) and both
      prices are there. */
  predicate Priced3(line: bool, a: Option<real>, b: Option<real>) {
    line && a.Some? && b.Some?
  }

  /** The row for a contest whose id, league and time are usable. */
  function MakeSlateRow(e: CombinedEvent, id: string, league: string, gameTime: int, syncedAt: int,
                        results: map<int, SportspageResult>, parseFloat: string -> Option<real>): (r: SlateRow)
    ensures r.jsonoddsId == id && r.league == league && r.sportId == e.sport && r.gameTime == gameTime
    ensures r.homeTeam == e.homeTeam && r.awayTeam == e.awayTeam && r.syncedAt == syncedAt
    ensures r.moneylineAway == DecimalOrNull(ParseAmericanText(e.odds.moneyLineAway))
    ensures r.moneylineHome == DecimalOrNull(ParseAmericanText(e.odds.moneyLineHome))
    ensures r.spreadAwayOdds == DecimalOrNull(ParseAmericanText(e.odds.pointSpreadAwayLine))
    ensures r.spreadHomeOdds == DecimalOrNull(ParseAmericanText(e.odds.pointSpreadHomeLine))
    ensures r.overOdds == DecimalOrNull(ParseAmericanText(e.odds.overLine))
    ensures r.underOdds == DecimalOrNull(ParseAmericanText(e.odds.underLine))
    ensures r.spreadLine == SpreadLineOf(e.odds, parseFloat) && r.totalLine == TotalLineOf(e.odds, parseFloat)
    ensures r.conference == ConferenceOf(results, e.sportspageId)
    ensures r.hasOdds <==>
              || (ParseAmericanText(e.odds.moneyLineAway) != 0 && ParseAmericanText(e.odds.moneyLineHome) != 0)
              || (r.spreadLine.Some? && ParseAmericanText(e.odds.pointSpreadAwayLine) != 0 && ParseAmericanText(e.odds.pointSpreadHomeLine) != 0)
              || (r.totalLine.Some? && ParseAmericanText(e.odds.overLine) != 0 && ParseAmericanText(e.odds.underLine) != 0)
  {
    var o := e.odds;
    var mlAway := DecimalOrNull(ParseAmericanText(o.moneyLineAway));
    var mlHome := DecimalOrNull(ParseAmericanText(o.moneyLineHome));
    var spread := SpreadLineOf(o, parseFloat);
    var spAway := DecimalOrNull(ParseAmericanText(o.pointSpreadAwayLine));
    var spHome := DecimalOrNull(ParseAmericanText(o.pointSpreadHomeLine));
    var total := TotalLineOf(o, parseFloat);
    var over := DecimalOrNull(ParseAmericanText(o.overLine));
    var under := DecimalOrNull(ParseAmericanText(o.underLine));
    var hasOdds := Priced3(true, mlAway, mlHome) || Priced3(spread.Some?, spAway, spHome) || Priced3(total.Some?, over, under);
    SlateRow(id, league, e.sport, e.homeTeam, e.awayTeam, gameTime, syncedAt,
             mlHome, mlAway, spread, spHome, spAway, total, over, under, hasOdds, ConferenceOf(results, e.sportspageId))
  }

  /** One iteration of the row loop: skip (`Ok(None)`) an empty trimmed id,
      an unknown sport or a missing time; throw on an unparsable time text. */
  function BuildSlateRow(e: CombinedEvent, syncedAt: int, results: map<int, SportspageResult>,
                         parseFloat: string -> Option<real>, parseDate: string -> Option<int>): (r: Result<Option<SlateRow>, SlateError>)
    ensures r.Ok? && r.value.Some? <==>
              Trim(e.jsonoddsId) != "" && e.sport in SportIdToLeague && GameTime(e.matchTime, parseDate, Trim(e.jsonoddsId)).Ok?
              && !e.matchTime.NoMatchTime?
    ensures r.Err? <==> Trim(e.jsonoddsId) != "" && e.sport in SportIdToLeague && e.matchTime.IsoText? && parseDate(e.matchTime.text).None?
    ensures r.Ok? && r.value.Some? ==>
              && r.value.value.jsonoddsId == Trim(e.jsonoddsId)
              && r.value.value.league == SportIdToLeague[e.sport]
              && r.value.value == MakeSlateRow(e, Trim(e.jsonoddsId), SportIdToLeague[e.sport],
                                               GameTime(e.matchTime, parseDate, Trim(e.jsonoddsId)).value.value, syncedAt, results, parseFloat)
  {
    var id := Trim(e.jsonoddsId);
    if id == "" then Ok(None)
    else if e.sport !in SportIdToLeague then Ok(None)
    else
      match GameTime(e.matchTime, parseDate, id)
      case Err(err) => Err(err)
      case Ok(None) => Ok(None)
      case Ok(Some(t)) => Ok(Some(MakeSlateRow(e, id, SportIdToLeague[e.sport], t, syncedAt, results, parseFloat)))
  }

  function RowSteps(events: seq<CombinedEvent>, syncedAt: int, results: map<int, SportspageResult>,
                    parseFloat: string -> Option<real>, parseDate: string -> Option<int>): (rs: seq<Result<Option<SlateRow>, SlateError>>)
    ensures |rs| == |events|
    ensures forall i :: 0 <= i < |events| ==> rs[i] == BuildSlateRow(events[i], syncedAt, results, parseFloat, parseDate)
  {
    seq(|events|, i requires 0 <= i < |events| => BuildSlateRow(events[i], syncedAt, results, parseFloat, parseDate))
  }

  /** The rows of a sync, in contest order; the first contest whose time
      text does not parse aborts the whole sync. */
  function BuildSlateRows(events: seq<CombinedEvent>, syncedAt: int, results: map<int, SportspageResult>,
                          parseFloat: string -> Option<real>, parseDate: string -> Option<int>): (r: Result<seq<SlateRow>, SlateError>)
    ensures r.Ok? <==> forall i :: 0 <= i < |events| ==> BuildSlateRow(events[i], syncedAt, results, parseFloat, parseDate).Ok?
    ensures r.Ok? ==> |r.value| <= |events|
  {
    Collect(RowSteps(events, syncedAt, results, parseFloat, parseDate))
  }

  /** Every kept row comes from its own contest, in order: the rows are the
      built rows of an increasing selection of the contests. */
  lemma SlateRowsFollowContests(events: seq<CombinedEvent>, syncedAt: int, results: map<int, SportspageResult>,
                                parseFloat: string -> Option<real>, parseDate: string -> Option<int>) returns (idx: seq<nat>)
    requires BuildSlateRows(events, syncedAt, results, parseFloat, parseDate).Ok?
    ensures var rows := BuildSlateRows(events, syncedAt, results, parseFloat, parseDate).value;
            && |idx| == |rows|
            && (forall a, b :: 0 <= a < b < |idx| ==> idx[a] < idx[b])
            && forall k :: 0 <= k < |idx| ==> idx[k] < |events| && BuildSlateRow(events[idx[k]], syncedAt, results, parseFloat, parseDate) == Ok(Some(rows[k]))
  {
    var rs := RowSteps(events, syncedAt, results, parseFloat, parseDate);
    idx := CollectIsSubsequence(rs);
  }

  /** Every kept row has a non-empty id and a known league. */
  lemma KeptRowsUsable(events: seq<CombinedEvent>, syncedAt: int, results: map<int, SportspageResult>,
                       parseFloat: string -> Option<real>, parseDate: string -> Option<int>, k: nat)
    requires BuildSlateRows(events, syncedAt, results, parseFloat, parseDate).Ok?
    requires k < |BuildSlateRows(events, syncedAt, results, parseFloat, parseDate).value|
    ensures var row := BuildSlateRows(events, syncedAt, results, parseFloat, parseDate).value[k];
            row.jsonoddsId != "" && row.jsonoddsId == Trim(row.jsonoddsId) && row.league == SportIdToLeague[row.sportId]
  {
    var idx := SlateRowsFollowContests(events, syncedAt, results, parseFloat, parseDate);
    var e := events[idx[k]];
    TrimIdempotent(e.jsonoddsId);
  }

  // ---------------------------------------------------------------------
  // The table

  /** Columns of `evaluation_slate`; `Other` stands for the user-owned
      evaluation settings (max_eval_count, eval_interval_minutes, ...). */
  datatype Column =
    | JsonoddsIdCol | LeagueCol | SportIdCol | HomeTeamCol | AwayTeamCol | GameTimeCol | SourceCol | SyncedAtCol
    | MoneylineHomeCol | MoneylineAwayCol | SpreadLineCol | SpreadHomeOddsCol | SpreadAwayOddsCol
    | TotalLineCol | OverOddsCol | UnderOddsCol | HasOddsCol | ConferenceCol
    | EvaluateCol | Other(name: string)

  type Record = map<Column, Value>

  /** The table, keyed by the unique `jsonodds_id`. */
  type Table = map<string, Record>

  function NumOrNull(x: Option<real>): Value {
    if x.Some? then Num(x.value) else Null
  }

  /** The columns a refresh of an existing row may write. */
  const SyncColumns: set<Column> := {
    LeagueCol, SportIdCol, HomeTeamCol, AwayTeamCol, GameTimeCol, SyncedAtCol,
    MoneylineHomeCol, MoneylineAwayCol, SpreadLineCol, SpreadHomeOddsCol, SpreadAwayOddsCol,
    TotalLineCol, OverOddsCol, UnderOddsCol, HasOddsCol, ConferenceCol }

  /** The value a row gives each of its columns. */
  function RowValue(r: SlateRow, c: Column): Value {
    match c
    case JsonoddsIdCol => Str(r.jsonoddsId)
    case LeagueCol => Str(r.league)
    case SportIdCol => Int(r.sportId)
    case HomeTeamCol => Str(r.homeTeam)
    case AwayTeamCol => Str(r.awayTeam)
    case GameTimeCol => Time(r.gameTime)
    case SourceCol => Str(SyncSource)
    case SyncedAtCol => Time(r.syncedAt)
    case MoneylineHomeCol => NumOrNull(r.moneylineHome)
    case MoneylineAwayCol => NumOrNull(r.moneylineAway)
    case SpreadLineCol => NumOrNull(r.spreadLine)
    case SpreadHomeOddsCol => NumOrNull(r.spreadHomeOdds)
    case SpreadAwayOddsCol => NumOrNull(r.spreadAwayOdds)
    case TotalLineCol => NumOrNull(r.totalLine)
    case OverOddsCol => NumOrNull(r.overOdds)
    case UnderOddsCol => NumOrNull(r.underOdds)
    case HasOddsCol => Bool(r.hasOdds)
    case ConferenceCol => if r.conference.Some? then Str(r.conference.value) else Null
    case EvaluateCol => Null
    case Other(_) => Null
  }

  lemma OwnedColumnsNotSynced()
    ensures EvaluateCol !in SyncColumns && SourceCol !in SyncColumns && JsonoddsIdCol !in SyncColumns
  {
  }

  /** The update payload of an existing row: the sync columns only. */
  function UpdatePayload(r: SlateRow): (p: Record)
    ensures p.Keys == SyncColumns
    ensures EvaluateCol !in p && SourceCol !in p && JsonoddsIdCol !in p
    ensures forall c :: c in p ==> p[c] == RowValue(r, c)
  {
    map c | c in SyncColumns :: RowValue(r, c)
  }

  /** The columns an insert sets: the sync columns, the id, the source, and
      `evaluate` at its default null ("triage decides"). */
  const InsertColumns: set<Column> := SyncColumns + {JsonoddsIdCol, SourceCol, EvaluateCol}

  function InsertRecord(r: SlateRow): (rec: Record)
    ensures rec.Keys == InsertColumns
    ensures forall c :: c in rec ==> rec[c] == RowValue(r, c)
  {
    map c | c in InsertColumns :: RowValue(r, c)
  }

  // ---------------------------------------------------------------------
  // Partition into inserts and updates

  function RowIds(rows: seq<SlateRow>): (ids: seq<string>)
    ensures |ids| == |rows| && forall k :: 0 <= k < |rows| ==> ids[k] == rows[k].jsonoddsId
  {
    seq(|rows|, k requires 0 <= k < |rows| => rows[k].jsonoddsId)
  }

  /** The ids the chunked `in` queries found in the table; a chunk whose
      query failed (`queryOk(k)` false) contributes nothing. */
  function ExistingIds(table: Table, chunks: seq<seq<string>>, queryOk: nat -> bool): (r: set<string>)
    ensures r <= table.Keys
    ensures forall id :: id in r ==> exists k :: 0 <= k < |chunks| && queryOk(k) && id in chunks[k]
    ensures forall k, id :: 0 <= k < |chunks| && queryOk(k) && id in chunks[k] && id in table ==> id in r
    decreases |chunks|
  {
    if |chunks| == 0 then {}
    else
      var n := |chunks| - 1;
      var prev := ExistingIds(table, chunks[..n], queryOk);
      var here := if queryOk(n) then set id | id in chunks[n] && id in table else {};
      assert forall k :: 0 <= k < n ==> chunks[..n][k] == chunks[k];
      prev + here
  }

  /** When every id query succeeds the existing ids are exactly the row ids
      present in the table. */
  lemma ExistingIdsExact(table: Table, rows: seq<SlateRow>, queryOk: nat -> bool)
    requires forall k: nat :: queryOk(k)
    ensures var ids := RowIds(rows);
            forall id :: id in ExistingIds(table, Chunks(ids, BatchSize), queryOk) <==> id in ids && id in table
  {
    var ids := RowIds(rows);
    var chunks := Chunks(ids, BatchSize);
    var e := ExistingIds(table, chunks, queryOk);
    forall id | id in ids && id in table ensures id in e {
      InFlatten(chunks, id);
    }
    forall id | id in e ensures id in ids {
      var k :| 0 <= k < |chunks| && queryOk(k) && id in chunks[k];
      FlattenHas(chunks, k, id);
    }
  }

  function IsExisting(existing: set<string>): SlateRow -> bool {
    (r: SlateRow) => r.jsonoddsId in existing
  }

  function IsNew(existing: set<string>): SlateRow -> bool {
    (r: SlateRow) => r.jsonoddsId !in existing
  }

  function NewRows(rows: seq<SlateRow>, existing: set<string>): (r: seq<SlateRow>)
    ensures forall k :: 0 <= k < |r| ==> r[k] in rows && r[k].jsonoddsId !in existing
  {
    Filter(rows, IsNew(existing))
  }

  function UpdateRows(rows: seq<SlateRow>, existing: set<string>): (r: seq<SlateRow>)
    ensures forall k :: 0 <= k < |r| ==> r[k] in rows && r[k].jsonoddsId in existing
  {
    Filter(rows, IsExisting(existing))
  }

  /** Inserts and updates split the rows: disjoint, and together exactly
      the rows (as a multiset). */
  lemma PartitionRows(rows: seq<SlateRow>, existing: set<string>)
    ensures multiset(NewRows(rows, existing)) + multiset(UpdateRows(rows, existing)) == multiset(rows)
    ensures |NewRows(rows, existing)| + |UpdateRows(rows, existing)| == |rows|
    ensures forall i, j :: 0 <= i < |NewRows(rows, existing)| && 0 <= j < |UpdateRows(rows, existing)| ==>
              NewRows(rows, existing)[i] != UpdateRows(rows, existing)[j]
  {
    FilterPartition(rows, IsNew(existing), IsExisting(existing));
    Disjoint(rows, existing);
  }

  lemma Disjoint(rows: seq<SlateRow>, existing: set<string>)
    ensures forall i, j :: 0 <= i < |NewRows(rows, existing)| && 0 <= j < |UpdateRows(rows, existing)| ==>
              NewRows(rows, existing)[i] != UpdateRows(rows, existing)[j]
  {
  }

  /** Each insert batch and id-query chunk has at most 100 rows, and the
      batches put together are the rows to insert. */
  lemma InsertBatches(rows: seq<SlateRow>, existing: set<string>)
    ensures var bs := Chunks(NewRows(rows, existing), BatchSize);
            && (forall k :: 0 <= k < |bs| ==> 0 < |bs[k]| <= 100)
            && Flatten(bs) == NewRows(rows, existing)
    ensures var cs := Chunks(RowIds(rows), BatchSize);
            && (forall k :: 0 <= k < |cs| ==> 0 < |cs[k]| <= 100)
            && Flatten(cs) == RowIds(rows)
  {
  }

  // ---------------------------------------------------------------------
  // Writes

  /** An insert statement conflicts when a row's id is already in the table
      or repeats within the batch (unique violation '23505'). */
  predicate Conflicts(table: Table, batch: seq<SlateRow>) {
    (exists k :: 0 <= k < |batch| && batch[k].jsonoddsId in table)
    || (exists i, j :: 0 <= i < j < |batch| && batch[i].jsonoddsId == batch[j].jsonoddsId)
  }

  function InsertWrites(batch: seq<SlateRow>): (ws: seq<(string, Record)>)
    ensures |ws| == |batch|
    ensures forall k :: 0 <= k < |batch| ==> ws[k] == (batch[k].jsonoddsId, InsertRecord(batch[k]))
  {
    seq(|batch|, k requires 0 <= k < |batch| => (batch[k].jsonoddsId, InsertRecord(batch[k])))
  }

  lemma InsertedUndecided(r: SlateRow)
    ensures EvaluateCol in InsertRecord(r) && InsertRecord(r)[EvaluateCol] == Null
  {
    assert EvaluateCol in InsertColumns;
    assert RowValue(r, EvaluateCol) == Null;
  }

  /** A conflict-free batch writes fresh keys, each once. */
  lemma FreshWrites(table: Table, batch: seq<SlateRow>)
    requires !Conflicts(table, batch)
    ensures var ws := InsertWrites(batch);
            && (forall id :: id in Keys(ws) ==> id !in table)
            && (forall k :: 0 <= k < |ws| ==> LastWrite(ws, k))
  {
    var ws := InsertWrites(batch);
    forall k | 0 <= k < |ws| ensures LastWrite(ws, k) {
      forall m | k < m < |ws| ensures ws[m].0 != ws[k].0 {
        assert ws[m].0 == batch[m].jsonoddsId && ws[k].0 == batch[k].jsonoddsId;
      }
    }
  }

  /** One insert statement: all rows or, on a conflict or a failed call,
      none. Insert errors are logged, never thrown. */
  function InsertBatch(table: Table, batch: seq<SlateRow>, ok: bool): (r: Table)
    ensures r.Keys >= table.Keys
    ensures forall id :: id in r ==> id in table || exists k :: 0 <= k < |batch| && batch[k].jsonoddsId == id
    ensures forall id :: id in table ==> r[id] == table[id]
    ensures !ok || Conflicts(table, batch) ==> r == table
  {
    if ok && !Conflicts(table, batch) then
      FreshWrites(table, batch);
      SetAll(table, InsertWrites(batch))
    else table
  }

  /** A successful conflict-free insert adds every row of the batch as a
      fresh record with `evaluate` null. */
  lemma InsertBatchAdds(table: Table, batch: seq<SlateRow>, k: nat)
    requires !Conflicts(table, batch) && k < |batch|
    ensures var r := InsertBatch(table, batch, true);
            batch[k].jsonoddsId in r && r[batch[k].jsonoddsId] == InsertRecord(batch[k])
            && r[batch[k].jsonoddsId][EvaluateCol] == Null
  {
    var ws := InsertWrites(batch);
    FreshWrites(table, batch);
    assert LastWrite(ws, k) && ws[k] == (batch[k].jsonoddsId, InsertRecord(batch[k]));
    InsertedUndecided(batch[k]);
  }

  function InsertAll(table: Table, batches: seq<seq<SlateRow>>, batchOk: nat -> bool, from: nat): (r: Table)
    ensures r.Keys >= table.Keys
    ensures forall id :: id in table ==> r[id] == table[id]
    decreases |batches|
  {
    if |batches| == 0 then table
    else InsertAll(InsertBatch(table, batches[0], batchOk(from)), batches[1..], batchOk, from + 1)
  }

  /** No two rows share an id. */
  predicate DistinctIds(rows: seq<SlateRow>) {
    forall i, j :: 0 <= i < j < |rows| ==> rows[i].jsonoddsId != rows[j].jsonoddsId
  }

  /** Ids that are distinct and absent from the table. */
  predicate FreshIds(table: Table, rows: seq<SlateRow>) {
    DistinctIds(rows) && forall i :: 0 <= i < |rows| ==> rows[i].jsonoddsId !in table
  }

  lemma FirstBatchFits(table: Table, batches: seq<seq<SlateRow>>)
    requires |batches| > 0 && FreshIds(table, Flatten(batches))
    ensures !Conflicts(table, batches[0])
  {
    var all := Flatten(batches);
    assert all == batches[0] + Flatten(batches[1..]);
    assert forall i :: 0 <= i < |batches[0]| ==> batches[0][i] == all[i];
  }

  lemma DistinctSuffix(a: seq<SlateRow>, b: seq<SlateRow>)
    requires DistinctIds(a + b)
    ensures DistinctIds(b)
  {
    var all := a + b;
    forall i, j | 0 <= i < j < |b| ensures b[i].jsonoddsId != b[j].jsonoddsId {
      assert b[i] == all[|a| + i] && b[j] == all[|a| + j];
    }
  }

  /** Rows after `a` in a fresh sequence stay fresh in `t1`, a table that
      gained only `a`'s ids. */
  lemma FreshSuffix(table: Table, a: seq<SlateRow>, b: seq<SlateRow>, t1: Table)
    requires FreshIds(table, a + b)
    requires forall id :: id in t1 ==> id in table || exists k :: 0 <= k < |a| && a[k].jsonoddsId == id
    ensures FreshIds(t1, b)
  {
    DistinctSuffix(a, b);
    var all := a + b;
    forall i | 0 <= i < |b| ensures b[i].jsonoddsId !in t1 {
      assert b[i] == all[|a| + i];
      forall k | 0 <= k < |a| ensures a[k].jsonoddsId != b[i].jsonoddsId {
        assert a[k] == all[k];
      }
    }
  }

  /** After the first batch went in, the later batches still carry fresh ids. */
  lemma LaterBatchesFit(table: Table, batches: seq<seq<SlateRow>>, t1: Table)
    requires |batches| > 0 && FreshIds(table, Flatten(batches))
    requires forall id :: id in t1 ==> id in table || exists k :: 0 <= k < |batches[0]| && batches[0][k].jsonoddsId == id
    ensures FreshIds(t1, Flatten(batches[1..]))
  {
    assert Flatten(batches) == batches[0] + Flatten(batches[1..]);
    FreshSuffix(table, batches[0], Flatten(batches[1..]), t1);
  }

  /** With every insert succeeding, batches of distinct ids none of which is
      in the table insert every row, as its fresh record. */
  lemma {:induction false} InsertAllAdds(table: Table, batches: seq<seq<SlateRow>>, batchOk: nat -> bool, from: nat, k: nat, j: nat)
    requires forall m: nat :: batchOk(m)
    requires FreshIds(table, Flatten(batches))
    requires k < |batches| && j < |batches[k]|
    ensures batches[k][j].jsonoddsId in InsertAll(table, batches, batchOk, from)
    ensures InsertAll(table, batches, batchOk, from)[batches[k][j].jsonoddsId] == InsertRecord(batches[k][j])
    decreases |batches|
  {
    FirstBatchFits(table, batches);
    var t1 := InsertBatch(table, batches[0], batchOk(from));
    if k == 0 {
      InsertBatchAdds(table, batches[0], j);
    } else {
      LaterBatchesFit(table, batches, t1);
      assert batches[k][j] == batches[1..][k - 1][j];
      InsertAllAdds(t1, batches[1..], batchOk, from + 1, k - 1, j);
    }
  }

  /** `update ... eq('jsonodds_id', id)`: writes the sync columns of the
      matching record, if any; a failed call changes nothing. */
  function UpdateOne(table: Table, row: SlateRow, ok: bool): (r: Table)
    ensures r.Keys == table.Keys
    ensures forall id :: id in table && id != row.jsonoddsId ==> r[id] == table[id]
    ensures ok && row.jsonoddsId in table ==> r[row.jsonoddsId] == table[row.jsonoddsId] + UpdatePayload(row)
    ensures !ok ==> r == table
  {
    if ok && row.jsonoddsId in table then table[row.jsonoddsId := table[row.jsonoddsId] + UpdatePayload(row)] else table
  }

  /** The updates, one per row in order; the last successful update of an
      id decides its sync columns. */
  function UpdateAll(table: Table, rows: seq<SlateRow>, updateOk: string -> bool): (r: Table)
    ensures r.Keys == table.Keys
    decreases |rows|
  {
    if |rows| == 0 then table
    else UpdateAll(UpdateOne(table, rows[0], updateOk(rows[0].jsonoddsId)), rows[1..], updateOk)
  }

  /** Two refreshes in a row: the later payload covers the same columns, so
      it replaces the earlier one entirely. */
  lemma PayloadOverrides(rec: Record, a: SlateRow, b: SlateRow)
    ensures rec + UpdatePayload(a) + UpdatePayload(b) == rec + UpdatePayload(b)
  {
    var lhs := rec + UpdatePayload(a) + UpdatePayload(b);
    var rhs := rec + UpdatePayload(b);
    assert lhs.Keys == rhs.Keys;
    forall c | c in lhs ensures lhs[c] == rhs[c] {
      if c in SyncColumns {
        assert lhs[c] == UpdatePayload(b)[c];
      }
    }
  }

  /** A record no update names, or whose update failed, is unchanged. */
  lemma {:induction false} UpdateAllUntouched(table: Table, rows: seq<SlateRow>, updateOk: string -> bool, id: string)
    requires id in table
    requires !updateOk(id) || forall m :: 0 <= m < |rows| ==> rows[m].jsonoddsId != id
    ensures UpdateAll(table, rows, updateOk)[id] == table[id]
    decreases |rows|
  {
    if |rows| > 0 {
      var t1 := UpdateOne(table, rows[0], updateOk(rows[0].jsonoddsId));
      assert t1[id] == table[id];
      assert forall m :: 0 <= m < |rows| - 1 ==> rows[1..][m] == rows[m + 1];
      UpdateAllUntouched(t1, rows[1..], updateOk, id);
    }
  }

  /** An existing record whose last update succeeds ends up as its old
      columns overwritten by that row's payload. */
  lemma {:induction false} UpdateAllRefreshes(table: Table, rows: seq<SlateRow>, updateOk: string -> bool, k: nat)
    requires k < |rows| && rows[k].jsonoddsId in table && updateOk(rows[k].jsonoddsId)
    requires forall m :: k < m < |rows| ==> rows[m].jsonoddsId != rows[k].jsonoddsId
    ensures var id := rows[k].jsonoddsId;
            UpdateAll(table, rows, updateOk)[id] == table[id] + UpdatePayload(rows[k])
    decreases |rows|
  {
    var id := rows[k].jsonoddsId;
    var t1 := UpdateOne(table, rows[0], updateOk(rows[0].jsonoddsId));
    assert forall m :: 0 <= m < |rows| - 1 ==> rows[1..][m] == rows[m + 1];
    if k == 0 {
      UpdateAllUntouched(t1, rows[1..], updateOk, id);
    } else {
      UpdateAllRefreshes(t1, rows[1..], updateOk, k - 1);
      if rows[0].jsonoddsId == id {
        PayloadOverrides(table[id], rows[0], rows[k]);
      }
    }
  }

  /** A refresh never writes outside the sync columns: `evaluate`, `source`,
      the id and the user's settings keep their values. */
  lemma {:induction false} UpdatesKeepOwnedColumns(table: Table, rows: seq<SlateRow>, updateOk: string -> bool, id: string, c: Column)
    requires id in table && c !in SyncColumns
    ensures var r := UpdateAll(table, rows, updateOk);
            (c in r[id] <==> c in table[id]) && (c in table[id] ==> r[id][c] == table[id][c])
    decreases |rows|
  {
    if |rows| > 0 {
      var t1 := UpdateOne(table, rows[0], updateOk(rows[0].jsonoddsId));
      UpdatesKeepOwnedColumns(t1, rows[1..], updateOk, id, c);
    }
  }

  predicate IsNull(rec: Record, c: Column) {
    c !in rec || rec[c] == Null
  }

  /** Started before the cutoff: a game time strictly earlier than it. */
  predicate StartedBefore(rec: Record, cutoff: int) {
    GameTimeCol in rec && rec[GameTimeCol].Time? && rec[GameTimeCol].seconds < cutoff
  }

  /** The past-game rule: undecided games that started more than two hours
      ago get `evaluate = false`; nothing else changes. */
  function Deactivate(table: Table, now: int): (r: Table)
    ensures r.Keys == table.Keys
    ensures forall id :: id in table && StartedBefore(table[id], now - DeactivateAfter) && IsNull(table[id], EvaluateCol) ==>
              r[id] == table[id][EvaluateCol := Bool(false)]
    ensures forall id :: id in table && !(StartedBefore(table[id], now - DeactivateAfter) && IsNull(table[id], EvaluateCol)) ==>
              r[id] == table[id]
  {
    map id | id in table ::
      if StartedBefore(table[id], now - DeactivateAfter) && IsNull(table[id], EvaluateCol)
      then table[id][EvaluateCol := Bool(false)] else table[id]
  }

  lemma DeactivateIdempotent(table: Table, now: int)
    ensures Deactivate(Deactivate(table, now), now) == Deactivate(table, now)
  {
    var once := Deactivate(table, now);
    forall id | id in once ensures Deactivate(once, now)[id] == once[id] {
      assert !IsNull(once[id], EvaluateCol) || !StartedBefore(once[id], now - DeactivateAfter);
    }
  }

  /** After the clean-up no game that started before the cutoff is left
      undecided. */
  lemma DeactivateClosesPast(table: Table, now: int)
    ensures var r := Deactivate(table, now);
            forall id :: id in r && StartedBefore(r[id], now - DeactivateAfter) ==> !IsNull(r[id], EvaluateCol)
  {
    var r := Deactivate(table, now);
    forall id | id in r && StartedBefore(r[id], now - DeactivateAfter) ensures !IsNull(r[id], EvaluateCol) {
      if IsNull(table[id], EvaluateCol) {
        assert StartedBefore(table[id], now - DeactivateAfter);
      }
    }
  }

  /** A decided game (`evaluate` true or false) is never touched. */
  lemma DeactivateKeepsDecisions(table: Table, now: int, id: string)
    requires id in table && !IsNull(table[id], EvaluateCol)
    ensures Deactivate(table, now)[id] == table[id]
  {
  }

  /** `saveSlateToSupabase`. The store's answers are parameters: `queryOk(k)`
      for the k-th id query, `batchOk(k)` for the k-th insert statement,
      `updateOk(id)` for the update of a row and `cleanupOk` for the
      deactivation. No contests or no usable rows change nothing. */
  function SaveSlateToSupabase(table: Table, events: seq<CombinedEvent>, results: map<int, SportspageResult>, now: int,
                               parseFloat: string -> Option<real>, parseDate: string -> Option<int>,
                               queryOk: nat -> bool, batchOk: nat -> bool, updateOk: string -> bool, cleanupOk: bool)
    : (r: Result<Table, SlateError>)
    ensures |events| == 0 ==> r == Ok(table)
    ensures r.Err? <==> |events| > 0 && BuildSlateRows(events, now, results, parseFloat, parseDate).Err?
    ensures r.Ok? && |events| > 0 && BuildSlateRows(events, now, results, parseFloat, parseDate).value == [] ==> r == Ok(table)
    ensures r.Ok? ==> r.value.Keys >= table.Keys
  {
    if |events| == 0 then Ok(table)
    else
      match BuildSlateRows(events, now, results, parseFloat, parseDate)
      case Err(e) => Err(e)
      case Ok(rows) =>
        if |rows| == 0 then Ok(table)
        else Ok(WriteRows(table, rows, now, queryOk, batchOk, updateOk, cleanupOk))
  }

  /** The writes of a sync with usable rows: query, insert, update, clean up. */
  function WriteRows(table: Table, rows: seq<SlateRow>, now: int,
                     queryOk: nat -> bool, batchOk: nat -> bool, updateOk: string -> bool, cleanupOk: bool): Table
  {
    var existing := ExistingIds(table, Chunks(RowIds(rows), BatchSize), queryOk);
    var inserted := InsertAll(table, Chunks(NewRows(rows, existing), BatchSize), batchOk, 0);
    var updated := UpdateAll(inserted, UpdateRows(rows, existing), updateOk);
    if cleanupOk then Deactivate(updated, now) else updated
  }

  /** When every id query and every insert succeeds and the usable rows have
      distinct ids, every usable contest ends up in the slate: as a fresh
      record or as the existing one it refreshes. */
  lemma SyncCoversRows(table: Table, events: seq<CombinedEvent>, results: map<int, SportspageResult>, now: int,
                       parseFloat: string -> Option<real>, parseDate: string -> Option<int>,
                       queryOk: nat -> bool, batchOk: nat -> bool, updateOk: string -> bool, cleanupOk: bool, k: nat)
    requires forall m: nat :: queryOk(m) && batchOk(m)
    requires BuildSlateRows(events, now, results, parseFloat, parseDate).Ok?
    requires k < |BuildSlateRows(events, now, results, parseFloat, parseDate).value|
    requires DistinctIds(BuildSlateRows(events, now, results, parseFloat, parseDate).value)
    ensures var r := SaveSlateToSupabase(table, events, results, now, parseFloat, parseDate, queryOk, batchOk, updateOk, cleanupOk);
            r.Ok? && BuildSlateRows(events, now, results, parseFloat, parseDate).value[k].jsonoddsId in r.value
  {
    var rows := BuildSlateRows(events, now, results, parseFloat, parseDate).value;
    var id := rows[k].jsonoddsId;
    var existing := ExistingIds(table, Chunks(RowIds(rows), BatchSize), queryOk);
    ExistingIdsExact(table, rows, queryOk);
    var added := NewRows(rows, existing);
    var inserted := InsertAll(table, Chunks(added, BatchSize), batchOk, 0);
    if id !in existing {
      assert rows[k] in added by { assert IsNew(existing)(rows[k]); }
      var j :| 0 <= j < |added| && added[j] == rows[k];
      NewRowsInserted(table, rows, existing, batchOk, j);
    } else {
      assert id in table;
    }
    assert id in inserted;
  }

  /** Dropping rows keeps the remaining ids distinct. */
  lemma {:induction false} FilteredRowsDistinct(rows: seq<SlateRow>, p: SlateRow -> bool)
    requires DistinctIds(rows)
    ensures DistinctIds(Filter(rows, p))
    decreases |rows|
  {
    if |rows| > 0 {
      var tail := rows[1..];
      assert DistinctIds(tail) by {
        assert forall i :: 0 <= i < |tail| ==> tail[i] == rows[i + 1];
      }
      FilteredRowsDistinct(tail, p);
      var ft := Filter(tail, p);
      forall k | 0 <= k < |ft| ensures ft[k].jsonoddsId != rows[0].jsonoddsId {
        var m :| 0 <= m < |tail| && tail[m] == ft[k];
        assert tail[m] == rows[m + 1];
      }
    }
  }

  /** Under successful inserts, every row whose id the queries did not find
      is in the table after the inserts, as its fresh record. */
  lemma NewRowsInserted(table: Table, rows: seq<SlateRow>, existing: set<string>, batchOk: nat -> bool, j: nat)
    requires forall m: nat :: batchOk(m)
    requires DistinctIds(rows)
    requires forall id :: id in existing <==> id in RowIds(rows) && id in table
    requires j < |NewRows(rows, existing)|
    ensures NewRows(rows, existing)[j].jsonoddsId in InsertAll(table, Chunks(NewRows(rows, existing), BatchSize), batchOk, 0)
    ensures InsertAll(table, Chunks(NewRows(rows, existing), BatchSize), batchOk, 0)[NewRows(rows, existing)[j].jsonoddsId]
              == InsertRecord(NewRows(rows, existing)[j])
  {
    var added := NewRows(rows, existing);
    var ids := RowIds(rows);
    FilteredRowsDistinct(rows, IsNew(existing));
    forall i | 0 <= i < |added| ensures added[i].jsonoddsId !in table {
      var m :| 0 <= m < |rows| && rows[m] == added[i];
      assert ids[m] == added[i].jsonoddsId;
    }
    var bs := Chunks(added, BatchSize);
    assert Flatten(bs) == added;
    var kb, jb := FlattenIndex(bs, j);
    InsertAllAdds(table, bs, batchOk, 0, kb, jb);
  }

  /** The promise at the head of src/slateSync.ts: a sync never overwrites a
      decision the user made. A record already in the table with a non-null
      `evaluate` keeps it, whatever the contests and the store's answers. */
  lemma SyncKeepsEvaluate(table: Table, events: seq<CombinedEvent>, results: map<int, SportspageResult>, now: int,
                          parseFloat: string -> Option<real>, parseDate: string -> Option<int>,
                          queryOk: nat -> bool, batchOk: nat -> bool, updateOk: string -> bool, cleanupOk: bool, id: string)
    requires id in table && !IsNull(table[id], EvaluateCol)
    requires SaveSlateToSupabase(table, events, results, now, parseFloat, parseDate, queryOk, batchOk, updateOk, cleanupOk).Ok?
    ensures var r := SaveSlateToSupabase(table, events, results, now, parseFloat, parseDate, queryOk, batchOk, updateOk, cleanupOk).value;
            EvaluateCol in r[id] && r[id][EvaluateCol] == table[id][EvaluateCol]
  {
    if |events| > 0 {
      var rows := BuildSlateRows(events, now, results, parseFloat, parseDate).value;
      if |rows| > 0 {
        var existing := ExistingIds(table, Chunks(RowIds(rows), BatchSize), queryOk);
        var inserted := InsertAll(table, Chunks(NewRows(rows, existing), BatchSize), batchOk, 0);
        assert id in inserted;
        OwnedColumnsNotSynced();
        UpdatesKeepOwnedColumns(inserted, UpdateRows(rows, existing), updateOk, id, EvaluateCol);
        var updated := UpdateAll(inserted, UpdateRows(rows, existing), updateOk);
        assert !IsNull(updated[id], EvaluateCol);
      }
    }
  }

  /** The refresh promised for rows already in the table: when the id
      queries succeed, the usable rows have distinct ids and the row's update
      succeeds, the record holds the row's values in every sync column
      (`evaluate` is outside them, so the clean-up cannot disturb them), and
      without the clean-up it is exactly its old columns overwritten by the
      payload. */
  lemma SyncRefreshesExisting(table: Table, events: seq<CombinedEvent>, results: map<int, SportspageResult>, now: int,
                              parseFloat: string -> Option<real>, parseDate: string -> Option<int>,
                              queryOk: nat -> bool, batchOk: nat -> bool, updateOk: string -> bool, cleanupOk: bool, k: nat)
    requires forall m: nat :: queryOk(m)
    requires BuildSlateRows(events, now, results, parseFloat, parseDate).Ok?
    requires k < |BuildSlateRows(events, now, results, parseFloat, parseDate).value|
    requires DistinctIds(BuildSlateRows(events, now, results, parseFloat, parseDate).value)
    requires BuildSlateRows(events, now, results, parseFloat, parseDate).value[k].jsonoddsId in table
    requires updateOk(BuildSlateRows(events, now, results, parseFloat, parseDate).value[k].jsonoddsId)
    ensures var row := BuildSlateRows(events, now, results, parseFloat, parseDate).value[k];
            var r := SaveSlateToSupabase(table, events, results, now, parseFloat, parseDate, queryOk, batchOk, updateOk, cleanupOk);
            && r.Ok? && row.jsonoddsId in r.value
            && (forall c :: c in SyncColumns ==> c in r.value[row.jsonoddsId] && r.value[row.jsonoddsId][c] == RowValue(row, c))
            && (!cleanupOk ==> r.value[row.jsonoddsId] == table[row.jsonoddsId] + UpdatePayload(row))
  {
    var rows := BuildSlateRows(events, now, results, parseFloat, parseDate).value;
    WriteRowsRefreshes(table, rows, now, queryOk, batchOk, updateOk, cleanupOk, k);
  }

  lemma WriteRowsRefreshes(table: Table, rows: seq<SlateRow>, now: int,
                           queryOk: nat -> bool, batchOk: nat -> bool, updateOk: string -> bool, cleanupOk: bool, k: nat)
    requires forall m: nat :: queryOk(m)
    requires k < |rows| && DistinctIds(rows) && rows[k].jsonoddsId in table && updateOk(rows[k].jsonoddsId)
    ensures var r := WriteRows(table, rows, now, queryOk, batchOk, updateOk, cleanupOk);
            && rows[k].jsonoddsId in r
            && (forall c :: c in SyncColumns ==> c in r[rows[k].jsonoddsId] && r[rows[k].jsonoddsId][c] == RowValue(rows[k], c))
            && (!cleanupOk ==> r[rows[k].jsonoddsId] == table[rows[k].jsonoddsId] + UpdatePayload(rows[k]))
  {
    var row := rows[k];
    var id := row.jsonoddsId;
    var existing := ExistingIds(table, Chunks(RowIds(rows), BatchSize), queryOk);
    ExistingIdsExact(table, rows, queryOk);
    assert RowIds(rows)[k] == id;
    assert id in existing;
    var inserted := InsertAll(table, Chunks(NewRows(rows, existing), BatchSize), batchOk, 0);
    var upd := UpdateRows(rows, existing);
    assert row in upd by { assert IsExisting(existing)(rows[k]); }
    var j :| 0 <= j < |upd| && upd[j] == row;
    FilteredRowsDistinct(rows, IsExisting(existing));
    UpdateAllRefreshes(inserted, upd, updateOk, j);
    var updated := UpdateAll(inserted, upd, updateOk);
    var rec := table[id] + UpdatePayload(row);
    assert updated[id] == rec;
    var fin := if cleanupOk then Deactivate(updated, now) else updated;
    assert fin[id] == rec || fin[id] == rec[EvaluateCol := Bool(false)];
    RefreshedHoldsRow(table[id], row, fin[id]);
  }

  /** A refreshed record, whether or not the clean-up then closed it, holds
      the row's value in every sync column. */
  lemma RefreshedHoldsRow(before: Record, row: SlateRow, rec: Record)
    requires rec == before + UpdatePayload(row) || rec == (before + UpdatePayload(row))[EvaluateCol := Bool(false)]
    ensures forall c :: c in SyncColumns ==> c in rec && rec[c] == RowValue(row, c)
  {
    var p := UpdatePayload(row);
    OwnedColumnsNotSynced();
    forall c | c in SyncColumns ensures c in rec && rec[c] == RowValue(row, c) {
      assert c in p && c != EvaluateCol;
      assert (before + p)[c] == p[c];
    }
  }

  /** The past-game rule at the level of the sync: after a sync with usable
      rows whose clean-up succeeded, no record that started more than two
      hours ago is left undecided. */
  lemma SyncClosesPastGames(table: Table, events: seq<CombinedEvent>, results: map<int, SportspageResult>, now: int,
                            parseFloat: string -> Option<real>, parseDate: string -> Option<int>,
                            queryOk: nat -> bool, batchOk: nat -> bool, updateOk: string -> bool)
    requires BuildSlateRows(events, now, results, parseFloat, parseDate).Ok?
    requires |BuildSlateRows(events, now, results, parseFloat, parseDate).value| > 0
    ensures var r := SaveSlateToSupabase(table, events, results, now, parseFloat, parseDate, queryOk, batchOk, updateOk, true);
            && r.Ok?
            && forall id :: id in r.value && StartedBefore(r.value[id], now - DeactivateAfter) ==> !IsNull(r.value[id], EvaluateCol)
  {
    var rows := BuildSlateRows(events, now, results, parseFloat, parseDate).value;
    WriteRowsClosesPast(table, rows, now, queryOk, batchOk, updateOk);
  }

  lemma WriteRowsClosesPast(table: Table, rows: seq<SlateRow>, now: int,
                            queryOk: nat -> bool, batchOk: nat -> bool, updateOk: string -> bool)
    ensures var r := WriteRows(table, rows, now, queryOk, batchOk, updateOk, true);
            forall id :: id in r && StartedBefore(r[id], now - DeactivateAfter) ==> !IsNull(r[id], EvaluateCol)
  {
    var existing := ExistingIds(table, Chunks(RowIds(rows), BatchSize), queryOk);
    var inserted := InsertAll(table, Chunks(NewRows(rows, existing), BatchSize), batchOk, 0);
    var updated := UpdateAll(inserted, UpdateRows(rows, existing), updateOk);
    assert WriteRows(table, rows, now, queryOk, batchOk, updateOk, true) == Deactivate(updated, now);
    DeactivateClosesPast(updated, now);
  }

  /** A new game's record after the sync: the fresh insert, with `evaluate`
      null, switched to false by the clean-up only when it already started
      more than two hours ago. */
  lemma SyncInsertsNew(table: Table, events: seq<CombinedEvent>, results: map<int, SportspageResult>, now: int,
                       parseFloat: string -> Option<real>, parseDate: string -> Option<int>,
                       queryOk: nat -> bool, batchOk: nat -> bool, updateOk: string -> bool, cleanupOk: bool, k: nat)
    requires forall m: nat :: queryOk(m) && batchOk(m)
    requires BuildSlateRows(events, now, results, parseFloat, parseDate).Ok?
    requires k < |BuildSlateRows(events, now, results, parseFloat, parseDate).value|
    requires DistinctIds(BuildSlateRows(events, now, results, parseFloat, parseDate).value)
    requires BuildSlateRows(events, now, results, parseFloat, parseDate).value[k].jsonoddsId !in table
    ensures var row := BuildSlateRows(events, now, results, parseFloat, parseDate).value[k];
            var r := SaveSlateToSupabase(table, events, results, now, parseFloat, parseDate, queryOk, batchOk, updateOk, cleanupOk);
            && r.Ok? && row.jsonoddsId in r.value
            && r.value[row.jsonoddsId] ==
                 if cleanupOk && StartedBefore(InsertRecord(row), now - DeactivateAfter)
                 then InsertRecord(row)[EvaluateCol := Bool(false)] else InsertRecord(row)
  {
    var rows := BuildSlateRows(events, now, results, parseFloat, parseDate).value;
    WriteRowsInserts(table, rows, now, queryOk, batchOk, updateOk, cleanupOk, k);
  }

  lemma WriteRowsInserts(table: Table, rows: seq<SlateRow>, now: int,
                         queryOk: nat -> bool, batchOk: nat -> bool, updateOk: string -> bool, cleanupOk: bool, k: nat)
    requires forall m: nat :: queryOk(m) && batchOk(m)
    requires k < |rows| && DistinctIds(rows) && rows[k].jsonoddsId !in table
    ensures var r := WriteRows(table, rows, now, queryOk, batchOk, updateOk, cleanupOk);
            && rows[k].jsonoddsId in r
            && r[rows[k].jsonoddsId] ==
                 if cleanupOk && StartedBefore(InsertRecord(rows[k]), now - DeactivateAfter)
                 then InsertRecord(rows[k])[EvaluateCol := Bool(false)] else InsertRecord(rows[k])
  {
    var row := rows[k];
    var id := row.jsonoddsId;
    var existing := ExistingIds(table, Chunks(RowIds(rows), BatchSize), queryOk);
    ExistingIdsExact(table, rows, queryOk);
    assert id !in existing;
    var added := NewRows(rows, existing);
    assert row in added by { assert IsNew(existing)(rows[k]); }
    var j :| 0 <= j < |added| && added[j] == row;
    NewRowsInserted(table, rows, existing, batchOk, j);
    var inserted := InsertAll(table, Chunks(added, BatchSize), batchOk, 0);
    assert inserted[id] == InsertRecord(row);
    var upd := UpdateRows(rows, existing);
    UpdateAllUntouched(inserted, upd, updateOk, id);
    var updated := UpdateAll(inserted, upd, updateOk);
    assert updated[id] == InsertRecord(row);
    InsertedUndecided(row);
  }
}

=== FILE: team_names.dfy ===
/** Team-name canonicalisation (`teamNameAliases`, `standardizeTeamName`,
    `getTeamNameForSport` in src/monitor.ts). */
module TeamNames {
  import opened Wrappers

  /** The aliases one canonical name has within one league. */
  datatype TeamAlias = TeamAlias(league: int, aliases: seq<string>)

  /** One entry of the alias table: a canonical name and its per-league lists. */
  datatype AliasEntry = AliasEntry(standardName: string, leagueAliases: seq<TeamAlias>)

  /** The table, in its insertion order (league 1 = NBA, 2 = college basketball). */
  const TeamNameAliases: seq<AliasEntry> := [
    AliasEntry("Los Angeles Clippers", [TeamAlias(1, ["LA Clippers", "Los Angeles Clippers"])]),
    AliasEntry("Portland Trail Blazers", [TeamAlias(1, ["Portland Trailblazers", "Portland Trail Blazers"])]),
    AliasEntry("Miami Florida", [TeamAlias(2, ["Miami (FL)", "Miami Florida"])]),
    AliasEntry("Miami Ohio", [TeamAlias(2, ["Miami (OH)", "Miami Ohio"])]),
    AliasEntry("Connecticut", [TeamAlias(2, ["UConn", "Connecticut"])])
  ]

  /** `leagueAliases.find(alias => alias.league === league)`. */
  function FindLeague(las: seq<TeamAlias>, league: int): (r: Option<TeamAlias>)
    ensures r.Some? ==> r.value in las && r.value.league == league
    ensures r.None? ==> forall a :: a in las ==> a.league != league
  {
    if |las| == 0 then None
    else if las[0].league == league then Some(las[0])
    else FindLeague(las[1..], league)
  }

  /** The entry's list for `league` (the first one) names `name`. */
  predicate Listed(e: AliasEntry, name: string, league: int) {
    var f := FindLeague(e.leagueAliases, league);
    f.Some? && name in f.value.aliases
  }

  /** Resolution against any table: the canonical name of the first entry
      that lists `name` for `league`, else `name` itself. */
  function Standardize(table: seq<AliasEntry>, name: string, league: int): (r: string)
    ensures (forall i :: 0 <= i < |table| ==> !Listed(table[i], name, league)) ==> r == name
    ensures forall i :: 0 <= i < |table| && Listed(table[i], name, league)
                        && (forall j :: 0 <= j < i ==> !Listed(table[j], name, league))
                        ==> r == table[i].standardName
    ensures r == name || exists i :: 0 <= i < |table| && Listed(table[i], name, league) && r == table[i].standardName
  {
    if |table| == 0 then name
    else if Listed(table[0], name, league) then table[0].standardName
    else
      var r := Standardize(table[1..], name, league);
      assert forall i :: 1 <= i < |table| ==> table[i] == table[1..][i - 1];
      r
  }

  /** `standardizeTeamName` over the shipped table. */
  function StandardizeTeamName(name: string, league: int): string {
    Standardize(TeamNameAliases, name, league)
  }

  /** Every canonical name is in each of its own lists and in no other entry's
      list: the condition under which resolving is idempotent. */
  ghost predicate WellFormed(table: seq<AliasEntry>) {
    && (forall i, k :: 0 <= i < |table| && 0 <= k < |table[i].leagueAliases|
          ==> table[i].standardName in table[i].leagueAliases[k].aliases)
    && (forall i, j, k :: 0 <= i < |table| && 0 <= j < |table| && i != j && 0 <= k < |table[j].leagueAliases|
          ==> table[i].standardName !in table[j].leagueAliases[k].aliases)
  }

  lemma {:induction false} StandardizeIdempotent(table: seq<AliasEntry>, name: string, league: int)
    requires WellFormed(table)
    ensures Standardize(table, Standardize(table, name, league), league) == Standardize(table, name, league)
    decreases |table|
  {
    if |table| > 0 {
      var r := Standardize(table, name, league);
      var tail := table[1..];
      if Listed(table[0], name, league) {
        var f := FindLeague(table[0].leagueAliases, league);
        var k :| 0 <= k < |table[0].leagueAliases| && table[0].leagueAliases[k] == f.value;
        assert Listed(table[0], r, league);
      } else {
        assert r == Standardize(tail, name, league);
        assert WellFormed(tail) by {
          forall i, k | 0 <= i < |tail| && 0 <= k < |tail[i].leagueAliases|
            ensures tail[i].standardName in tail[i].leagueAliases[k].aliases
          {
            assert tail[i] == table[i + 1];
          }
          forall i, j, k | 0 <= i < |tail| && 0 <= j < |tail| && i != j && 0 <= k < |tail[j].leagueAliases|
            ensures tail[i].standardName !in tail[j].leagueAliases[k].aliases
          {
            assert tail[i] == table[i + 1] && tail[j] == table[j + 1];
          }
        }
        StandardizeIdempotent(tail, name, league);
        if r != name {
          var i :| 0 <= i < |tail| && Listed(tail[i], name, league) && r == tail[i].standardName;
          assert r == table[i + 1].standardName;
          var f := FindLeague(table[0].leagueAliases, league);
          if f.Some? {
            var k :| 0 <= k < |table[0].leagueAliases| && table[0].leagueAliases[k] == f.value;
            assert r !in f.value.aliases;
          }
          assert !Listed(table[0], r, league);
        }
      }
    }
  }

  /** The shipped table's canonical names, in order. */
  lemma ShippedNames()
    ensures |TeamNameAliases| == 5
    ensures forall i :: 0 <= i < 5 ==> |TeamNameAliases[i].leagueAliases| == 1
    ensures TeamNameAliases[0].standardName == "Los Angeles Clippers"
    ensures TeamNameAliases[1].standardName == "Portland Trail Blazers"
    ensures TeamNameAliases[2].standardName == "Miami Florida"
    ensures TeamNameAliases[3].standardName == "Miami Ohio"
    ensures TeamNameAliases[4].standardName == "Connecticut"
  {
  }

  /** No other canonical name appears in entry `j`'s list. */
  lemma ShippedListExcludesOthers(j: nat)
    requires j < 5
    ensures forall i :: 0 <= i < 5 && i != j ==> TeamNameAliases[i].standardName !in TeamNameAliases[j].leagueAliases[0].aliases
  {
    ShippedNames();
    var t := TeamNameAliases;
    var names := ["Los Angeles Clippers", "Portland Trail Blazers", "Miami Florida", "Miami Ohio", "Connecticut"];
    assert forall i :: 0 <= i < 5 ==> t[i].standardName == names[i];
    var a := t[j].leagueAliases[0].aliases;
    assert |a| == 2 && a[1] == names[j];
    assert forall i :: 0 <= i < 5 && i != j ==> names[i] != a[0] && names[i] != a[1];
  }

  lemma ShippedTableWellFormed()
    ensures WellFormed(TeamNameAliases)
  {
    ShippedNames();
    var t := TeamNameAliases;
    forall j | 0 <= j < |t|
      ensures forall i :: 0 <= i < |t| && i != j ==> t[i].standardName !in t[j].leagueAliases[0].aliases
    {
      ShippedListExcludesOthers(j);
    }
  }

  /** Resolving twice is resolving once, for the shipped table. */
  lemma StandardizeTeamNameIdempotent(name: string, league: int)
    ensures StandardizeTeamName(StandardizeTeamName(name, league), league) == StandardizeTeamName(name, league)
  {
    ShippedTableWellFormed();
    StandardizeIdempotent(TeamNameAliases, name, league);
  }

  /** Which entries have a list for the two leagues of the shipped table. */
  lemma LeagueLists()
    ensures forall i :: 0 <= i < 2 ==> FindLeague(TeamNameAliases[i].leagueAliases, 1) == Some(TeamNameAliases[i].leagueAliases[0])
    ensures forall i :: 2 <= i < 5 ==> FindLeague(TeamNameAliases[i].leagueAliases, 1).None?
    ensures forall i :: 0 <= i < 2 ==> FindLeague(TeamNameAliases[i].leagueAliases, 2).None?
    ensures forall i :: 2 <= i < 5 ==> FindLeague(TeamNameAliases[i].leagueAliases, 2) == Some(TeamNameAliases[i].leagueAliases[0])
  {
  }

  /** "Miami (FL)" and "Miami Florida" meet in league 2; "Miami (OH)" does not. */
  lemma MiamiExample()
    ensures StandardizeTeamName("Miami (FL)", 2) == StandardizeTeamName("Miami Florida", 2) == "Miami Florida"
    ensures StandardizeTeamName("Miami (OH)", 2) == "Miami Ohio"
  {
    var t := TeamNameAliases;
    LeagueLists();
    assert !Listed(t[0], "Miami (FL)", 2) && !Listed(t[1], "Miami (FL)", 2) && Listed(t[2], "Miami (FL)", 2);
    assert !Listed(t[0], "Miami Florida", 2) && !Listed(t[1], "Miami Florida", 2) && Listed(t[2], "Miami Florida", 2);
    assert "Miami (OH)" != "Miami (FL)" && "Miami (OH)" != "Miami Florida";
    assert !Listed(t[2], "Miami (OH)", 2) && Listed(t[3], "Miami (OH)", 2);
  }

  /** An NBA alias resolves in the NBA but is not applied in league 2. */
  lemma LeagueScopeExample()
    ensures StandardizeTeamName("LA Clippers", 1) == "Los Angeles Clippers"
    ensures StandardizeTeamName("LA Clippers", 2) == "LA Clippers"
  {
    var t := TeamNameAliases;
    LeagueLists();
    assert Listed(t[0], "LA Clippers", 1);
    assert "LA Clippers" != "Miami (FL)" && "LA Clippers" != "Miami Florida";
    assert "LA Clippers" != "Miami (OH)" && "LA Clippers" != "Miami Ohio";
    assert "LA Clippers" != "UConn" && "LA Clippers" != "Connecticut";
    assert forall i :: 0 <= i < |t| ==> !Listed(t[i], "LA Clippers", 2);
  }

  /** The JsonOdds sport ids whose Rundown names need the mascot appended
      (MLB, NBA, NFL, NHL, WNBA). */
  const SportsWithMascot: set<int> := {0, 1, 4, 5, 8}

  /** The name looked up for a Rundown team. */
  function LookupName(sport: int, name: string, mascot: Option<string>): string {
    if sport in SportsWithMascot && mascot.Some? && mascot.value != "" then name + " " + mascot.value else name
  }

  /** `getTeamNameForSport`: the canonical form of the looked-up name. */
  function TeamNameForSport(sport: int, name: string, mascot: Option<string>): string {
    StandardizeTeamName(LookupName(sport, name, mascot), sport)
  }

  /** Outside the mascot sports the mascot is irrelevant: any two mascots,
      or none, give the canonical form of the bare name. */
  lemma MascotIgnoredOutside(sport: int, name: string, m1: Option<string>, m2: Option<string>)
    requires sport !in SportsWithMascot
    ensures TeamNameForSport(sport, name, m1) == TeamNameForSport(sport, name, m2) == StandardizeTeamName(name, sport)
  {
  }

  /** An empty mascot counts as no mascot. */
  lemma EmptyMascotIsAbsent(sport: int, name: string)
    ensures TeamNameForSport(sport, name, Some("")) == TeamNameForSport(sport, name, None)
  {
  }

  /** In a mascot sport, a Rundown name and mascot resolve exactly as the
      full name JsonOdds gives ("LA" with "Clippers" as "LA Clippers"), so
      the two feeds meet on the same canonical name. */
  lemma MascotMatchesFullName(sport: int, name: string, mascot: string)
    requires sport in SportsWithMascot && mascot != ""
    ensures TeamNameForSport(sport, name, Some(mascot)) == TeamNameForSport(sport, name + " " + mascot, None)
    ensures TeamNameForSport(sport, name, Some(mascot)) == StandardizeTeamName(name + " " + mascot, sport)
  {
  }

  /** The result is already canonical: standardising it again changes
      nothing. */
  lemma TeamNameCanonical(sport: int, name: string, mascot: Option<string>)
    ensures StandardizeTeamName(TeamNameForSport(sport, name, mascot), sport) == TeamNameForSport(sport, name, mascot)
  {
    StandardizeTeamNameIdempotent(LookupName(sport, name, mascot), sport);
  }

  /** The NBA mascot completes the aliased name. */
  lemma NbaMascotExample()
    ensures TeamNameForSport(1, "LA", Some("Clippers")) == "Los Angeles Clippers"
  {
    var looked := LookupName(1, "LA", Some("Clippers"));
    assert looked == "LA Clippers" by {
      assert 1 in SportsWithMascot;
      assert "LA" + " " + "Clippers" == "LA Clippers";
    }
    LeagueScopeExample();
  }

  /** League 2 is not a mascot sport: the mascot is ignored. */
  lemma CollegeMascotExample()
    ensures TeamNameForSport(2, "Miami (FL)", Some("Hurricanes")) == "Miami Florida"
  {
    var looked := LookupName(2, "Miami (FL)", Some("Hurricanes"));
    assert looked == "Miami (FL)" by {
      assert 2 !in SportsWithMascot;
    }
    MiamiExample();
  }
}

=== FILE: text.dfy ===
/** Character-level helpers for the string operations the source calls:
    `String.prototype.trim`, `toLowerCase` on addresses, and the decimal
    form of a non-negative integer (`BigInt.prototype.toString`). */
module Text {

  predicate IsDigit(c: char) {
    '0' <= c <= '9'
  }

  predicate AllDigits(s: string) {
    forall i :: 0 <= i < |s| ==> IsDigit(s[i])
  }

  /** The white-space and line-terminator code points that ECMAScript's
      `trim` removes. */
  predicate IsWhitespace(c: char) {
    || c == '\t' || c == '\n' || c == '\U{B}' || c == '\U{C}' || c == '\r'
    || c == ' ' || c == '\U{A0}' || c == '\U{1680}'
    || ('\U{2000}' <= c <= '\U{200A}')
    || c == '\U{2028}' || c == '\U{2029}' || c == '\U{202F}' || c == '\U{205F}'
    || c == '\U{3000}' || c == '\U{FEFF}'
  }

  /** Drops the leading white space. */
  function TrimStart(s: string): (r: string)
    ensures |r| <= |s| && r == s[|s| - |r|..]
    ensures forall i :: 0 <= i < |s| - |r| ==> IsWhitespace(s[i])
    ensures |r| > 0 ==> !IsWhitespace(r[0])
  {
    if |s| > 0 && IsWhitespace(s[0]) then TrimStart(s[1..]) else s
  }

  /** Drops the trailing white space. */
  function TrimEnd(s: string): (r: string)
    ensures |r| <= |s| && r == s[..|r|]
    ensures forall i :: |r| <= i < |s| ==> IsWhitespace(s[i])
    ensures |r| > 0 ==> !IsWhitespace(r[|r| - 1])
  {
    if |s| > 0 && IsWhitespace(s[|s| - 1]) then TrimEnd(s[..|s| - 1]) else s
  }

  /** `s.trim()`: the infix of `s` between the white space at both ends. */
  function Trim(s: string): (r: string)
    ensures exists i, j :: 0 <= i <= j <= |s| && r == s[i..j]
                           && (forall k :: 0 <= k < i ==> IsWhitespace(s[k]))
                           && (forall k :: j <= k < |s| ==> IsWhitespace(s[k]))
    ensures |r| > 0 ==> !IsWhitespace(r[0]) && !IsWhitespace(r[|r| - 1])
  {
    var a := TrimStart(s);
    var r := TrimEnd(a);
    var i := |s| - |a|;
    assert r == s[i..i + |r|];
    r
  }

  lemma {:induction false} TrimIdempotent(s: string)
    ensures Trim(Trim(s)) == Trim(s)
  {
    var r := Trim(s);
    if |r| > 0 {
      assert TrimStart(r) == r;
      assert TrimEnd(r) == r;
    }
  }

  /** Lower-casing of one character; only ASCII letters are mapped. */
  function LowerChar(c: char): char {
    if 'A' <= c <= 'Z' then (c as int + 32) as char else c
  }

  /** `s.toLowerCase()` on the ASCII range (addresses are hexadecimal). */
  function Lower(s: string): (r: string)
    ensures |r| == |s|
    ensures forall i :: 0 <= i < |s| ==> r[i] == LowerChar(s[i])
    ensures forall i :: 0 <= i < |r| ==> !('A' <= r[i] <= 'Z')
  {
    seq(|s|, i requires 0 <= i < |s| => LowerChar(s[i]))
  }

  lemma LowerIdempotent(s: string)
    ensures Lower(Lower(s)) == Lower(s)
  {
  }

  function DigitChar(d: nat): (c: char)
    requires d < 10
    ensures IsDigit(c)
  {
    ('0' as int + d) as char
  }

  function DigitValue(c: char): (d: nat)
    requires IsDigit(c)
    ensures d < 10 && DigitChar(d) == c
  {
    c as int - '0' as int
  }

  /** The decimal numeral of `n`, most significant digit first. */
  function NatToDecimal(n: nat): (r: string)
    ensures |r| > 0 && AllDigits(r)
    ensures |r| > 1 ==> r[0] != '0'
    decreases n
  {
    if n < 10 then [DigitChar(n)] else NatToDecimal(n / 10) + [DigitChar(n % 10)]
  }

  /** The value of a string of decimal digits (`parseInt` of the digits). */
  function DigitsValue(s: string): (v: nat)
    requires AllDigits(s)
  {
    if |s| == 0 then 0 else DigitsValue(s[..|s| - 1]) * 10 + DigitValue(s[|s| - 1])
  }

  lemma {:induction false} DigitsOfNatToDecimal(n: nat)
    ensures DigitsValue(NatToDecimal(n)) == n
    decreases n
  {
    var r := NatToDecimal(n);
    if n >= 10 {
      DigitsOfNatToDecimal(n / 10);
      assert r[..|r| - 1] == NatToDecimal(n / 10);
    }
  }

  /** Distinct numbers have distinct numerals. */
  lemma NatToDecimalInjective(a: nat, b: nat)
    ensures NatToDecimal(a) == NatToDecimal(b) ==> a == b
  {
    DigitsOfNatToDecimal(a);
    DigitsOfNatToDecimal(b);
  }
}

=== FILE: wrappers.dfy ===
/** Optional values and results with an error, used wherever the source
    works with `undefined`, `NaN` or a thrown exception. */
module Wrappers {

  /** `None` stands for a missing (`undefined`) or non-numeric (`NaN`) value. */
  datatype Option<+T> = None | Some(value: T)

  /** `Err` stands for an exception that escapes the operation. */
  datatype Result<+T, +E> = Ok(value: T) | Err(error: E)
}
